=== FILE: README.md ===
# Storefront client core in Dafny

A model of the client-side state and decision code of a storefront web
application. The application sells products from a catalogue, keeps a cart
bounded by stock, prices delivery from a route, captures addresses, verifies
the customer's phone with a PIN and places orders against a hosted REST
database. Every network call, the clock, random text and browser storage
become parameters of the model. What is kept is the rules that run before
and after those calls. Each source file is one Dafny module:

- `cart.dfy`, `product_cart.dfy`, `product_quantity.dfy`: the cart store, its
  per-product view and the quantity stepper.
- `delivery_pricing.dfy`: the linear delivery fee.
- `route_cache.dfy`: the route cache with expiry, an in-flight flag and a cap
  of twenty entries, plus duration formatting.
- `search_history.dfy`: the bounded, duplicate-free search history.
- `catalogue.dfy`, `products_store.dfy`, `product_filtering.dfy`: search,
  category filter and grouping by sorted categories.
- `order_store.dfy`, `addresses_store.dfy`, `address_format.dfy`,
  `addresses_api.dfy`, `user_addresses.dfy`, `save_address.dfy`: the order
  and address state.
- `order_api.dfy`: order creation.
- `verification.dfy`: phone and PIN checks.
- `map_location.dfy`: the delivery-point picker.
- `store_status.dfy`: the open/closed decision.
- `inline_edit.dfy`, `product_expansion.dfy`: two small UI state machines.
- `interceptors.dfy`, `api_client.dfy`, `supabase_api.dfy`: shaping of HTTP
  headers and the choice of interceptor chain.

`wrappers.dfy`, `text.dfy` and `interfaces.dfy` hold shared definitions:
- `Option` and `Outcome`, where `Threw` stands for a rejected promise.
- JavaScript truthiness of optional strings, and `||` defaults.
- ASCII case mapping, trimming, substring search, and decimal rendering
  of numbers.
- The record types of the interfaces directory.

Classes model the objects whose fields the source updates in place. Their
methods are specified by pure functions of the old state, for example
`Cart.Incremented`, `AddressesStore.AfterLoad` and `RouteCache.AfterStore`.
The properties are proved about those functions.

## Model

| member | source | states |
|---|---|---|
| Cart.CalculateCartTotals | app/stores/cart.ts:30-35 | subtotal is the sum of unit price × quantity; shipping is 0 for an empty cart, else the delivery cost or 50; total = subtotal + shipping |
| Cart.TotalItems | app/stores/cart.ts:57-59 | the quantities summed: never negative when no quantity is, and 0 when every quantity is 0 |
| Cart.TotalItemsPositive | app/stores/cart.ts:57-59 | in a well-formed cart (every quantity positive) the unit count is non-negative, and positive exactly when the cart has lines |
| Cart.FindIndex | app/stores/cart.ts:93 | the first line with the id, or -1 exactly when no line has it |
| Cart.GetQuantity | app/stores/cart.ts:42-45 | 0 for an absent product; in a well-formed cart, the quantity of the product's line |
| Cart.HasProductInCart | app/stores/cart.ts:47-49 | holds iff some line has the id |
| Cart.CanAddMoreIncrements | app/stores/cart.ts:51-55 | when `canAddMore` says yes, `incrementQuantity` raises the product's quantity by exactly one; for a product already in the cart, or one without an id, it says yes only then |
| Cart.OutOfStockStillAdded | app/stores/cart.ts:79-88 | a product not in the cart whose stock is 0 or less gets `canAddMore` false, yet `incrementQuantity` adds it with one unit, above its stock |
| Cart.HasIffPositive | app/stores/cart.ts:42-49 | in a well-formed cart a product is in the cart iff its quantity is positive |
| Cart.SubtotalAppend | app/stores/cart.ts:31 | appending a line adds its line total to the subtotal |
| Cart.SubtotalUpdate | app/stores/cart.ts:31 | replacing a line changes the subtotal by the difference of line totals |
| Cart.SubtotalSplice | app/stores/cart.ts:31 | removing a line subtracts its line total |
| Cart.IncrementedWellFormed | app/stores/cart.ts:69-90 | incrementing keeps ids distinct and non-empty and every quantity positive |
| Cart.IncrementedQuantity | app/stores/cart.ts:69-90 | incrementing raises only that product's quantity, by 1 below stock and by 0 at stock; a new product gets 1 |
| Cart.IncrementedWithinStock | app/stores/cart.ts:74-89 | a cart within stock stays within it exactly when: the id is empty, or the product is in the cart at its stock or at least one unit below it, or it is new and its stock is at least 1 |
| Cart.IncrementedWithinWholeStock | app/stores/cart.ts:74-89 | with a whole-number quantity and stock, incrementing keeps the cart within stock unless it adds a new product whose stock is below 1 |
| Cart.IncrementedSubtotal | app/stores/cart.ts:74-89 | the subtotal grows by the line's unit price when a unit is added, by the product's price for a new line, and is otherwise unchanged |
| Cart.DecrementedWellFormed | app/stores/cart.ts:92-105 | decrementing keeps the cart well formed: a line at 1 or less is removed, never left at 0 or below |
| Cart.DecrementedQuantity | app/stores/cart.ts:92-105 | decrementing lowers only that product's quantity: by one above 1, to 0 (the line goes) at 1 or less; an absent id changes nothing |
| Cart.DecrementedSubtotal | app/stores/cart.ts:92-105 | the subtotal drops by the unit price when a unit is removed, and by the whole line total when the line goes |
| Cart.DecrementedRemovesOnlyThatLine | app/stores/cart.ts:97-101 | a line at quantity 1 or less is spliced out and every other line keeps its order and value |
| Cart.WithQuantityWellFormed | app/stores/cart.ts:107-134 | setting a quantity keeps the cart well formed |
| Cart.WithQuantityQuantity | app/stores/cart.ts:107-134 | quantity ≤ 0 removes the line, above stock changes nothing, otherwise the line holds exactly that quantity |
| Cart.WithQuantityWithinStock | app/stores/cart.ts:112-133 | setting a quantity never takes a line above stock |
| Cart.CartStore.UpdateCartTotals | app/stores/cart.ts:61-67 | the three totals become those of the current lines; the lines are unchanged |
| Cart.CartStore.IncrementQuantity | app/stores/cart.ts:69-90 | the lines become `Incremented` of the old lines, the cart stays valid and the totals are recomputed |
| Cart.CartStore.DecrementQuantity | app/stores/cart.ts:92-105 | the lines become `Decremented`; an absent id leaves the whole store unchanged |
| Cart.CartStore.SetQuantity | app/stores/cart.ts:107-134 | the lines become `WithQuantity`, the cart stays valid and the totals are recomputed |
| Cart.CartStore.ClearCart | app/stores/cart.ts:136-139 | no lines, and subtotal, shipping and total all 0 |
| ProductCartComposable.ProductCart.Quantity | app/composables/useProductCart.ts:6-7 | equals the store's quantity for this product's id, and is positive iff the product is in the cart |
| ProductCartComposable.ProductCart.InCart | app/composables/useProductCart.ts:7 | holds iff the store has a line for this product's id |
| ProductCartComposable.ProductCart.MayAddMore | app/composables/useProductCart.ts:8 | the store's answer; a yes means `increment` adds exactly one unit, and for a product in the cart a no means `increment` changes nothing |
| ProductCartComposable.ProductCart.Increment | app/composables/useProductCart.ts:10-12 | exactly the store's increment on this product |
| ProductCartComposable.ProductCart.Decrement | app/composables/useProductCart.ts:14-16 | exactly the store's decrement on this product's id |
| ProductCartComposable.ProductCart.SetQuantity | app/composables/useProductCart.ts:18-22 | forwards only when 0 ≤ n ≤ stock, otherwise the store is unchanged; stock bounds are preserved |
| ProductQuantity.Clamp | app/composables/useProductQuantity.ts:11-13 | the value clamped into 0..maxStock: never negative, never above a non-negative maxStock, the value itself when in range |
| ProductQuantity.WholeMagnitude | app/composables/useProductQuantity.ts:52 | a non-negative whole number within 1 below the absolute value |
| ProductQuantity.QuantityStepper.HasProductInCart | app/composables/useProductQuantity.ts:7 | shown in the cart exactly when the stepper can decrease, i.e. when a clamped decrement lowers the quantity |
| ProductQuantity.QuantityStepper.CanAddMore | app/composables/useProductQuantity.ts:8 | from a non-negative quantity, holds exactly when a clamped increment raises the quantity |
| ProductQuantity.QuantityStepper.CanDecrease | app/composables/useProductQuantity.ts:9 | holds exactly when a clamped decrement lowers the quantity |
| ProductQuantity.QuantityStepper.SetQuantity | app/composables/useProductQuantity.ts:11-13 | quantity becomes the clamped value |
| ProductQuantity.QuantityStepper.Increment | app/composables/useProductQuantity.ts:15-19 | nothing at or above maxStock, else exactly +1 within range; quantity never exceeds maxStock |
| ProductQuantity.QuantityStepper.Decrement | app/composables/useProductQuantity.ts:21-25 | nothing at 0, else exactly −1 within range; quantity never goes negative |
| ProductQuantity.QuantityStepper.StartEdit | app/composables/useProductQuantity.ts:27-35 | the temporary value is the quantity, editing is on, and the interaction callback is called exactly when given |
| ProductQuantity.QuantityStepper.SaveEdit | app/composables/useProductQuantity.ts:37-45 | the clamped temporary value goes to the callback or to quantity, and editing ends |
| ProductQuantity.QuantityStepper.CancelEdit | app/composables/useProductQuantity.ts:47-49 | editing ends and quantity is unchanged |
| ProductQuantity.QuantityStepper.HandleInput | app/composables/useProductQuantity.ts:51-54 | the temporary value becomes floor(abs(t)), and the interaction callback is called exactly when given |
| DeliveryPricing.RoundToCents | app/utils/deliveryPricing.ts:39 | a whole number of cents lying within half a cent of the unrounded total |
| DeliveryPricing.RoundToCentsMonotone | app/utils/deliveryPricing.ts:39 | rounding to cents never reverses the order of two amounts |
| DeliveryPricing.Formatted | app/utils/deliveryPricing.ts:40 | "$", then the decimal digits of the total rounded to a whole unit, then " MXN" |
| DeliveryPricing.CalculateDeliveryCost | app/utils/deliveryPricing.ts:13-41 | base unchanged, distance cost = km × per-km, time cost = minutes × per-minute, total = the three rounded to cents |
| DeliveryPricing.ZeroTripCostsBase | app/utils/deliveryPricing.ts:33 | zero distance and duration cost exactly the base (rounded to cents) |
| DeliveryPricing.LongerTripCostsNoLess | app/utils/deliveryPricing.ts:31-39 | with non-negative rates a longer or slower trip never costs less, before and after rounding |
| DeliveryPricing.FiveKilometreExample | app/utils/deliveryPricing.ts:13-41 | 5 km and 15 min at 30 + 7/km + 1.5/min cost 87.5, shown as "$88 MXN" |
| RouteCache.FirstRoute | app/composables/useMapboxDirections.ts:61-65 | a route exactly when the answer's code is 'Ok' with a non-empty route list, and then the first one |
| RouteCache.FailureMessage | app/composables/useMapboxDirections.ts:61-87 | no route gives 'No se pudo calcular la ruta'; a thrown error keeps its message; anything else gives 'Error al calcular la ruta' |
| RouteCache.AfterStore | app/composables/useMapboxDirections.ts:68-76 | the stored key is present, the size stays within 20, and re-storing a key keeps its position |
| RouteCache.AfterStoreNoDuplicates | app/composables/useMapboxDirections.ts:68-76 | the insertion order never repeats a key |
| RouteCache.AfterStoreKeys | app/composables/useMapboxDirections.ts:68-76 | the keys after a store are the old ones plus the new one, minus the evicted one; eviction happens iff a new key meets a full cache, and evicts the earliest-inserted key |
| RouteCache.RouteCache.BeginRoute | app/composables/useMapboxDirections.ts:29-50 | a fresh entry is returned and becomes the route with no lookup; during a lookup in flight the current route is returned; otherwise a lookup starts with the error cleared |
| RouteCache.RouteCache.CompleteRoute | app/composables/useMapboxDirections.ts:51-91 | a found route is stored with its time under the same key in both maps, evicting as `AfterStore` says; a failure sets the error and stores nothing; loading always ends |
| RouteCache.RouteCache.GetRoute | app/composables/useMapboxDirections.ts:29-91 | a fresh hit returns the cached route and changes no cache entry; otherwise, with nothing in flight, a found route is stored under the key with its time while every other key keeps its route and time, and a failure stores nothing and sets the error |
| RouteCache.FormatDurationDenotes | app/composables/useMapboxDirections.ts:177-185 | "m min" under an hour, else "h h r min" with m = 60h + r and r < 60 |
| RouteCache.FormatDurationExamples | app/composables/useMapboxDirections.ts:177-185 | 5400 s is "1h 30min", 2700 s is "45 min" |
| SearchHistory.Without | app/composables/useSearchHistory.ts:28 | exactly the entries other than the term |
| SearchHistory.WithoutIsSubsequence | app/composables/useSearchHistory.ts:28 | removal keeps the order of the rest |
| SearchHistory.WithoutNoRepeats | app/composables/useSearchHistory.ts:28 | removal keeps the history free of repeats |
| SearchHistory.AddedPuts | app/composables/useSearchHistory.ts:20-25 | after adding, the trimmed term is first and occurs once, the length is at most 10, and the rest keep their order |
| SearchHistory.AddedBlank | app/composables/useSearchHistory.ts:21-22 | a term that is blank once trimmed changes nothing |
| SearchHistory.AddedNoRepeats | app/composables/useSearchHistory.ts:23 | adding keeps the history free of repeats |
| SearchHistory.SearchHistory.Add | app/composables/useSearchHistory.ts:20-25 | the history becomes `Added` of the old one |
| SearchHistory.SearchHistory.Remove | app/composables/useSearchHistory.ts:27-30 | every occurrence of the term goes and the rest keep their order |
| SearchHistory.SearchHistory.Clear | app/composables/useSearchHistory.ts:32-35 | the history is empty |
| Catalogue.NameLessEqTotal | app/stores/products.ts:24 | the name comparison is total |
| Catalogue.SortByName | app/stores/products.ts:23-25 | sorted by name and a permutation of the categories |
| Catalogue.SearchResults | app/stores/products.ts:30-33 | exactly the products whose lowercased name contains the lowercased trimmed query |
| Catalogue.SearchFiltered | app/stores/products.ts:27-34 | all products for a missing or blank query, otherwise the search results |
| Catalogue.SearchResultsAppend | app/stores/products.ts:32 | filtering distributes over concatenation, so the original order is kept |
| Catalogue.InCategory | app/stores/products.ts:64-66 | exactly the products of that category |
| Catalogue.CategoryFiltered | app/stores/products.ts:59-67 | an id other than 'all' or empty keeps only that category's products; otherwise the search result |
| Catalogue.GroupedUnder | app/stores/products.ts:41-56 | one non-empty group per category that has products, in category order, holding exactly that category's products |
| Catalogue.GroupedUnderAppend | app/stores/products.ts:49-55 | the groups follow the category sequence piece by piece |
| Catalogue.GroupedUnderComplete | app/stores/products.ts:49-55 | every category with products gets its group |
| Catalogue.GroupsFromGrouped | app/stores/products.ts:41-56 | reading groups out of the per-category map gives exactly `GroupedUnder` |
| Catalogue.GroupProducts | app/stores/products.ts:41-56 | the loop that fills the map and reads it back yields `GroupedUnder` |
| ProductsStore.ProductsStore.SortedCategories | app/stores/products.ts:23-25 | a name-sorted permutation of the categories |
| ProductsStore.ProductsStore.SearchFilteredProducts | app/stores/products.ts:27-34 | all products for a blank query, else the name matches in catalogue order (equal to `SearchResults`), and exactly those |
| ProductsStore.ProductsStore.Groups | app/stores/products.ts:36-57 | empty unless 'all' is selected and categories exist; groups are non-empty, of a stored category, and each holds exactly its category's search results in order (`InCategory`) |
| ProductsStore.ProductsStore.GroupedByCategory | app/stores/products.ts:38-57 | the grouping loop yields `Groups` |
| ProductsStore.ProductsStore.FilteredProducts | app/stores/products.ts:59-67 | the search result for 'all' or '', else exactly the selected category's search results in order (`InCategory`) |
| ProductsStore.ProductsStore.ProcessedData | app/stores/products.ts:69-75 | grouped iff the selection is 'all', with the groups, else the filtered products |
| ProductsStore.ProductsStore.HasData | app/stores/products.ts:77 | holds iff both the category and the product lists are non-empty |
| ProductsStore.ProductsStore.SetProducts | app/stores/products.ts:83-85 | replaces only the product list |
| ProductsStore.ProductsStore.SetCategories | app/stores/products.ts:87-89 | replaces only the category list |
| ProductsStore.ProductsStore.SetSelectedCategory | app/stores/products.ts:91-93 | replaces only the selected category |
| ProductsStore.ProductsStore.SetSearchQuery | app/stores/products.ts:95-97 | replaces only the search query |
| ProductsStore.ProductsStore.SetLoading | app/stores/products.ts:99-101 | replaces only the loading flag |
| ProductsStore.ProductsStore.SetError | app/stores/products.ts:103-105 | replaces only the error |
| ProductsStore.ProductsStore.FetchData | app/stores/products.ts:108-145 | both lists on success; each failure sets its own message; loading always ends |
| ProductsStore.ProductsStore.ClearFilters | app/stores/products.ts:147-150 | the selection is {'all', 'Todas'} and the query '' |
| ProductFiltering.SortedCategories | app/composables/useProductFiltering.ts:13-16 | empty with no categories, else a name-sorted permutation |
| ProductFiltering.SearchFilteredProducts | app/composables/useProductFiltering.ts:18-25 | all products for a missing or blank query, else the name matches in catalogue order (equal to `SearchResults`), and exactly those |
| ProductFiltering.Groups | app/composables/useProductFiltering.ts:27-46 | empty with grouping off or no categories; groups are non-empty and hold their category's search results in order |
| ProductFiltering.GroupedByCategory | app/composables/useProductFiltering.ts:27-46 | the grouping loop yields `Groups` |
| ProductFiltering.FilteredProducts | app/composables/useProductFiltering.ts:48-56 | the search result for no category, '' or 'all'; otherwise exactly that category's search results in order (`InCategory`) |
| ProductFiltering.ProcessedData | app/composables/useProductFiltering.ts:58-64 | grouped iff the grouping option is on |
| OrderStore.DefaultedSelection | app/stores/order.ts:92-102 | a selection is kept; none picks the first element of a non-empty list |
| OrderStore.DefaultedSelectionIdempotent | app/stores/order.ts:92-102 | defaulting twice is defaulting once |
| OrderStore.OrderStore.constructor | app/stores/order.ts:20-44 | one address with id '1', three payment methods, two delivery methods, nothing selected |
| OrderStore.OrderStore.CanPlaceOrder | app/stores/order.ts:53-61 | holds iff a non-empty phone and an address, a payment method and a delivery method are all selected |
| OrderStore.OrderStore.SetPhone | app/stores/order.ts:63-65 | replaces only the phone |
| OrderStore.OrderStore.SetAddressList | app/stores/order.ts:67-69 | replaces only the address list |
| OrderStore.OrderStore.SetSelectedAddress | app/stores/order.ts:71-73 | replaces only the selected address |
| OrderStore.OrderStore.SetPaymentMethods | app/stores/order.ts:75-77 | replaces only the payment methods |
| OrderStore.OrderStore.SetSelectedPaymentMethod | app/stores/order.ts:79-81 | replaces only the selected payment method |
| OrderStore.OrderStore.SetDeliveryMethods | app/stores/order.ts:83-85 | replaces only the delivery methods |
| OrderStore.OrderStore.SetSelectedDeliveryMethod | app/stores/order.ts:87-89 | replaces only the selected delivery method |
| OrderStore.OrderStore.InitializeDefaults | app/stores/order.ts:92-102 | each selection defaulted; with all lists non-empty, an order can be placed iff the phone is set |
| OrderStore.OrderStore.AddNewAddress | app/stores/order.ts:104-113 | the new address comes first, the rest keep their order, and it is selected |
| AddressFormat.SpacedStreet | app/composables/useUserAddresses.ts:39 | without an interior number the street is calle + " " + exterior number |
| AddressFormat.ToAddress | app/composables/useUserAddresses.ts:37-42 | id, colony and reference copied; street in the spaced spelling |
| AddressFormat.FormatAddress | app/composables/useAddressesApi.ts:18-23 | id, colony and reference copied; street in the "#" spelling |
| AddressFormat.ToAddresses | app/composables/useUserAddresses.ts:37-42 | one address per row, in order |
| AddressFormat.FormatAddresses | app/composables/useAddressesApi.ts:40-41 | one address per row, in order |
| AddressFormat.SpellingsDiffer | app/composables/useAddressesApi.ts:18-23 | this spelling and the one in `useUserAddresses.ts` agree except the "#" one is two characters longer and ends in a space without an interior number |
| AddressFormat.SavePayload | app/composables/useAddressesApi.ts:68-79 | name 'Mi dirección', postal code '00000', not default, references defaulting to '' |
| AddressesStore.Merge | app/stores/addresses.ts:62-64 | each given field replaces the stored one, the others stay |
| AddressesStore.IndexOfId | app/stores/addresses.ts:61 | the first entry with the id, or -1 exactly when none has it |
| AddressesStore.UpdatedTouchesFirstMatchOnly | app/stores/addresses.ts:60-65 | only the first entry with the id is merged; an unknown id changes nothing |
| AddressesStore.RemovedDropsFirstMatch | app/stores/addresses.ts:67-72 | only the first matching entry is removed; the others keep their order |
| AddressesStore.AfterLoad | app/stores/addresses.ts:26-54 | no user empties the list and clears the initialized flag; initialized and not forced changes nothing; success replaces and initializes; failure empties and sets the error |
| AddressesStore.AfterLoadAsWritten | app/stores/addresses.ts:18-51 | the load as written always takes the failure path with the missing-function error |
| AddressesStore.AsWrittenLoadNeverSucceeds | app/stores/addresses.ts:43-51 | whatever the stored addresses, the load as written ends with an empty list and an error, where the corrected load would succeed |
| AddressesStore.LoadOnce | app/stores/addresses.ts:34-37 | after one successful load a second unforced load changes nothing |
| AddressesStore.AddressesStore.HasAddresses | app/stores/addresses.ts:24 | holds iff the stored list is non-empty |
| AddressesStore.AddressesStore.LoadAddresses | app/stores/addresses.ts:26-54 | the state becomes `AfterLoad`, and the loader is called exactly when the guards let it |
| AddressesStore.AddressesStore.LoadAddressesAsWritten | app/stores/addresses.ts:26-54 | the state becomes `AfterLoadAsWritten` |
| AddressesStore.AddressesStore.AddAddress | app/stores/addresses.ts:56-58 | prepends; the others keep their order |
| AddressesStore.AddressesStore.UpdateAddress | app/stores/addresses.ts:60-65 | the list becomes `Updated` |
| AddressesStore.AddressesStore.RemoveAddress | app/stores/addresses.ts:67-72 | the list becomes `Removed` |
| AddressesStore.AddressesStore.ClearAddresses | app/stores/addresses.ts:74-78 | empty list, not initialized, no error |
| AddressesApi.AddressesApi.HasAddresses | app/composables/useAddressesApi.ts:14 | holds iff the list is non-empty |
| AddressesApi.AddressesApi.IsReady | app/composables/useAddressesApi.ts:15 | holds iff not loading and the error is absent or empty |
| AddressesApi.AddressesApi.LoadAddresses | app/composables/useAddressesApi.ts:26-52 | no user changes nothing; a non-empty result replaces the list in order; an empty one keeps it; an error empties it and sets the message |
| AddressesApi.AddressesApi.SaveAddress | app/composables/useAddressesApi.ts:54-95 | no user sets the error and throws before posting; otherwise posts `SavePayload`; a failure rethrows its message or the fallback |
| AddressesApi.AddressesApi.ClearAddresses | app/composables/useAddressesApi.ts:97-99 | the list is empty |
| UserAddresses.UserAddresses.LoadAddresses | app/composables/useUserAddresses.ts:20-53 | no user changes nothing; an array replaces the list with the mapped rows; an error empties it and sets the message |
| SaveAddress.AddressSaver.Save | app/composables/useSaveAddress.ts:18-95 | no user throws with nothing changed; an empty reply fails with 'No se pudo guardar la dirección'; success prepends and selects the saved address in the order store |
| OrderApi.ErrorMessage | app/composables/useOrderApi.ts:117 | the server's message, else the error's, else 'Error al crear el pedido'; never empty |
| OrderApi.ReplyId | app/composables/useOrderApi.ts:76 | the id of an array reply's first row (none for an empty array), of an object reply, or none for no reply |
| OrderApi.AddressPosts | app/composables/useOrderApi.ts:143-160 | the address write appears exactly when one was made |
| OrderApi.MapPaymentMethod | app/composables/useOrderApi.ts:171-178 | card ↔ tarjeta, mixed ↔ mixto, anything else ↔ efectivo |
| OrderApi.PaymentMedium | app/composables/useOrderApi.ts:54 | a selected non-empty kind is mapped by `MapPaymentMethod`; no selection or an empty kind pays in cash ('efectivo'); 'tarjeta' and 'mixto' come only from 'card' and 'mixed' |
| OrderApi.NewAddressBody | app/composables/useOrderApi.ts:143-160 | the created address: street and colony from the selection, 'S/N', '00000', default, zero coordinates |
| OrderApi.CreateOrGetAddress | app/composables/useOrderApi.ts:129-169 | no selection fails; a non-empty id not starting 'temp-' and not '1' is reused without posting; otherwise one is created and its returned id used |
| OrderApi.LastEightDigits | app/composables/useOrderApi.ts:44 | the last eight characters of a digit string are digits |
| OrderApi.NumberLayout | app/composables/useOrderApi.ts:46 | 'ORD-' + digits + '-' + at most four non-lowercase characters has that layout |
| OrderApi.OrderNumber | app/composables/useOrderApi.ts:44-46 | 'ORD-', the last eight digits of the timestamp, '-', up to four characters; 6 to 17 characters, no lowercase |
| OrderApi.Details | app/composables/useOrderApi.ts:83-90 | one detail per cart line in order, subtotal = unit price × quantity, no discount |
| OrderApi.DetailsAddUpToSubtotal | app/composables/useOrderApi.ts:83-90 | the detail subtotals add up to the cart subtotal |
| OrderApi.OrderPayloadFor | app/composables/useOrderApi.ts:49-60 | state 'nuevo', the cart's totals, no discount, the mapped payment, and the delivery title or '' |
| OrderApi.OrderApi.CreateOrder | app/composables/useOrderApi.ts:10-127 | empty cart, then incomplete order, then no session fail in that order with nothing posted; otherwise an order is created exactly when the address step, the order insert (with an id) and the lines insert all succeed, with that id and the generated number; each failure point fixes the writes made so far and the message recorded; the cart is emptied only on success; creation always ends |
| Verification.PhoneExamples | app/composables/useVerification.ts:43 | ten digits pass; a dash or nine digits fail |
| Verification.Verification.ValidatePhoneNumber | app/composables/useVerification.ts:38-58 | accepted iff exactly ten digits; a rejection keeps the phone and sets the error; an acceptance stores the phone and marks it valid |
| Verification.Verification.SendVerificationCode | app/composables/useVerification.ts:60-68 | the service's answer, with its error shown under the phone when it failed |
| Verification.Verification.ValidatePinCode | app/composables/useVerification.ts:70-110 | a PIN that is not four digits is refused without asking the service; a refused PIN keeps the PIN, its validity and the order store's phone, and shows the service's error (or an empty one); an accepted one is stored and the phone goes to the order store |
| Verification.Verification.ClearVerificationState | app/composables/useVerification.ts:112-121 | phone, PIN, flags and errors back to their initial values |
| MapLocation.MapLocation.MapCenter | app/composables/useMapLocation.ts:28-36 | the loaded user position when set, else the marker when set, else the default; never (0, 0) |
| MapLocation.MapLocation.TooltipContent | app/composables/useMapLocation.ts:38-45 | '...' while dragging, else the marker's coordinates |
| MapLocation.MapLocation.GetUserPosition | app/composables/useMapLocation.ts:47-81 | a position becomes the user's, seeds the marker only when it is at (0, 0), and then centres the map; success and failure mark it loaded; no geolocation changes nothing |
| MapLocation.MapLocation.OnMapClick | app/composables/useMapLocation.ts:83-86 | the marker moves to the point |
| MapLocation.MapLocation.OnMarkerDragEnd | app/composables/useMapLocation.ts:88-92 | dragging ends and the marker moves to the point |
| StoreStatus.IsStoreOpen | app/composables/useStoreStatusApi.ts:17-30 | open with the bypass or on a fetch error, else the reported flag |
| StoreStatus.ClosedOnlyWhenReported | app/composables/useStoreStatusApi.ts:17-30 | closed iff no bypass, no error and the service reported closed |
| StoreStatus.DefaultIsOpen | app/composables/useStoreStatusApi.ts:12 | before any answer the store is open |
| InlineEdit.InlineEdit.StartEdit | app/composables/useInlineEdit.ts:6-13 | editing starts from the current value |
| InlineEdit.InlineEdit.SaveEdit | app/composables/useInlineEdit.ts:15-18 | the temporary value goes to the callback and editing ends |
| InlineEdit.InlineEdit.CancelEdit | app/composables/useInlineEdit.ts:20-23 | the temporary value is reset and editing ends |
| InlineEdit.InlineEdit.ValueChanged | app/composables/useInlineEdit.ts:25-29 | an outside change reaches the temporary value only when not editing |
| ProductExpansion.Toggled | app/composables/useProductExpansion.ts:14-16 | toggling the expanded product collapses it, any other is expanded |
| ProductExpansion.ToggleTwice | app/composables/useProductExpansion.ts:14-16 | toggling twice restores nothing-or-this, and collapses another product |
| ProductExpansion.ProductExpansion.IsExpanded | app/composables/useProductExpansion.ts:4 | holds iff the expanded id is this product's; nothing is expanded when no id is set |
| ProductExpansion.ProductExpansion.AtMostOne | app/composables/useProductExpansion.ts:2-4 | at most one product is expanded |
| ProductExpansion.ProductExpansion.Expand | app/composables/useProductExpansion.ts:6-8 | exactly that product is expanded |
| ProductExpansion.ProductExpansion.Collapse | app/composables/useProductExpansion.ts:10-12 | nothing is expanded |
| ProductExpansion.ProductExpansion.Toggle | app/composables/useProductExpansion.ts:14-16 | the product's expanded state flips |
| Interceptors.WithContentType | app/services/core/interceptors.ts:7-11 | 'application/json' when the header is not set, unchanged otherwise |
| Interceptors.ContentTypeIdempotent | app/services/core/interceptors.ts:7-11 | applying it twice is applying it once |
| Interceptors.WithApiKey | app/services/core/interceptors.ts:19-24 | X-API-Key only when the lowercased method is 'post' |
| Interceptors.ApiKeyMethods | app/services/core/interceptors.ts:20-22 | 'POST' gets the key; 'get' and a missing method do not |
| Interceptors.OnRequest | app/services/core/interceptors.ts:5-74 | content type as above; the API key added as X-API-Key on a POST and nothing changed otherwise; Authorization 'Bearer ' + token; Supabase sets apikey and Authorization; logging and the error handler pass the request on |
| Interceptors.SupabaseTouchesTwoHeaders | app/services/core/interceptors.ts:41-46 | the Supabase transform leaves every other header as it was |
| Interceptors.OnResponse | app/services/core/interceptors.ts:60-93 | responses and rejections pass through unchanged |
| Interceptors.ErrorWarnings | app/services/core/interceptors.ts:81-89 | warns about 401 as unauthorised and 500 and above as a server error |
| ApiClient.ClientConfigOf | app/services/core/api-client.ts:49-53 | timeout defaults to 10000 (also for 0), headers to none |
| ApiClient.Chain | app/services/core/api-client.ts:58-66 | content type, then error handler, then logging only in dev mode |
| ApiClient.ChainCredentials | app/services/core/api-client.ts:69-74 | both keys give the Supabase interceptor, the API key alone the bearer one, no API key neither |
| ApiClient.SupabaseChainHeaders | app/services/core/api-client.ts:58-76 | with both keys the registered request handlers leave content type, apikey and bearer token in either running order |
| ApiClient.Client.ApplyInterceptors | app/services/core/api-client.ts:30-46 | each interceptor's request and response sides are registered in list order |
| ApiClient.Create | app/services/core/api-client.ts:48-79 | a new client with the defaulted configuration and the chain registered |
| ApiClient.Preset | app/services/core/api-client.ts:12-19 | only 'supa' is a preset, with its URL and a 10000 ms timeout |
| ApiClient.CreateFromPreset | app/services/core/api-client.ts:81-87 | an unknown preset throws 'Unknown API preset: ' + name |
| SupabaseApi.DefaultHeaders | app/composables/useSupabaseApi.ts:11-14 | apikey, Authorization 'Bearer ' + (auth token or API key), JSON content type |
| SupabaseApi.GetHeaders | app/composables/useSupabaseApi.ts:11-16 | the caller's headers win; every default they do not name is kept |
| SupabaseApi.Fetch | app/composables/useSupabaseApi.ts:19-31 | the key defaults to 'supabase-' + url; a key the caller passes is used |
| SupabaseApi.FetchLazy | app/composables/useSupabaseApi.ts:34-39 | the request is lazy |
| SupabaseApi.LazyOnlyDiffersInLaziness | app/composables/useSupabaseApi.ts:34-39 | the lazy request equals the plain one except for laziness |
| SupabaseApi.Api | app/composables/useSupabaseApi.ts:42-60 | the method defaults to GET |
| SupabaseApi.HeadersMatchInterceptor | app/composables/useSupabaseApi.ts:11-16 | the helper's credentials equal those the Supabase interceptor sets for the same keys |

## Left out

- Browser storage (the cart, the search history, the verification session), the console logging and `import.meta.env` are left out. The build-mode flag, the environment keys and the stored values become parameters.
- Every network call is a parameter holding its result. The same goes for the clock (`now`), `Math.random` text and the browser's geolocation answer. The rendered HTML, the map drawing and the toasts are not modelled.
- Async interleaving is modelled only for the route cache, which has separate begin and complete halves. Elsewhere each async operation runs to completion as one step.
- The Vue watches are left out:
  - the address reload on a user change in the address store and both address composables
  - the phone reload on mount in the verification composable
- In the route cache, `drawRoute`, `clearRoute`, `calculateAndDrawRoute`, `formatDistance` and the `deliveryCost` computed are left out, because they draw on the map or call the pricing function shown elsewhere.
- `refreshAddresses` in the address store and in `useAddressesApi` is `loadAddresses` forced or repeated; it has no separate member.
- Focusing and selecting the input after the next render (`startEdit` in the quantity and inline editors) is not modelled, because it acts on the DOM.
- RouteCache.RouteCache: the key is an abstract value. Rounding the destination to four decimals (`toFixed(4)`) is not modelled.
- Catalogue.NameLessEq: `localeCompare` is modelled as code-point order. Text.Lower: `toLowerCase` is modelled on ASCII letters only.
- MapLocation.MapLocation.TooltipContent: the six-decimal `toFixed` rendering is a parameter, not defined.
- DeliveryPricing.Formatted: the digits of the rounded total are characterised only for totals of at least −0.5, because negative totals do not occur for non-negative trips.
- OrderApi.OrderNumber: the base-36 random text is a parameter. Only its first four characters and the absence of lowercase letters are used.
- OrderApi.MapPaymentMethod: JavaScript prototype keys such as 'toString' in the lookup object are not modelled.
- ApiClient.Preset: `API_CONFIGURATIONS[preset]` also finds inherited prototype keys such as 'toString'; the model knows only 'supa', so `CreateFromPreset` throws for those names where the code would not.
- DeliveryPricing.CalculateDeliveryCost: money and distances are exact reals, not IEEE doubles. The code's floating-point products and sums can differ in the last digit; for example `Math.round(1.005 * 100) / 100` is 1 in JavaScript, while RoundToCents(1.005) is 1.01 here.
- DeliveryPricing.RoundToCents: rounds the exact real value, so it can differ from `Math.round` on the double nearest a half cent (see the line above).
- OrderApi.NewAddressBody: the order store has no `deliveryLocation`, so the coordinates are always 0. The model states that directly.
- ProductQuantity.QuantityStepper: NaN and infinite inputs are not modelled. Quantities, stock and prices here and in the cart are reals, so a fractional quantity is kept as the code keeps it.
- Interceptors.OnRequest: header names are case-sensitive here; the HTTP library's case-insensitive header object is not modelled.
- ApiClient.SupabaseChainHeaders: which order the HTTP library runs request handlers in is library behaviour. The lemma covers both registration order and its reverse.
- Cart: `cart.ts` reads `orderStore.deliveryCost`, which the order store does not define. Every mutating cart method therefore takes the delivery cost as an optional parameter.
- Some behaviours of the code that the model keeps as they are:
  - `calculateDeliveryCost` does not reject negative distances or durations.
  - The route cache has no per-key clear.
  - Route lookup errors are caught and stored in `routeError`; they are not raised to the caller.
  - The content-type interceptor replaces a Content-Type header that is present but empty.
  - A fetch key the caller passes is used as given, even when it is empty.

## Findings

| source | as written | input that shows it | evidently intended | confidence | as-written member | corrected member |
|---|---|---|---|---|---|---|
| app/stores/addresses.ts:18 | the store destructures `loadUserAddresses` from `useUserAddresses()`, which returns `loadAddresses` only, so the call at line 43 throws a TypeError inside the `try` | any signed-in user with saved addresses, `loadAddresses()` | load the user's addresses, store them and mark the store initialized | not executed | AddressesStore.AsWrittenLoadNeverSucceeds | AddressesStore.AddressesStore.LoadAddresses |

=== FILE: address_format.dfy ===
/** How an address row of the `direcciones` table becomes an address for
    the order screens, in the two spellings the composables use, and the
    body posted when a new address is saved. */
module AddressFormat {
  import opened Wrappers
  import opened Interfaces

  /** The interior number with its leading space, or nothing when it is
      missing or empty. */
  function InteriorSuffix(row: AddressRow): string
  {
    if Truthy(row.numeroInterior) then " " + row.numeroInterior.value else ""
  }

  /** The street as the address list and the save flow spell it:
      "calle numero_exterior", then " numero_interior" when present. */
  function SpacedStreet(row: AddressRow): (s: string)
    ensures !Truthy(row.numeroInterior) ==> s == row.calle + " " + row.numeroExterior
  {
    row.calle + " " + row.numeroExterior + InteriorSuffix(row)
  }

  /** The street as `formatAddress` spells it: "calle #numero_exterior ",
      then " numero_interior" when present. */
  function HashStreet(row: AddressRow): string
  {
    row.calle + " #" + row.numeroExterior + " " + InteriorSuffix(row)
  }

  /** The row as an address, with the spaced street. */
  function ToAddress(row: AddressRow): (a: Address)
    ensures a.id == row.id && a.colony == row.colonia && a.reference == row.referencias
    ensures a.street == SpacedStreet(row)
  {
    Address(row.id, SpacedStreet(row), row.colonia, row.referencias)
  }

  /** `formatAddress`: the row as an address, with the '#' street. */
  function FormatAddress(row: AddressRow): (a: Address)
    ensures a.id == row.id && a.colony == row.colonia && a.reference == row.referencias
    ensures a.street == HashStreet(row)
  {
    Address(row.id, HashStreet(row), row.colonia, row.referencias)
  }

  /** `rows.map(...)` with the spaced street. */
  function ToAddresses(rows: seq<AddressRow>): (r: seq<Address>)
    ensures |r| == |rows|
    ensures forall i :: 0 <= i < |rows| ==> r[i] == ToAddress(rows[i])
  {
    if rows == [] then [] else [ToAddress(rows[0])] + ToAddresses(rows[1..])
  }

  /** `rows.map(formatAddress)`. */
  function FormatAddresses(rows: seq<AddressRow>): (r: seq<Address>)
    ensures |r| == |rows|
    ensures forall i :: 0 <= i < |rows| ==> r[i] == FormatAddress(rows[i])
  {
    if rows == [] then [] else [FormatAddress(rows[0])] + FormatAddresses(rows[1..])
  }

  /** The two spellings agree on everything but the street, and the '#'
      spelling is always two characters longer. */
  lemma SpellingsDiffer(row: AddressRow)
    ensures ToAddress(row).(street := "") == FormatAddress(row).(street := "")
    ensures |HashStreet(row)| == |SpacedStreet(row)| + 2
    ensures !Truthy(row.numeroInterior) ==> HashStreet(row) == row.calle + " #" + row.numeroExterior + " "
  {
  }

  /** The body posted for a new address: the form's fields, the user id, and
      fixed name, postal code and default flag; a missing reference is sent
      as ''. */
  function SavePayload(userId: string, data: SaveAddressData): (p: AddressPayload)
    ensures p.usuarioId == userId && p.nombre == "Mi dirección"
    ensures p.calle == data.calle && p.numeroExterior == data.numeroExterior && p.colonia == data.colonia
    ensures p.codigoPostal == "00000" && !p.esPredeterminada
    ensures p.latitud == data.latitud && p.longitud == data.longitud
    ensures p.referencias == if Truthy(data.referencias) then data.referencias.value else ""
  {
    AddressPayload(userId, "Mi dirección", data.calle, data.numeroExterior, data.colonia, "00000",
                   data.latitud, data.longitud, if Truthy(data.referencias) then data.referencias.value else "", false)
  }
}

=== FILE: addresses_api.dfy ===
/** The address composable that loads the user's addresses with the '#'
    street spelling and saves new ones. The database calls are parameters:
    what the select returned, and whether the insert threw. */
module AddressesApi {
  import opened Wrappers
  import opened Interfaces
  import opened AddressFormat

  const NoUserMessage: string := "No hay usuario autenticado"
  const LoadFailedMessage: string := "Error al cargar direcciones"
  const SaveFailedMessage: string := "Error al guardar la dirección"

  class AddressesApi {
    var addresses: seq<Address>
    var isLoading: bool
    var isSaving: bool
    var error: Option<string>

    constructor ()
      ensures addresses == [] && !isLoading && !isSaving && error == None
    {
      addresses, isLoading, isSaving, error := [], false, false, None;
    }

    /** `hasAddresses`. */
    function HasAddresses(): (b: bool)
      reads this
      ensures b <==> addresses != []
    {
      |addresses| > 0
    }

    /** `isReady`: not loading and no (non-empty) error. */
    function IsReady(): (b: bool)
      reads this
      ensures b <==> !isLoading && (error == None || error == Some(""))
    {
      !isLoading && !Truthy(error)
    }

    /** `loadAddresses`: without a user nothing changes. A non-empty result
        replaces the list with the formatted rows in order; an empty or
        missing one keeps the old list. A thrown error empties the list and
        records its message. */
    method LoadAddresses(userId: string, result: Outcome<Option<seq<AddressRow>>>)
      modifies this`addresses, this`isLoading, this`error
      ensures userId == "" ==> addresses == old(addresses) && isLoading == old(isLoading) && error == old(error)
      ensures userId != "" ==> !isLoading
      ensures userId != "" && result.Done? && result.value.Some? && |result.value.value| > 0 ==>
                addresses == FormatAddresses(result.value.value) && error == None
      ensures userId != "" && result.Done? && (result.value.None? || |result.value.value| == 0) ==>
                addresses == old(addresses) && error == None
      ensures userId != "" && result.Threw? ==>
                addresses == [] && error == Some(MessageOr(result.message, LoadFailedMessage))
    {
      if userId == "" {
        return;
      }
      isLoading := true;
      error := None;
      match result {
        case Done(rows) =>
          if rows.Some? && |rows.value| > 0 {
            addresses := FormatAddresses(rows.value);
          }
        case Threw(m) =>
          error := Some(MessageOr(m, LoadFailedMessage));
          addresses := [];
      }
      isLoading := false;
    }

    /** `saveAddress`: without a user the error is set and the call throws
        before anything is posted (`posted` is None). Otherwise the payload
        is posted; a failure records its message and rethrows it. */
    method SaveAddress(userId: string, data: SaveAddressData, insert: Outcome<()>)
      returns (outcome: Outcome<()>, posted: Option<AddressPayload>)
      modifies this`isSaving, this`error
      ensures userId == "" ==> outcome == Threw(NoUserMessage) && posted == None
                                && error == Some(NoUserMessage) && isSaving == old(isSaving)
      ensures userId != "" ==> posted == Some(SavePayload(userId, data)) && !isSaving
      ensures userId != "" && insert.Done? ==> outcome == Done(()) && error == None
      ensures userId != "" && insert.Threw? ==>
                var m := MessageOr(insert.message, SaveFailedMessage);
                outcome == Threw(m) && error == Some(m)
    {
      if userId == "" {
        error := Some(NoUserMessage);
        return Threw(NoUserMessage), None;
      }
      isSaving := true;
      error := None;
      posted := Some(SavePayload(userId, data));
      match insert {
        case Done(_) =>
          outcome := Done(());
        case Threw(m) =>
          var errorMsg := MessageOr(m, SaveFailedMessage);
          error := Some(errorMsg);
          outcome := Threw(errorMsg);
      }
      isSaving := false;
    }

    /** `clearAddresses`. */
    method ClearAddresses()
      modifies this`addresses
      ensures addresses == [] && !HasAddresses()
    {
      addresses := [];
    }
  }
}

=== FILE: addresses_store.dfy ===
/** The shared address store: the signed-in user's addresses, loaded once
    and then kept in memory, with local add, update and remove. */
module AddressesStore {
  import opened Wrappers
  import opened Interfaces

  const LoadFailedMessage: string := "Error al cargar direcciones"
  /** What calling an undefined function throws (the V8 wording). */
  const NotAFunctionMessage: string := "loadUserAddresses is not a function"

  datatype AddressesState = AddressesState(
    addresses: seq<Address>,
    isLoading: bool,
    error: Option<string>,
    isInitialized: bool)

  /** Fields a partial update may carry; `reference` distinguishes an absent
      key from a key present with no value. */
  datatype AddressPatch = AddressPatch(
    id: Option<string>,
    street: Option<string>,
    colony: Option<string>,
    reference: Option<Option<string>>)

  /** `{ ...a, ...patch }`. */
  function Merge(a: Address, patch: AddressPatch): (r: Address)
    ensures r.id == patch.id.GetOr(a.id) && r.street == patch.street.GetOr(a.street)
    ensures r.colony == patch.colony.GetOr(a.colony) && r.reference == patch.reference.GetOr(a.reference)
  {
    Address(patch.id.GetOr(a.id), patch.street.GetOr(a.street), patch.colony.GetOr(a.colony),
            patch.reference.GetOr(a.reference))
  }

  /** `findIndex(addr => addr.id === id)`. */
  function IndexOfId(list: seq<Address>, id: string): (i: int)
    ensures -1 <= i < |list|
    ensures i == -1 <==> forall j :: 0 <= j < |list| ==> list[j].id != id
    ensures i >= 0 ==> list[i].id == id && forall j :: 0 <= j < i ==> list[j].id != id
  {
    IndexOfKey(list, AddressId, id)
  }

  function AddressId(a: Address): string { a.id }

  /** The list after `updateAddress(id, patch)`. */
  function Updated(list: seq<Address>, id: string, patch: AddressPatch): seq<Address>
  {
    var i := IndexOfId(list, id);
    if i == -1 then list else list[i := Merge(list[i], patch)]
  }

  /** The list after `removeAddress(id)`. */
  function Removed(list: seq<Address>, id: string): seq<Address>
  {
    var i := IndexOfId(list, id);
    if i == -1 then list else list[..i] + list[i + 1..]
  }

  /** An update touches the first entry with the id and no other; an unknown
      id changes nothing. */
  lemma UpdatedTouchesFirstMatchOnly(list: seq<Address>, id: string, patch: AddressPatch)
    ensures var r := Updated(list, id, patch);
      var i := IndexOfId(list, id);
      && |r| == |list|
      && (i == -1 ==> r == list)
      && (i >= 0 ==> r[i] == Merge(list[i], patch) && forall j :: 0 <= j < |list| && j != i ==> r[j] == list[j])
  {
  }

  /** A removal drops exactly the first entry with the id; the others keep
      their order. An unknown id changes nothing. */
  lemma RemovedDropsFirstMatch(list: seq<Address>, id: string)
    ensures var r := Removed(list, id);
      var i := IndexOfId(list, id);
      && (i == -1 ==> r == list)
      && (i >= 0 ==> |r| == |list| - 1 && r[..i] == list[..i] && r[i..] == list[i + 1..])
      && (i >= 0 ==> forall j :: 0 <= j < i ==> r[j].id != id)
  {
  }

  /** Whether `loadAddresses` goes on to fetch: only with a user, and only
      when not loaded yet or forced. */
  predicate Loads(s: AddressesState, userId: string, force: bool)
  {
    userId != "" && (!s.isInitialized || force)
  }

  /** The state `loadAddresses(force)` leaves, given what loading the user's
      addresses produced. */
  function AfterLoad(s: AddressesState, userId: string, force: bool, fetched: Outcome<seq<Address>>): (r: AddressesState)
    ensures userId == "" ==> r.addresses == [] && !r.isInitialized && r.error == s.error
    ensures userId != "" && s.isInitialized && !force ==> r == s
    ensures Loads(s, userId, force) ==> !r.isLoading
    ensures Loads(s, userId, force) && fetched.Done? ==>
              r.addresses == fetched.value && r.isInitialized && r.error == None
    ensures Loads(s, userId, force) && fetched.Threw? ==>
              r.addresses == [] && r.isInitialized == s.isInitialized
              && r.error == Some(MessageOr(fetched.message, LoadFailedMessage))
  {
    if userId == "" then s.(addresses := [], isInitialized := false)
    else if s.isInitialized && !force then s
    else match fetched
      case Done(list) => s.(addresses := list, isInitialized := true, isLoading := false, error := None)
      case Threw(m) => s.(addresses := [], isLoading := false, error := Some(MessageOr(m, LoadFailedMessage)))
  }

  /** `loadAddresses` as written: the destructured `loadUserAddresses` is not
      among the names the address composable returns, so the call throws. */
  function AfterLoadAsWritten(s: AddressesState, userId: string, force: bool): (r: AddressesState)
    ensures r == AfterLoad(s, userId, force, Threw(NotAFunctionMessage))
  {
    if userId == "" then s.(addresses := [], isInitialized := false)
    else if s.isInitialized && !force then s
    else s.(addresses := [], isLoading := false, error := Some(NotAFunctionMessage))
  }

  /** As written, a load that runs never succeeds: whatever the user's
      addresses are, the list ends empty, an error is recorded, and a store
      that was not initialized never becomes so; the intended load stores
      the addresses. */
  lemma AsWrittenLoadNeverSucceeds(s: AddressesState, userId: string, force: bool, stored: seq<Address>)
    requires Loads(s, userId, force) && stored != []
    ensures AfterLoadAsWritten(s, userId, force).addresses == []
    ensures AfterLoadAsWritten(s, userId, force).error == Some(NotAFunctionMessage)
    ensures !s.isInitialized ==> !AfterLoadAsWritten(s, userId, force).isInitialized
    ensures AfterLoad(s, userId, force, Done(stored)).addresses == stored
    ensures AfterLoad(s, userId, force, Done(stored)).isInitialized
  {
  }

  /** After one successful load, further unforced loads are served from
      memory: they change nothing, whatever a fetch would produce. */
  lemma LoadOnce(s: AddressesState, userId: string, list: seq<Address>, later: Outcome<seq<Address>>)
    requires userId != ""
    ensures var s1 := AfterLoad(s, userId, false, Done(list));
      !Loads(s1, userId, false) && AfterLoad(s1, userId, false, later) == s1
  {
  }

  class AddressesStore {
    var state: AddressesState

    constructor ()
      ensures state == AddressesState([], false, None, false)
    {
      state := AddressesState([], false, None, false);
    }

    /** `hasAddresses`. */
    function HasAddresses(): (b: bool)
      reads this
      ensures b <==> state.addresses != []
    {
      |state.addresses| > 0
    }

    /** `loadAddresses` with the evidently intended call: `fetched` is what
        loading the user's addresses produced; `loaded` tells whether it was
        asked for. */
    method LoadAddresses(userId: string, force: bool, fetched: Outcome<seq<Address>>) returns (loaded: bool)
      modifies this
      ensures loaded == Loads(old(state), userId, force)
      ensures state == AfterLoad(old(state), userId, force, fetched)
    {
      if userId == "" {
        state := state.(addresses := [], isInitialized := false);
        return false;
      }
      if state.isInitialized && !force {
        return false;
      }
      state := state.(isLoading := true, error := None);
      match fetched {
        case Done(list) =>
          state := state.(addresses := list, isInitialized := true);
        case Threw(m) =>
          state := state.(error := Some(MessageOr(m, LoadFailedMessage)), addresses := []);
      }
      state := state.(isLoading := false);
      return true;
    }

    /** `loadAddresses` as written. */
    method LoadAddressesAsWritten(userId: string, force: bool)
      modifies this
      ensures state == AfterLoadAsWritten(old(state), userId, force)
    {
      var _ := LoadAddresses(userId, force, Threw(NotAFunctionMessage));
    }

    /** `addAddress`: the address goes first; the others follow in order. */
    method AddAddress(address: Address)
      modifies this
      ensures state == old(state).(addresses := [address] + old(state).addresses)
      ensures state.addresses[0] == address && state.addresses[1..] == old(state).addresses
    {
      state := state.(addresses := [address] + state.addresses);
    }

    /** `updateAddress`. */
    method UpdateAddress(id: string, patch: AddressPatch)
      modifies this
      ensures state == old(state).(addresses := Updated(old(state).addresses, id, patch))
    {
      var index := IndexOfId(state.addresses, id);
      if index != -1 {
        state := state.(addresses := state.addresses[index := Merge(state.addresses[index], patch)]);
      }
    }

    /** `removeAddress`. */
    method RemoveAddress(id: string)
      modifies this
      ensures state == old(state).(addresses := Removed(old(state).addresses, id))
    {
      var index := IndexOfId(state.addresses, id);
      if index != -1 {
        state := state.(addresses := state.addresses[..index] + state.addresses[index + 1..]);
      }
    }

    /** `clearAddresses`: empty, not initialized, no error. */
    method ClearAddresses()
      modifies this
      ensures state == old(state).(addresses := [], isInitialized := false, error := None)
      ensures !HasAddresses()
    {
      state := state.(addresses := [], isInitialized := false, error := None);
    }
  }
}

=== FILE: api_client.dfy ===
/** The HTTP client factory: the client configuration with its defaults,
    the interceptor chain chosen from it, and the registration of that
    chain on a new client. The build-mode flag and the environment's keys
    are parameters. */
module ApiClient {
  import opened Wrappers
  import opened Interceptors

  datatype ApiConfig = ApiConfig(
    baseURL: string,
    apiKey: Option<string>,
    authToken: Option<string>,
    headers: Option<Headers>,
    timeout: Option<int>)

  /** The configuration handed to the HTTP library. */
  datatype ClientConfig = ClientConfig(baseURL: string, timeout: int, headers: Headers)

  const DefaultTimeout: int := 10000
  const SupabaseUrl: string := "https://db.el24.cc/rest/v1"

  /** `timeout || 10000` and `headers || {}`: a missing or zero timeout
      falls back to ten seconds, missing headers to none. */
  function ClientConfigOf(c: ApiConfig): (r: ClientConfig)
    ensures r.baseURL == c.baseURL
    ensures (c.timeout.Some? && c.timeout.value != 0) ==> r.timeout == c.timeout.value
    ensures (c.timeout.None? || c.timeout == Some(0)) ==> r.timeout == DefaultTimeout
    ensures c.headers.Some? ==> r.headers == c.headers.value
    ensures c.headers.None? ==> r.headers == map[]
  {
    ClientConfig(c.baseURL,
                 if c.timeout.Some? && c.timeout.value != 0 then c.timeout.value else DefaultTimeout,
                 if c.headers.Some? then c.headers.value else map[])
  }

  /** The interceptors `create` registers, in order. */
  function Chain(c: ApiConfig, dev: bool): (r: seq<Interceptor>)
    ensures 2 <= |r| <= 4 && r[0] == ContentType && r[1] == ErrorHandler
    ensures Logging in r <==> dev
    ensures dev ==> r[2] == Logging
  {
    [ContentType, ErrorHandler]
    + (if dev then [Logging] else [])
    + (if Truthy(c.apiKey) && Truthy(c.authToken) then [Supabase(c.apiKey.value, c.authToken.value)]
       else if Truthy(c.apiKey) then [Auth(c.apiKey.value)]
       else [])
  }

  /** The credential interceptor is Supabase's exactly when both keys are
      given, the bearer one when only the API key is, and absent without an
      API key. */
  lemma ChainCredentials(c: ApiConfig, dev: bool)
    ensures var r := Chain(c, dev);
      (Truthy(c.apiKey) && Truthy(c.authToken) ==> r[|r| - 1] == Supabase(c.apiKey.value, c.authToken.value))
      && (Truthy(c.apiKey) && !Truthy(c.authToken) ==> r[|r| - 1] == Auth(c.apiKey.value))
      && (!Truthy(c.apiKey) ==> |r| == (if dev then 3 else 2))
      && (forall i :: 0 <= i < |r| && (r[i].Supabase? || r[i].Auth?) ==> i == |r| - 1)
      && (forall i :: 0 <= i < |r| ==> !r[i].ApiKey?)
  {
  }

  /** The interceptors of `chain` whose request (or response) side exists,
      in order. */
  function RequestSides(chain: seq<Interceptor>): (r: seq<Interceptor>)
    ensures |r| <= |chain|
    ensures forall i :: 0 <= i < |r| ==> HasRequestSide(r[i]) && r[i] in chain
  {
    if chain == [] then []
    else RequestSides(chain[..|chain| - 1]) + (if HasRequestSide(chain[|chain| - 1]) then [chain[|chain| - 1]] else [])
  }

  function ResponseSides(chain: seq<Interceptor>): (r: seq<Interceptor>)
    ensures |r| <= |chain|
    ensures forall i :: 0 <= i < |r| ==> HasResponseSide(r[i]) && r[i] in chain
  {
    if chain == [] then []
    else ResponseSides(chain[..|chain| - 1]) + (if HasResponseSide(chain[|chain| - 1]) then [chain[|chain| - 1]] else [])
  }

  /** Runs request transforms one after the other, in the given order. */
  function RunRequest(handlers: seq<Interceptor>, q: Request): (r: Request)
    ensures r.httpMethod == q.httpMethod && r.url == q.url
  {
    if handlers == [] then q else RunRequest(handlers[1..], OnRequest(handlers[0], q))
  }

  /** The headers a Supabase client's requests must carry. */
  predicate Credentialed(h: Headers, apiKey: string, authToken: string)
  {
    HasHeader(h, "Content-Type")
    && "apikey" in h && h["apikey"] == apiKey
    && "Authorization" in h && h["Authorization"] == Bearer(authToken)
  }

  /** The request handlers a client with both keys registers. */
  lemma SupabaseRequestSides(c: ApiConfig, dev: bool)
    requires Truthy(c.apiKey) && Truthy(c.authToken)
    ensures var s := Supabase(c.apiKey.value, c.authToken.value);
      RequestSides(Chain(c, dev)) == if dev then [ContentType, Logging, s] else [ContentType, s]
  {
    var s := Supabase(c.apiKey.value, c.authToken.value);
    if dev {
      assert Chain(c, dev) == [ContentType, ErrorHandler, Logging, s];
      assert [ContentType, ErrorHandler, Logging, s][..3] == [ContentType, ErrorHandler, Logging];
      assert [ContentType, ErrorHandler, Logging][..2] == [ContentType, ErrorHandler];
      assert [ContentType, ErrorHandler][..1] == [ContentType];
    } else {
      assert Chain(c, dev) == [ContentType, ErrorHandler, s];
      assert [ContentType, ErrorHandler, s][..2] == [ContentType, ErrorHandler];
      assert [ContentType, ErrorHandler][..1] == [ContentType];
    }
  }

  lemma RunTwo(a: Interceptor, b: Interceptor, q: Request)
    ensures RunRequest([a, b], q) == OnRequest(b, OnRequest(a, q))
  {
    assert [a, b][1..] == [b];
    assert [b][1..] == [];
    calc {
      RunRequest([a, b], q);
      RunRequest([b], OnRequest(a, q));
      RunRequest([], OnRequest(b, OnRequest(a, q)));
    }
  }

  lemma RunThree(a: Interceptor, b: Interceptor, c: Interceptor, q: Request)
    ensures RunRequest([a, b, c], q) == OnRequest(c, OnRequest(b, OnRequest(a, q)))
  {
    assert [a, b, c][1..] == [b, c];
    RunTwo(b, c, OnRequest(a, q));
  }

  /** The content-type and Supabase transforms touch different headers, so
      either order credentials the request. */
  lemma ContentTypeSupabaseCommute(k: string, t: string, q: Request)
    ensures Credentialed(OnRequest(Supabase(k, t), OnRequest(ContentType, q)).headers, k, t)
    ensures Credentialed(OnRequest(ContentType, OnRequest(Supabase(k, t), q)).headers, k, t)
  {
  }

  /** With both keys configured, the registered request handlers leave a
      request with a content type (JSON unless it already had one), the API
      key and the bearer token, whether the library runs them in
      registration order or in reverse. */
  lemma SupabaseChainHeaders(c: ApiConfig, dev: bool, q: Request)
    requires Truthy(c.apiKey) && Truthy(c.authToken)
    ensures Credentialed(RunRequest(RequestSides(Chain(c, dev)), q).headers, c.apiKey.value, c.authToken.value)
    ensures Credentialed(RunRequest(Reverse(RequestSides(Chain(c, dev))), q).headers, c.apiKey.value, c.authToken.value)
  {
    var k, t := c.apiKey.value, c.authToken.value;
    var s := Supabase(k, t);
    SupabaseRequestSides(c, dev);
    ContentTypeSupabaseCommute(k, t, q);
    if dev {
      assert Reverse([ContentType, Logging, s]) == [s, Logging, ContentType];
      RunThree(ContentType, Logging, s, q);
      RunThree(s, Logging, ContentType, q);
    } else {
      assert Reverse([ContentType, s]) == [s, ContentType];
      RunTwo(ContentType, s, q);
      RunTwo(s, ContentType, q);
    }
  }

  function Reverse<T>(s: seq<T>): (r: seq<T>)
    ensures |r| == |s| && forall i :: 0 <= i < |s| ==> r[i] == s[|s| - 1 - i]
  {
    if s == [] then [] else Reverse(s[1..]) + [s[0]]
  }

  /** A client: its configuration and the handlers registered on it. */
  class Client {
    const config: ClientConfig
    var requestHandlers: seq<Interceptor>
    var responseHandlers: seq<Interceptor>

    constructor (config: ClientConfig)
      ensures this.config == config && requestHandlers == [] && responseHandlers == []
    {
      this.config := config;
      requestHandlers, responseHandlers := [], [];
    }

    /** `applyInterceptors`: walks the list in order and registers each
        interceptor's request side and response side where it has one. */
    method ApplyInterceptors(interceptors: seq<Interceptor>)
      modifies this
      ensures requestHandlers == old(requestHandlers) + RequestSides(interceptors)
      ensures responseHandlers == old(responseHandlers) + ResponseSides(interceptors)
    {
      var i := 0;
      while i < |interceptors|
        invariant 0 <= i <= |interceptors|
        invariant requestHandlers == old(requestHandlers) + RequestSides(interceptors[..i])
        invariant responseHandlers == old(responseHandlers) + ResponseSides(interceptors[..i])
      {
        assert interceptors[..i + 1][..i] == interceptors[..i];
        var interceptor := interceptors[i];
        if HasRequestSide(interceptor) {
          requestHandlers := requestHandlers + [interceptor];
        }
        if HasResponseSide(interceptor) {
          responseHandlers := responseHandlers + [interceptor];
        }
        i := i + 1;
      }
      assert interceptors[..i] == interceptors;
    }
  }

  /** `create`: a new client with the defaulted configuration and the chain
      registered in order. */
  method Create(c: ApiConfig, dev: bool) returns (client: Client)
    ensures fresh(client)
    ensures client.config == ClientConfigOf(c)
    ensures client.requestHandlers == RequestSides(Chain(c, dev))
    ensures client.responseHandlers == ResponseSides(Chain(c, dev))
  {
    client := new Client(ClientConfigOf(c));
    client.ApplyInterceptors(Chain(c, dev));
  }

  /** The named configurations; the Supabase keys come from the
      environment. */
  function Preset(name: string, envApiKey: Option<string>, envAuthToken: Option<string>): (r: Option<ApiConfig>)
    ensures r.Some? <==> name == "supa"
    ensures r.Some? ==> r.value == ApiConfig(SupabaseUrl, envApiKey, envAuthToken, None, Some(DefaultTimeout))
  {
    if name == "supa" then Some(ApiConfig(SupabaseUrl, envApiKey, envAuthToken, None, Some(DefaultTimeout)))
    else None
  }

  /** `createFromPreset`: an unknown name throws naming it. */
  method CreateFromPreset(name: string, envApiKey: Option<string>, envAuthToken: Option<string>, dev: bool)
    returns (r: Outcome<Client>)
    ensures name != "supa" ==> r == Threw("Unknown API preset: " + name)
    ensures name == "supa" ==> r.Done? && fresh(r.value)
                               && r.value.config == ClientConfig(SupabaseUrl, DefaultTimeout, map[])
                               && r.value.requestHandlers
                                  == RequestSides(Chain(Preset(name, envApiKey, envAuthToken).value, dev))
  {
    var c := Preset(name, envApiKey, envAuthToken);
    if c.None? {
      return Threw("Unknown API preset: " + name);
    }
    var client := Create(c.value, dev);
    return Done(client);
  }
}

=== FILE: cart.dfy ===
/** The cart store: a list of product lines changed in place, bounded by each
    product's stock, with subtotal, shipping and total kept in step. */
module Cart {
  import opened Wrappers
  import opened Interfaces

  /** The flat shipping fee charged when no delivery cost is known. */
  const ShippingCost: real := 50.0

  datatype Totals = Totals(subtotal: real, costoEnvio: real, total: real)

  function LineTotal(l: CartProduct): real {
    l.precioUnitario * l.cantidad
  }

  /** Unit price times quantity summed over the lines, accumulated left to right. */
  function Subtotal(lines: seq<CartProduct>): real {
    if lines == [] then 0.0 else Subtotal(lines[..|lines| - 1]) + LineTotal(lines[|lines| - 1])
  }

  /** The number of units in the cart: the quantities summed over the lines. */
  function TotalItems(lines: seq<CartProduct>): (t: real)
    ensures (forall i :: 0 <= i < |lines| ==> lines[i].cantidad >= 0.0) ==> t >= 0.0
    ensures (forall i :: 0 <= i < |lines| ==> lines[i].cantidad == 0.0) ==> t == 0.0
  {
    if lines == [] then 0.0 else TotalItems(lines[..|lines| - 1]) + lines[|lines| - 1].cantidad
  }

  /** In a well-formed cart every line holds a positive quantity, so the unit
      count is never negative and is positive exactly when there are lines. */
  lemma {:induction false} TotalItemsPositive(lines: seq<CartProduct>)
    requires WellFormed(lines)
    ensures TotalItems(lines) >= 0.0
    ensures TotalItems(lines) > 0.0 <==> lines != []
  {
    if lines != [] {
      var init := lines[..|lines| - 1];
      assert WellFormed(init) by {
        assert forall i :: 0 <= i < |init| ==> init[i] == lines[i];
      }
      TotalItemsPositive(init);
    }
  }

  /** `calculateCartTotals`: shipping is free for an empty cart and otherwise the
      delivery cost when one is known, the flat fee when not. */
  function CalculateCartTotals(lines: seq<CartProduct>, deliveryCost: Option<real>): (t: Totals)
    ensures t.subtotal == Subtotal(lines)
    ensures lines == [] ==> t.costoEnvio == 0.0
    ensures lines != [] && deliveryCost.None? ==> t.costoEnvio == ShippingCost
    ensures lines != [] && deliveryCost.Some? ==> t.costoEnvio == deliveryCost.value
    ensures t.total == t.subtotal + t.costoEnvio
  {
    var subtotal := Subtotal(lines);
    var costoEnvio := if |lines| > 0 then deliveryCost.GetOr(ShippingCost) else 0.0;
    Totals(subtotal, costoEnvio, subtotal + costoEnvio)
  }

  /** `findIndex` by product id: the first line with that id, or -1. */
  function FindIndex(lines: seq<CartProduct>, id: string): (i: int)
    ensures -1 <= i < |lines|
    ensures 0 <= i ==> lines[i].id == id && forall j :: 0 <= j < i ==> lines[j].id != id
    ensures i == -1 <==> forall j :: 0 <= j < |lines| ==> lines[j].id != id
  {
    IndexOfKey(lines, LineId, id)
  }

  function LineId(l: CartProduct): string { l.id }

  /** Line ids are non-empty and distinct, and every line holds a positive quantity. */
  ghost predicate WellFormed(lines: seq<CartProduct>) {
    && (forall i :: 0 <= i < |lines| ==> lines[i].id != "" && lines[i].cantidad > 0.0)
    && (forall i, j :: 0 <= i < j < |lines| ==> lines[i].id != lines[j].id)
  }

  /** `getQuantity`: the quantity of the line with that id, 0 when there is none. */
  function GetQuantity(lines: seq<CartProduct>, id: string): (q: real)
    ensures (forall j :: 0 <= j < |lines| ==> lines[j].id != id) ==> q == 0.0
    ensures WellFormed(lines) ==> forall j :: 0 <= j < |lines| && lines[j].id == id ==> q == lines[j].cantidad
  {
    var i := FindIndex(lines, id);
    if i >= 0 then lines[i].cantidad else 0.0
  }

  /** `hasProductInCart`: some line carries that id. */
  function HasProductInCart(lines: seq<CartProduct>, id: string): (b: bool)
    ensures b <==> exists j :: 0 <= j < |lines| && lines[j].id == id
  {
    FindIndex(lines, id) >= 0
  }

  /** `canAddMore`: the product has an id and fewer units in the cart than in stock. */
  function CanAddMore(lines: seq<CartProduct>, product: Product): (b: bool)
    ensures b <==> product.id != "" && GetQuantity(lines, product.id) < product.stock
  {
    if product.id == "" then false else GetQuantity(lines, product.id) < product.stock
  }

  /** The cart holds no more of `product` than its stock. */
  ghost predicate WithinStock(lines: seq<CartProduct>, product: Product) {
    GetQuantity(lines, product.id) <= product.stock
  }

  /** The line a product gets when it first enters the cart. */
  function NewLine(product: Product, cantidad: real): CartProduct {
    CartProduct(product.id, product.nombre, product.imagenUrl, cantidad, product.precio)
  }

  /** The lines with line `i` holding `q` units. */
  function SetCount(lines: seq<CartProduct>, i: nat, q: real): seq<CartProduct>
    requires i < |lines|
  {
    lines[i := lines[i].(cantidad := q)]
  }

  /** `splice(i, 1)`: the lines without line `i`, the others in order. */
  function Splice<T>(lines: seq<T>, i: nat): seq<T>
    requires i < |lines|
  {
    lines[..i] + lines[i + 1..]
  }

  /** In a well-formed cart a product is present exactly when its quantity is positive. */
  lemma HasIffPositive(lines: seq<CartProduct>, id: string)
    requires WellFormed(lines)
    ensures HasProductInCart(lines, id) <==> GetQuantity(lines, id) > 0.0
  {
  }

  lemma {:induction false} SubtotalAppend(lines: seq<CartProduct>, l: CartProduct)
    ensures Subtotal(lines + [l]) == Subtotal(lines) + LineTotal(l)
  {
    assert (lines + [l])[..|lines|] == lines;
  }

  /** Replacing one line changes the subtotal by the difference of the two line totals. */
  lemma {:induction false} SubtotalUpdate(lines: seq<CartProduct>, i: nat, l: CartProduct)
    requires i < |lines|
    ensures Subtotal(lines[i := l]) == Subtotal(lines) - LineTotal(lines[i]) + LineTotal(l)
  {
    var n := |lines|;
    if i < n - 1 {
      SubtotalUpdate(lines[..n - 1], i, l);
      assert lines[i := l][..n - 1] == lines[..n - 1][i := l];
    } else {
      assert lines[i := l][..n - 1] == lines[..n - 1];
    }
  }

  /** Removing one line takes its line total off the subtotal. */
  lemma {:induction false} SubtotalSplice(lines: seq<CartProduct>, i: nat)
    requires i < |lines|
    ensures Subtotal(Splice(lines, i)) == Subtotal(lines) - LineTotal(lines[i])
  {
    var n := |lines|;
    var r := Splice(lines, i);
    if i < n - 1 {
      SubtotalSplice(lines[..n - 1], i);
      assert r[..|r| - 1] == Splice(lines[..n - 1], i);
      assert r[|r| - 1] == lines[n - 1];
    } else {
      assert r == lines[..n - 1];
    }
  }

  /** Adding a line for a new id sets that id's quantity and leaves the others. */
  lemma GetQuantityAppend(lines: seq<CartProduct>, l: CartProduct, id: string)
    requires forall j :: 0 <= j < |lines| ==> lines[j].id != l.id
    ensures GetQuantity(lines + [l], id) == if id == l.id then l.cantidad else GetQuantity(lines, id)
  {
    var i := FindIndex(lines, id);
    var k := FindIndex(lines + [l], id);
    if i >= 0 {
      assert (lines + [l])[i].id == id;
    } else if id == l.id {
      assert (lines + [l])[|lines|].id == id;
    }
  }

  /** Changing the quantity of one line of a well-formed cart affects only that line's id. */
  lemma GetQuantitySetCount(lines: seq<CartProduct>, i: nat, q: real, id: string)
    requires WellFormed(lines) && i < |lines|
    ensures GetQuantity(SetCount(lines, i, q), id) == if id == lines[i].id then q else GetQuantity(lines, id)
  {
    var s := SetCount(lines, i, q);
    assert forall j :: 0 <= j < |lines| ==> s[j].id == lines[j].id;
    var k := FindIndex(lines, id);
    if k >= 0 {
      assert s[k].id == id;
    }
  }

  /** Removing one line of a well-formed cart drops that id and leaves the others. */
  lemma GetQuantitySplice(lines: seq<CartProduct>, i: nat, id: string)
    requires WellFormed(lines) && i < |lines|
    ensures GetQuantity(Splice(lines, i), id) == if id == lines[i].id then 0.0 else GetQuantity(lines, id)
  {
    var s := Splice(lines, i);
    assert forall j :: 0 <= j < |s| ==> s[j] == if j < i then lines[j] else lines[j + 1];
    var k := FindIndex(lines, id);
    if k >= 0 && k != i {
      var k' := if k < i then k else k - 1;
      assert s[k'].id == id;
    }
  }

  lemma WellFormedAppend(lines: seq<CartProduct>, l: CartProduct)
    requires WellFormed(lines) && l.id != "" && l.cantidad > 0.0
    requires forall j :: 0 <= j < |lines| ==> lines[j].id != l.id
    ensures WellFormed(lines + [l])
  {
  }

  lemma WellFormedSplice(lines: seq<CartProduct>, i: nat)
    requires WellFormed(lines) && i < |lines|
    ensures WellFormed(Splice(lines, i))
  {
    var s := Splice(lines, i);
    assert forall j :: 0 <= j < |s| ==> s[j] == if j < i then lines[j] else lines[j + 1];
  }

  /** The lines after `incrementQuantity(product)`. */
  function Incremented(lines: seq<CartProduct>, product: Product): seq<CartProduct> {
    if product.id == "" then lines
    else
      var i := FindIndex(lines, product.id);
      if i < 0 then lines + [NewLine(product, 1.0)]
      else if lines[i].cantidad < product.stock then SetCount(lines, i, lines[i].cantidad + 1.0)
      else lines
  }

  /** The lines after `decrementQuantity(id)`. */
  function Decremented(lines: seq<CartProduct>, id: string): seq<CartProduct> {
    var i := FindIndex(lines, id);
    if i < 0 then lines
    else if lines[i].cantidad > 1.0 then SetCount(lines, i, lines[i].cantidad - 1.0)
    else Splice(lines, i)
  }

  /** The lines after `setQuantity(product, quantity)`. */
  function WithQuantity(lines: seq<CartProduct>, product: Product, quantity: real): seq<CartProduct> {
    if product.id == "" then lines
    else
      var i := FindIndex(lines, product.id);
      if quantity <= 0.0 then (if i >= 0 then Splice(lines, i) else lines)
      else if quantity <= product.stock then (if i >= 0 then SetCount(lines, i, quantity) else lines + [NewLine(product, quantity)])
      else lines
  }

  /** Incrementing keeps a cart well formed. */
  lemma IncrementedWellFormed(lines: seq<CartProduct>, product: Product)
    requires WellFormed(lines)
    ensures WellFormed(Incremented(lines, product))
  {
    if product.id != "" && FindIndex(lines, product.id) < 0 {
      WellFormedAppend(lines, NewLine(product, 1.0));
    }
  }

  /** Incrementing raises the product's quantity by one while it is below stock,
      adds it with one unit when absent, and leaves every other product alone. */
  lemma IncrementedQuantity(lines: seq<CartProduct>, product: Product, id: string)
    requires WellFormed(lines) && product.id != ""
    ensures GetQuantity(Incremented(lines, product), id) ==
      if id != product.id then GetQuantity(lines, id)
      else if !HasProductInCart(lines, id) then 1.0
      else if GetQuantity(lines, id) < product.stock then GetQuantity(lines, id) + 1.0
      else GetQuantity(lines, id)
  {
    var i := FindIndex(lines, product.id);
    if i < 0 {
      GetQuantityAppend(lines, NewLine(product, 1.0), id);
    } else if lines[i].cantidad < product.stock {
      GetQuantitySetCount(lines, i, lines[i].cantidad + 1.0, id);
    }
  }

  /** When a cart within the product's stock leaves it after an increment: a
      product not yet in the cart is added with one unit whatever its stock,
      and a fractional quantity below stock can be raised past it. With a
      whole-number quantity and stock, only the first can happen. */
  lemma IncrementedWithinStock(lines: seq<CartProduct>, product: Product)
    requires WellFormed(lines) && WithinStock(lines, product)
    ensures WithinStock(Incremented(lines, product), product) <==>
      (product.id == "" ||
       (HasProductInCart(lines, product.id) &&
        (GetQuantity(lines, product.id) == product.stock || GetQuantity(lines, product.id) + 1.0 <= product.stock)) ||
       (!HasProductInCart(lines, product.id) && product.stock >= 1.0))
  {
    if product.id != "" {
      IncrementedQuantity(lines, product, product.id);
    }
  }

  /** With whole-number quantities and stock, an increment keeps the cart within
      stock unless it adds a product whose stock is below one. */
  lemma IncrementedWithinWholeStock(lines: seq<CartProduct>, product: Product)
    requires WellFormed(lines) && WithinStock(lines, product)
    requires GetQuantity(lines, product.id).Floor as real == GetQuantity(lines, product.id)
    requires product.stock.Floor as real == product.stock
    requires HasProductInCart(lines, product.id) || product.stock >= 1.0
    ensures WithinStock(Incremented(lines, product), product)
  {
    IncrementedWithinStock(lines, product);
    var q := GetQuantity(lines, product.id);
    if q < product.stock {
      assert q.Floor < product.stock.Floor;
    }
  }

  /** An out-of-stock product that is not in the cart is still added, with one
      unit, although `canAddMore` says no more may be added. */
  lemma OutOfStockStillAdded(lines: seq<CartProduct>, product: Product)
    requires WellFormed(lines) && product.id != ""
    requires !HasProductInCart(lines, product.id) && product.stock <= 0.0
    ensures !CanAddMore(lines, product)
    ensures GetQuantity(Incremented(lines, product), product.id) == 1.0 > product.stock
  {
    IncrementedQuantity(lines, product, product.id);
  }

  /** `canAddMore` answers whether `incrementQuantity` adds a unit: whenever it
      says yes the product's quantity rises by exactly one, and for a product
      already in the cart (or one without an id) it says yes only then. */
  lemma CanAddMoreIncrements(lines: seq<CartProduct>, product: Product)
    requires WellFormed(lines)
    ensures CanAddMore(lines, product) ==>
      GetQuantity(Incremented(lines, product), product.id) == GetQuantity(lines, product.id) + 1.0
    ensures product.id == "" || HasProductInCart(lines, product.id) ==>
      (CanAddMore(lines, product) <==>
        GetQuantity(Incremented(lines, product), product.id) == GetQuantity(lines, product.id) + 1.0)
  {
    if product.id != "" {
      IncrementedQuantity(lines, product, product.id);
    }
  }

  /** One unit more or less on a line changes its total by one unit price. */
  lemma LineTotalStep(l: CartProduct, d: real)
    requires d == 1.0 || d == -1.0
    ensures LineTotal(l.(cantidad := l.cantidad + d)) == LineTotal(l) + d * l.precioUnitario
  {
    var p, c := l.precioUnitario, l.cantidad;
    assert p * (c + d) == p * c + d * p;
  }

  /** Incrementing adds one unit price to the subtotal: the line's own price for a
      product already in the cart, the product's price for a new one. */
  lemma IncrementedSubtotal(lines: seq<CartProduct>, product: Product)
    requires product.id != ""
    ensures var i := FindIndex(lines, product.id);
      Subtotal(Incremented(lines, product)) ==
        if i < 0 then Subtotal(lines) + product.precio
        else if lines[i].cantidad < product.stock then Subtotal(lines) + lines[i].precioUnitario
        else Subtotal(lines)
  {
    var i := FindIndex(lines, product.id);
    if i < 0 {
      SubtotalAppend(lines, NewLine(product, 1.0));
    } else if lines[i].cantidad < product.stock {
      SubtotalPlusOne(lines, i);
    }
  }

  lemma SubtotalPlusOne(lines: seq<CartProduct>, i: nat)
    requires i < |lines|
    ensures Subtotal(SetCount(lines, i, lines[i].cantidad + 1.0)) == Subtotal(lines) + lines[i].precioUnitario
  {
    SubtotalUpdate(lines, i, lines[i].(cantidad := lines[i].cantidad + 1.0));
    LineTotalStep(lines[i], 1.0);
  }

  /** Decrementing keeps a cart well formed: a line at one unit or less is
      removed rather than taken to zero or below. */
  lemma DecrementedWellFormed(lines: seq<CartProduct>, id: string)
    requires WellFormed(lines)
    ensures WellFormed(Decremented(lines, id))
  {
    var i := FindIndex(lines, id);
    if i >= 0 && lines[i].cantidad <= 1.0 {
      WellFormedSplice(lines, i);
    }
  }

  /** Decrementing takes one unit off a present product holding more than one,
      removes a present product holding one or less, and leaves every other
      product alone. */
  lemma DecrementedQuantity(lines: seq<CartProduct>, target: string, id: string)
    requires WellFormed(lines)
    ensures GetQuantity(Decremented(lines, target), id) ==
      if id != target || !HasProductInCart(lines, id) then GetQuantity(lines, id)
      else if GetQuantity(lines, id) > 1.0 then GetQuantity(lines, id) - 1.0
      else 0.0
  {
    var i := FindIndex(lines, target);
    if i >= 0 {
      if lines[i].cantidad > 1.0 {
        GetQuantitySetCount(lines, i, lines[i].cantidad - 1.0, id);
      } else {
        GetQuantitySplice(lines, i, id);
      }
    }
  }

  /** Decrementing a present product takes one unit price off the subtotal
      when it holds more than one unit, and its whole line total otherwise. */
  lemma DecrementedSubtotal(lines: seq<CartProduct>, id: string)
    ensures var i := FindIndex(lines, id);
      Subtotal(Decremented(lines, id)) ==
        if i < 0 then Subtotal(lines)
        else if lines[i].cantidad > 1.0 then Subtotal(lines) - lines[i].precioUnitario
        else Subtotal(lines) - LineTotal(lines[i])
  {
    var i := FindIndex(lines, id);
    if i >= 0 {
      if lines[i].cantidad > 1.0 {
        SubtotalLessOne(lines, i);
      } else {
        SubtotalSplice(lines, i);
      }
    }
  }

  lemma SubtotalLessOne(lines: seq<CartProduct>, i: nat)
    requires i < |lines|
    ensures Subtotal(SetCount(lines, i, lines[i].cantidad - 1.0)) == Subtotal(lines) - lines[i].precioUnitario
  {
    SubtotalUpdate(lines, i, lines[i].(cantidad := lines[i].cantidad - 1.0));
    LineTotalStep(lines[i], -1.0);
  }

  /** Removing a line at one unit or less keeps every other line, in order. */
  lemma DecrementedRemovesOnlyThatLine(lines: seq<CartProduct>, id: string)
    requires HasProductInCart(lines, id) && GetQuantity(lines, id) <= 1.0
    ensures var i := FindIndex(lines, id);
      Decremented(lines, id) == lines[..i] + lines[i + 1..]
      && |Decremented(lines, id)| == |lines| - 1
  {
  }

  lemma WithQuantityWellFormed(lines: seq<CartProduct>, product: Product, quantity: real)
    requires WellFormed(lines)
    ensures WellFormed(WithQuantity(lines, product, quantity))
  {
    if product.id != "" {
      var i := FindIndex(lines, product.id);
      if quantity <= 0.0 && i >= 0 {
        WellFormedSplice(lines, i);
      } else if 0.0 < quantity <= product.stock && i < 0 {
        WellFormedAppend(lines, NewLine(product, quantity));
      }
    }
  }

  /** Setting a quantity: zero or less empties the product's line, a quantity
      within stock becomes the product's quantity, one above stock changes
      nothing; every other product is left alone. */
  lemma WithQuantityQuantity(lines: seq<CartProduct>, product: Product, quantity: real, id: string)
    requires WellFormed(lines) && product.id != ""
    ensures GetQuantity(WithQuantity(lines, product, quantity), id) ==
      if id != product.id then GetQuantity(lines, id)
      else if quantity <= 0.0 then 0.0
      else if quantity <= product.stock then quantity
      else GetQuantity(lines, id)
  {
    var i := FindIndex(lines, product.id);
    if quantity <= 0.0 {
      if i >= 0 {
        GetQuantitySplice(lines, i, id);
      }
    } else if quantity <= product.stock {
      if i >= 0 {
        GetQuantitySetCount(lines, i, quantity, id);
      } else {
        GetQuantityAppend(lines, NewLine(product, quantity), id);
      }
    }
  }

  /** Setting a quantity never takes the product past its stock. */
  lemma WithQuantityWithinStock(lines: seq<CartProduct>, product: Product, quantity: real)
    requires WellFormed(lines) && WithinStock(lines, product)
    ensures WithinStock(WithQuantity(lines, product, quantity), product)
  {
    if product.id != "" {
      WithQuantityQuantity(lines, product, quantity, product.id);
    }
  }

  /** The cart store. `productos` is changed in place; the three totals are
      rewritten after every change. */
  class CartStore {
    var productos: seq<CartProduct>
    var subtotal: real
    var costoEnvio: real
    var total: real

    /** Lines are well formed and the totals agree with them: the subtotal is
        their sum, the total is subtotal plus shipping, an empty cart ships free. */
    ghost predicate Valid()
      reads this
    {
      && WellFormed(productos)
      && subtotal == Subtotal(productos)
      && total == subtotal + costoEnvio
      && (productos == [] ==> costoEnvio == 0.0)
    }

    /** An empty cart (what the store starts with when nothing is saved). */
    constructor ()
      ensures Valid() && productos == []
      ensures subtotal == 0.0 && costoEnvio == 0.0 && total == 0.0
    {
      productos, subtotal, costoEnvio, total := [], 0.0, 0.0, 0.0;
    }

    function TotalsNow(): Totals
      reads this
    {
      Totals(subtotal, costoEnvio, total)
    }

    /** `updateCartTotals`: recompute the three totals from the lines. */
    method UpdateCartTotals(deliveryCost: Option<real>)
      modifies this
      ensures productos == old(productos)
      ensures TotalsNow() == CalculateCartTotals(productos, deliveryCost)
      ensures WellFormed(productos) ==> Valid()
    {
      var totals := CalculateCartTotals(productos, deliveryCost);
      subtotal := totals.subtotal;
      costoEnvio := totals.costoEnvio;
      total := totals.total;
    }

    /** `incrementQuantity`: the lines become `Incremented`; the totals are
        recomputed when the lines changed and left alone when they did not. */
    method IncrementQuantity(product: Product, deliveryCost: Option<real>)
      requires Valid()
      modifies this
      ensures Valid()
      ensures productos == Incremented(old(productos), product)
      ensures productos == old(productos) ==> unchanged(this)
      ensures productos != old(productos) ==> TotalsNow() == CalculateCartTotals(productos, deliveryCost)
    {
      if product.id == "" {
        return;
      }
      IncrementedWellFormed(productos, product);
      var i := FindIndex(productos, product.id);
      if i >= 0 {
        if productos[i].cantidad < product.stock {
          productos := SetCount(productos, i, productos[i].cantidad + 1.0);
          UpdateCartTotals(deliveryCost);
        }
      } else {
        productos := productos + [NewLine(product, 1.0)];
        UpdateCartTotals(deliveryCost);
      }
    }

    /** `decrementQuantity`: the lines become `Decremented`; the totals are
        recomputed when the id was found. */
    method DecrementQuantity(productId: string, deliveryCost: Option<real>)
      requires Valid()
      modifies this
      ensures Valid()
      ensures productos == Decremented(old(productos), productId)
      ensures !old(HasProductInCart(productos, productId)) ==> unchanged(this)
      ensures old(HasProductInCart(productos, productId)) ==> TotalsNow() == CalculateCartTotals(productos, deliveryCost)
    {
      DecrementedWellFormed(productos, productId);
      var i := FindIndex(productos, productId);
      if i == -1 {
        return;
      }
      if productos[i].cantidad > 1.0 {
        productos := SetCount(productos, i, productos[i].cantidad - 1.0);
      } else {
        productos := Splice(productos, i);
      }
      UpdateCartTotals(deliveryCost);
    }

    /** `setQuantity`: the lines become `WithQuantity`; the totals are recomputed
        whenever the product has an id, even when the lines did not change. */
    method SetQuantity(product: Product, quantity: real, deliveryCost: Option<real>)
      requires Valid()
      modifies this
      ensures Valid()
      ensures productos == WithQuantity(old(productos), product, quantity)
      ensures product.id == "" ==> unchanged(this)
      ensures product.id != "" ==> TotalsNow() == CalculateCartTotals(productos, deliveryCost)
    {
      if product.id == "" {
        return;
      }
      WithQuantityWellFormed(productos, product, quantity);
      var i := FindIndex(productos, product.id);
      if quantity <= 0.0 {
        if i != -1 {
          productos := Splice(productos, i);
        }
      } else if quantity <= product.stock {
        if i != -1 {
          productos := SetCount(productos, i, quantity);
        } else {
          productos := productos + [NewLine(product, quantity)];
        }
      }
      UpdateCartTotals(deliveryCost);
    }

    /** `clearCart`: no lines and every total zero. */
    method ClearCart()
      modifies this
      ensures Valid()
      ensures productos == [] && subtotal == 0.0 && costoEnvio == 0.0 && total == 0.0
    {
      productos, subtotal, costoEnvio, total := [], 0.0, 0.0, 0.0;
    }
  }
}

=== FILE: catalogue.dfy ===
/** The catalogue pipeline shared by the products store and the filtering
    composable: categories sorted by name, a case-insensitive name search,
    a category filter, and grouping of products under the sorted
    categories. `localeCompare` is modelled as code-point order on names and
    `toLowerCase` as ASCII lowering. */
module Catalogue {
  import opened Wrappers
  import opened Text
  import opened Interfaces

  datatype Group = Group(category: Category, products: seq<Product>)

  /** What a catalogue view renders: groups when showing every category,
      otherwise a flat list. */
  datatype ProcessedData = Grouped(groups: seq<Group>) | Filtered(products: seq<Product>)

  /** The order `localeCompare` stands for: lexicographic by code point. */
  predicate NameLessEq(a: string, b: string)
  {
    if a == [] then true
    else if b == [] then false
    else if a[0] != b[0] then a[0] < b[0]
    else NameLessEq(a[1..], b[1..])
  }

  lemma {:induction false} NameLessEqTotal(a: string, b: string)
    ensures NameLessEq(a, b) || NameLessEq(b, a)
  {
    if a != [] && b != [] && a[0] == b[0] {
      NameLessEqTotal(a[1..], b[1..]);
    }
  }

  predicate SortedByName(cs: seq<Category>)
  {
    forall i :: 0 < i < |cs| ==> NameLessEq(cs[i - 1].nombre, cs[i].nombre)
  }

  /** Places `c` after every leading category whose name is not above it. */
  function InsertByName(c: Category, cs: seq<Category>): (r: seq<Category>)
    requires SortedByName(cs)
    ensures SortedByName(r)
    ensures multiset(r) == multiset(cs) + multiset{c}
    ensures |r| == |cs| + 1
    ensures r[0] == c || (cs != [] && r[0] == cs[0])
  {
    if cs == [] then [c]
    else if NameLessEq(cs[0].nombre, c.nombre) then
      var rest := InsertByName(c, cs[1..]);
      assert SortedByName(cs[1..]) by {
        forall i | 0 < i < |cs[1..]| ensures NameLessEq(cs[1..][i - 1].nombre, cs[1..][i].nombre) {
          assert cs[1..][i - 1] == cs[i] && cs[1..][i] == cs[i + 1];
        }
      }
      assert cs == [cs[0]] + cs[1..];
      [cs[0]] + rest
    else
      NameLessEqTotal(cs[0].nombre, c.nombre);
      [c] + cs
  }

  /** `[...categories].sort((a, b) => a.nombre.localeCompare(b.nombre))`: the
      same categories, ordered by name. */
  function SortByName(cs: seq<Category>): (r: seq<Category>)
    ensures SortedByName(r)
    ensures multiset(r) == multiset(cs)
    ensures |r| == |cs|
  {
    if cs == [] then []
    else
      assert cs == cs[..|cs| - 1] + [cs[|cs| - 1]];
      InsertByName(cs[|cs| - 1], SortByName(cs[..|cs| - 1]))
  }

  /** The search test: the lowered name contains the lowered, trimmed query. */
  predicate MatchesQuery(p: Product, query: string)
  {
    Contains(Lower(p.nombre), Trim(Lower(query)))
  }

  /** The products matching a query, in catalogue order. */
  function SearchResults(ps: seq<Product>, query: string): (r: seq<Product>)
    ensures forall p :: p in r <==> p in ps && MatchesQuery(p, query)
    ensures |r| <= |ps|
  {
    if ps == [] then []
    else
      var last := ps[|ps| - 1];
      assert ps == ps[..|ps| - 1] + [last];
      SearchResults(ps[..|ps| - 1], query) + (if MatchesQuery(last, query) then [last] else [])
  }

  /** `searchFilteredProducts`: a missing or blank query keeps every product;
      otherwise only the name matches. */
  function SearchFiltered(ps: seq<Product>, query: Option<string>): (r: seq<Product>)
    ensures query.None? || Blank(query.value) ==> r == ps
    ensures query.Some? && !Blank(query.value) ==> r == SearchResults(ps, query.value)
  {
    if query.None? || Trim(query.value) == "" then ps else SearchResults(ps, query.value)
  }

  /** The products of one category, in catalogue order. */
  function InCategory(ps: seq<Product>, id: string): (r: seq<Product>)
    ensures forall p :: p in r <==> p in ps && p.categoriaId == id
    ensures forall i :: 0 <= i < |r| ==> r[i].categoriaId == id
    ensures |r| <= |ps|
  {
    if ps == [] then []
    else
      var last := ps[|ps| - 1];
      assert ps == ps[..|ps| - 1] + [last];
      InCategory(ps[..|ps| - 1], id) + (if last.categoriaId == id then [last] else [])
  }

  /** Filtering is order-preserving: it maps a concatenation to the
      concatenation of the filtered parts. */
  lemma {:induction false} SearchResultsAppend(a: seq<Product>, b: seq<Product>, query: string)
    ensures SearchResults(a + b, query) == SearchResults(a, query) + SearchResults(b, query)
    decreases |b|
  {
    if b != [] {
      var b' := b[..|b| - 1];
      assert (a + b)[..|a + b| - 1] == a + b';
      SearchResultsAppend(a, b', query);
    } else {
      assert a + b == a;
    }
  }

  lemma {:induction false} InCategoryAppend(a: seq<Product>, b: seq<Product>, id: string)
    ensures InCategory(a + b, id) == InCategory(a, id) + InCategory(b, id)
    decreases |b|
  {
    if b != [] {
      var b' := b[..|b| - 1];
      assert (a + b)[..|a + b| - 1] == a + b';
      InCategoryAppend(a, b', id);
    } else {
      assert a + b == a;
    }
  }

  /** `filteredProducts`: with a selected id other than '' and 'all', only
      that category's products; otherwise the search result as is. */
  function CategoryFiltered(searched: seq<Product>, selectedId: Option<string>): (r: seq<Product>)
    ensures selectedId.Some? && selectedId.value != "" && selectedId.value != "all" ==>
              r == InCategory(searched, selectedId.value)
    ensures selectedId.None? || selectedId.value == "" || selectedId.value == "all" ==> r == searched
  {
    if selectedId.Some? && selectedId.value != "" && selectedId.value != "all"
    then InCategory(searched, selectedId.value) else searched
  }

  /** The reference grouping: one group per category, in the given order,
      holding that category's products in catalogue order, with empty
      groups dropped. */
  function GroupedUnder(cats: seq<Category>, ps: seq<Product>): (r: seq<Group>)
    ensures |r| <= |cats|
    ensures forall g :: g in r ==> g.category in cats && g.products == InCategory(ps, g.category.id)
    ensures forall g :: g in r ==> g.products != [] && forall p :: p in g.products ==> p in ps && p.categoriaId == g.category.id
  {
    if cats == [] then []
    else
      var g := InCategory(ps, cats[0].id);
      var rest := GroupedUnder(cats[1..], ps);
      if g == [] then rest else [Group(cats[0], g)] + rest
  }

  /** Groups follow the category order: grouping a concatenation of category
      lists concatenates the groupings. */
  lemma {:induction false} GroupedUnderAppend(c1: seq<Category>, c2: seq<Category>, ps: seq<Product>)
    ensures GroupedUnder(c1 + c2, ps) == GroupedUnder(c1, ps) + GroupedUnder(c2, ps)
  {
    if c1 != [] {
      assert (c1 + c2)[1..] == c1[1..] + c2;
      GroupedUnderAppend(c1[1..], c2, ps);
    } else {
      assert c1 + c2 == c2;
    }
  }

  /** No product of a listed category is lost: each listed category with
      products has its group. */
  lemma {:induction false} GroupedUnderComplete(cats: seq<Category>, ps: seq<Product>, c: Category)
    requires c in cats && InCategory(ps, c.id) != []
    ensures Group(c, InCategory(ps, c.id)) in GroupedUnder(cats, ps)
  {
    if cats[0] != c {
      GroupedUnderComplete(cats[1..], ps, c);
    }
  }

  /** `productsByCategory.get(c.id) || []` for each category, empty groups
      dropped: the map-and-filter after the grouping loop. */
  function GroupsFrom(cats: seq<Category>, byCategory: map<string, seq<Product>>): (r: seq<Group>)
    ensures |r| <= |cats|
  {
    if cats == [] then []
    else
      var g := if cats[0].id in byCategory then byCategory[cats[0].id] else [];
      var rest := GroupsFrom(cats[1..], byCategory);
      if |g| > 0 then [Group(cats[0], g)] + rest else rest
  }

  /** A map that holds exactly the non-empty per-category lists yields the
      reference grouping. */
  lemma {:induction false} GroupsFromGrouped(cats: seq<Category>, byCategory: map<string, seq<Product>>, ps: seq<Product>)
    requires forall id :: id in byCategory ==> byCategory[id] == InCategory(ps, id)
    requires forall id :: id !in byCategory ==> InCategory(ps, id) == []
    ensures GroupsFrom(cats, byCategory) == GroupedUnder(cats, ps)
  {
    if cats != [] {
      GroupsFromGrouped(cats[1..], byCategory, ps);
    }
  }

  /** One step of the grouping loop: pushing product `i` onto its
      category's list keeps every list equal to that category's products
      among the first `i + 1`. */
  lemma InCategoryExtend(ps: seq<Product>, i: nat, before: map<string, seq<Product>>, after: map<string, seq<Product>>)
    requires i < |ps|
    requires forall id :: id in before ==> before[id] == InCategory(ps[..i], id)
    requires forall id :: id !in before ==> InCategory(ps[..i], id) == []
    requires after == before[ps[i].categoriaId := (if ps[i].categoriaId in before then before[ps[i].categoriaId] else []) + [ps[i]]]
    ensures forall id :: id in after ==> after[id] == InCategory(ps[..i + 1], id)
    ensures forall id :: id !in after ==> InCategory(ps[..i + 1], id) == []
  {
    var next := ps[..i + 1];
    assert next[..|next| - 1] == ps[..i] && next[|next| - 1] == ps[i];
    forall id
      ensures InCategory(next, id) == InCategory(ps[..i], id) + (if ps[i].categoriaId == id then [ps[i]] else [])
    {
    }
  }

  /** The grouping loop of `groupedByCategory`: products are pushed into a
      per-category list in catalogue order, then the sorted categories pick
      their lists. */
  method GroupProducts(sortedCats: seq<Category>, ps: seq<Product>) returns (groups: seq<Group>)
    ensures groups == GroupedUnder(sortedCats, ps)
  {
    var byCategory: map<string, seq<Product>> := map[];
    var i := 0;
    while i < |ps|
      invariant 0 <= i <= |ps|
      invariant forall id :: id in byCategory ==> byCategory[id] == InCategory(ps[..i], id)
      invariant forall id :: id !in byCategory ==> InCategory(ps[..i], id) == []
    {
      var product := ps[i];
      var categoryId := product.categoriaId;
      var sofar := if categoryId in byCategory then byCategory[categoryId] else [];
      ghost var before := byCategory;
      byCategory := byCategory[categoryId := sofar + [product]];
      InCategoryExtend(ps, i, before, byCategory);
      i := i + 1;
    }
    assert ps[..i] == ps;
    GroupsFromGrouped(sortedCats, byCategory, ps);
    groups := GroupsFrom(sortedCats, byCategory);
  }
}

=== FILE: delivery_pricing.dfy ===
/** The delivery fee: a base charge plus a charge per kilometre and a charge
    per minute of the driving route. The three coefficients come from the
    runtime configuration and are parameters here. */
module DeliveryPricing {
  import opened Text

  datatype Pricing = Pricing(baseCost: real, distanceCost: real, timeCost: real, totalCost: real, formatted: string)

  /** `Math.round(x * 100) / 100`: the amount rounded to whole cents. */
  function RoundToCents(x: real): (r: real)
    ensures x - 0.005 < r <= x + 0.005
    ensures (r * 100.0).Floor as real == r * 100.0
  {
    Round(x * 100.0) as real / 100.0
  }

  /** The fee shown to the customer: "$", the amount rounded to a whole
      peso, then " MXN". */
  function Formatted(total: real): (s: string)
    ensures |s| >= 6 && s[..1] == "$" && s[|s| - 4..] == " MXN"
    ensures total >= -0.5 ==> s[1..|s| - 4] == NatToString(Round(total)) && AllDigits(s[1..|s| - 4])
  {
    var s := "$" + IntToString(Round(total)) + " MXN";
    assert s[1..|s| - 4] == IntToString(Round(total));
    s
  }

  /** `calculateDeliveryCost`: metres become kilometres, seconds become
      minutes, each is charged at its rate, and the sum is reported both
      rounded to cents and as a whole-peso label. */
  function CalculateDeliveryCost(distanceInMeters: real, durationInSeconds: real,
                                 baseCost: real, costPerKm: real, costPerMinute: real): (p: Pricing)
    ensures p.baseCost == baseCost
    ensures p.distanceCost == (distanceInMeters / 1000.0) * costPerKm
    ensures p.timeCost == (durationInSeconds / 60.0) * costPerMinute
    ensures p.totalCost == RoundToCents(p.baseCost + p.distanceCost + p.timeCost)
    ensures p.formatted == Formatted(p.baseCost + p.distanceCost + p.timeCost)
  {
    var distanceInKm := distanceInMeters / 1000.0;
    var durationInMinutes := durationInSeconds / 60.0;
    var distanceCost := distanceInKm * costPerKm;
    var timeCost := durationInMinutes * costPerMinute;
    var totalCost := baseCost + distanceCost + timeCost;
    Pricing(baseCost, distanceCost, timeCost, RoundToCents(totalCost), Formatted(totalCost))
  }

  /** The unrounded fee of a trip. */
  function RawTotal(meters: real, seconds: real, baseCost: real, costPerKm: real, costPerMinute: real): real
  {
    baseCost + (meters / 1000.0) * costPerKm + (seconds / 60.0) * costPerMinute
  }

  /** A zero-length, zero-time trip costs exactly the base charge; a base that
      is already whole cents is reported as is. */
  lemma ZeroTripCostsBase(baseCost: real, costPerKm: real, costPerMinute: real)
    ensures var p := CalculateDeliveryCost(0.0, 0.0, baseCost, costPerKm, costPerMinute);
      p.distanceCost == 0.0 && p.timeCost == 0.0 && p.totalCost == RoundToCents(baseCost)
    ensures (baseCost * 100.0).Floor as real == baseCost * 100.0 ==>
      CalculateDeliveryCost(0.0, 0.0, baseCost, costPerKm, costPerMinute).totalCost == baseCost
  {
    if (baseCost * 100.0).Floor as real == baseCost * 100.0 {
      var n := (baseCost * 100.0).Floor;
      assert (baseCost * 100.0 + 0.5).Floor == n;
    }
  }

  lemma FloorMonotone(x: real, y: real)
    requires x <= y
    ensures x.Floor <= y.Floor
  {
  }

  /** Rounding to cents never reverses the order of two amounts. */
  lemma RoundToCentsMonotone(x: real, y: real)
    requires x <= y
    ensures RoundToCents(x) <= RoundToCents(y)
  {
    FloorMonotone(x * 100.0 + 0.5, y * 100.0 + 0.5);
  }

  lemma ScaleMonotone(a: real, b: real, k: real)
    requires a <= b && k >= 0.0
    ensures a * k <= b * k
  {
    assert (b - a) * k >= 0.0;
  }

  /** With non-negative rates the unrounded fee grows with distance and duration. */
  lemma RawTotalMonotone(m1: real, s1: real, m2: real, s2: real,
                         baseCost: real, costPerKm: real, costPerMinute: real)
    requires m1 <= m2 && s1 <= s2 && costPerKm >= 0.0 && costPerMinute >= 0.0
    ensures RawTotal(m1, s1, baseCost, costPerKm, costPerMinute) <= RawTotal(m2, s2, baseCost, costPerKm, costPerMinute)
  {
    ScaleMonotone(m1 / 1000.0, m2 / 1000.0, costPerKm);
    ScaleMonotone(s1 / 60.0, s2 / 60.0, costPerMinute);
  }

  /** With non-negative rates, a longer or slower trip never costs less, before
      or after rounding. */
  lemma LongerTripCostsNoLess(m1: real, s1: real, m2: real, s2: real,
                              baseCost: real, costPerKm: real, costPerMinute: real)
    requires m1 <= m2 && s1 <= s2 && costPerKm >= 0.0 && costPerMinute >= 0.0
    ensures RawTotal(m1, s1, baseCost, costPerKm, costPerMinute) <= RawTotal(m2, s2, baseCost, costPerKm, costPerMinute)
    ensures CalculateDeliveryCost(m1, s1, baseCost, costPerKm, costPerMinute).totalCost
         <= CalculateDeliveryCost(m2, s2, baseCost, costPerKm, costPerMinute).totalCost
  {
    RawTotalMonotone(m1, s1, m2, s2, baseCost, costPerKm, costPerMinute);
    var r1 := RawTotal(m1, s1, baseCost, costPerKm, costPerMinute);
    var r2 := RawTotal(m2, s2, baseCost, costPerKm, costPerMinute);
    assert CalculateDeliveryCost(m1, s1, baseCost, costPerKm, costPerMinute).totalCost == RoundToCents(r1);
    assert CalculateDeliveryCost(m2, s2, baseCost, costPerKm, costPerMinute).totalCost == RoundToCents(r2);
    RoundToCentsMonotone(r1, r2);
  }

  /** Five kilometres in fifteen minutes at 30 + 7/km + 1.5/min. */
  lemma FiveKilometreExample()
    ensures var p := CalculateDeliveryCost(5000.0, 900.0, 30.0, 7.0, 1.5);
      p.distanceCost == 35.0 && p.timeCost == 22.5 && p.totalCost == 87.5 && p.formatted == "$88 MXN"
  {
    var p := CalculateDeliveryCost(5000.0, 900.0, 30.0, 7.0, 1.5);
    assert Round(87.5 * 100.0) == 8750;
    assert Round(87.5) == 88;
    assert NatToString(88) == "88";
  }
}

=== FILE: inline_edit.dfy ===
/** The inline editor of a single value: a temporary copy edited in place,
    saved through a callback or discarded. The edited value is owned
    elsewhere; its changes arrive through `ValueChanged`. */
module InlineEdit {
  import opened Wrappers

  class InlineEdit<T> {
    /** The current value of the watched ref. */
    var value: T
    var isEditing: bool
    var tempValue: T

    constructor (initial: T)
      ensures value == initial && tempValue == initial && !isEditing
    {
      value, tempValue := initial, initial;
      isEditing := false;
    }

    /** `startEdit`: editing starts from the current value. */
    method StartEdit()
      modifies this`isEditing, this`tempValue
      ensures isEditing && tempValue == value
    {
      isEditing := true;
      tempValue := value;
    }

    /** `saveEdit`: the temporary value goes to the `onSave` callback when one
        is given (returned here as `handed`), and editing ends. */
    method SaveEdit(withCallback: bool) returns (handed: Option<T>)
      modifies this`isEditing
      ensures !isEditing
      ensures handed == if withCallback then Some(tempValue) else None
    {
      handed := if withCallback then Some(tempValue) else None;
      isEditing := false;
    }

    /** `cancelEdit`: the temporary value is reset to the current value and
        editing ends. */
    method CancelEdit()
      modifies this`isEditing, this`tempValue
      ensures !isEditing && tempValue == value
    {
      tempValue := value;
      isEditing := false;
    }

    /** The watch on the value: a new value reaches the temporary copy only
        when not editing, so an edit in progress is never overwritten. */
    method ValueChanged(newValue: T)
      modifies this`value, this`tempValue
      ensures value == newValue
      ensures !isEditing ==> tempValue == newValue
      ensures isEditing ==> tempValue == old(tempValue)
    {
      value := newValue;
      if !isEditing {
        tempValue := newValue;
      }
    }
  }
}

=== FILE: interceptors.dfy ===
/** The HTTP client's interceptors. Each one is a value naming what it does;
    its request side is a transform of the request's header map, and its
    response side lets responses and rejections through unchanged (the
    console logging around them is left out). */
module Interceptors {
  import opened Wrappers
  import opened Text

  type Headers = map<string, string>

  /** The parts of an outgoing request the interceptors look at. */
  datatype Request = Request(httpMethod: Option<string>, url: string, headers: Headers)

  datatype Interceptor =
    | ContentType
    | ApiKey(apiKey: string)
    | Auth(token: string)
    | Supabase(apiKey: string, authToken: string)
    | Logging
    | ErrorHandler

  const Json: string := "application/json"

  /** A header counts as set when it is present and non-empty. */
  predicate HasHeader(h: Headers, name: string)
  {
    name in h && h[name] != ""
  }

  /** The content-type transform: 'application/json' when the header is not
      set, the headers unchanged otherwise. */
  function WithContentType(h: Headers): (r: Headers)
    ensures HasHeader(h, "Content-Type") ==> r == h
    ensures !HasHeader(h, "Content-Type") ==> r == h["Content-Type" := Json]
    ensures HasHeader(r, "Content-Type")
  {
    if HasHeader(h, "Content-Type") then h else h["Content-Type" := Json]
  }

  /** Applying the content-type transform twice is applying it once. */
  lemma ContentTypeIdempotent(h: Headers)
    ensures WithContentType(WithContentType(h)) == WithContentType(h)
  {
  }

  /** The API-key transform: X-API-Key only on a POST, the method compared
      in lower case. */
  function WithApiKey(apiKey: string, q: Request): (r: Request)
    ensures r.httpMethod == q.httpMethod && r.url == q.url
    ensures q.httpMethod.Some? && Lower(q.httpMethod.value) == "post" ==> r.headers == q.headers["X-API-Key" := apiKey]
    ensures !(q.httpMethod.Some? && Lower(q.httpMethod.value) == "post") ==> r.headers == q.headers
  {
    if q.httpMethod.Some? && Lower(q.httpMethod.value) == "post" then q.(headers := q.headers["X-API-Key" := apiKey])
    else q
  }

  lemma ApiKeyMethods(apiKey: string, h: Headers)
    ensures WithApiKey(apiKey, Request(Some("POST"), "", h)).headers == h["X-API-Key" := apiKey]
    ensures WithApiKey(apiKey, Request(Some("get"), "", h)).headers == h
    ensures WithApiKey(apiKey, Request(None, "", h)).headers == h
  {
    assert Lower("POST") == "post";
    assert Lower("get") != "post" by { assert |Lower("get")| == 3; }
  }

  /** The bearer value of an Authorization header. */
  function Bearer(token: string): (v: string)
    ensures |v| == 7 + |token| && v[7..] == token && v[..7] == "Bearer "
  {
    "Bearer " + token
  }

  /** The request side of an interceptor, on the request it is handed; the
      error handler has no request side, so it does not change the request. */
  function OnRequest(i: Interceptor, q: Request): (r: Request)
    ensures r.httpMethod == q.httpMethod && r.url == q.url
    ensures i.ContentType? ==> r.headers == WithContentType(q.headers)
    ensures i.ApiKey? && q.httpMethod.Some? && Lower(q.httpMethod.value) == "post" ==>
              r.headers == q.headers["X-API-Key" := i.apiKey]
    ensures i.ApiKey? && !(q.httpMethod.Some? && Lower(q.httpMethod.value) == "post") ==> r == q
    ensures i.Auth? ==> r.headers == q.headers["Authorization" := Bearer(i.token)]
    ensures i.Supabase? ==> r.headers == q.headers["apikey" := i.apiKey]["Authorization" := Bearer(i.authToken)]
    ensures i.Logging? || i.ErrorHandler? ==> r == q
  {
    match i
    case ContentType => q.(headers := WithContentType(q.headers))
    case ApiKey(k) => WithApiKey(k, q)
    case Auth(t) => q.(headers := q.headers["Authorization" := Bearer(t)])
    case Supabase(k, t) => q.(headers := q.headers["apikey" := k]["Authorization" := Bearer(t)])
    case Logging => q
    case ErrorHandler => q
  }

  /** The Supabase transform sets its two headers and leaves every other
      header as it was. */
  lemma SupabaseTouchesTwoHeaders(k: string, t: string, q: Request, name: string)
    requires name != "apikey" && name != "Authorization"
    ensures var r := OnRequest(Supabase(k, t), q);
      r.headers["apikey"] == k && r.headers["Authorization"] == "Bearer " + t
      && (name in r.headers <==> name in q.headers)
      && (name in q.headers ==> r.headers[name] == q.headers[name])
  {
  }

  /** Which interceptors register a request handler. */
  predicate HasRequestSide(i: Interceptor)
  {
    !i.ErrorHandler?
  }

  /** Which interceptors register a response handler. */
  predicate HasResponseSide(i: Interceptor)
  {
    i.Logging? || i.ErrorHandler?
  }

  /** Every interceptor has at least one side. */
  lemma EverySideCovered(i: Interceptor)
    ensures HasRequestSide(i) || HasResponseSide(i)
  {
  }

  /** The response of an HTTP call: a reply with its status, or a rejection
      carrying the status when there was a response. */
  datatype Response = Reply(code: int) | Rejection(status: Option<int>)

  /** The response side: the logging and error-handling interceptors pass
      replies on and re-reject rejections with the same error. */
  function OnResponse(i: Interceptor, s: Response): (r: Response)
    requires HasResponseSide(i)
    ensures r == s
  {
    s
  }

  /** What the error handler warns about for a rejection: 401 as
      unauthorised, 500 and above as a server error. */
  datatype Warning = Unauthorized | ServerError

  function ErrorWarnings(s: Response): (w: seq<Warning>)
    ensures s.Reply? || s.status.None? ==> w == []
    ensures Unauthorized in w <==> s.Rejection? && s.status == Some(401)
    ensures ServerError in w <==> s.Rejection? && s.status.Some? && s.status.value >= 500
  {
    if s.Reply? || s.status.None? then []
    else (if s.status.value == 401 then [Unauthorized] else [])
         + (if s.status.value >= 500 then [ServerError] else [])
  }
}

=== FILE: interfaces.dfy ===
/** The records the storefront passes between its stores and composables
    (the product, cart and address interfaces). */
module Interfaces {
  import opened Wrappers

  /** A catalogue product as the products table returns it. */
  datatype Product = Product(
    id: string,
    categoriaId: string,
    nombre: string,
    descripcion: string,
    precio: real,
    porcentajeDescuento: real,
    imagenUrl: string,
    stock: real,
    activo: bool,
    createdAt: string,
    updatedAt: string)

  datatype Category = Category(id: string, nombre: string)

  /** One line of the cart: a product, how many of it, at what unit price. */
  datatype CartProduct = CartProduct(
    id: string,
    nombre: string,
    imagenUrl: string,
    cantidad: real,
    precioUnitario: real)

  /** An address as the order screens show it. */
  datatype Address = Address(id: string, street: string, colony: string, reference: Option<string>)

  /** A row of the `direcciones` table, as the address queries select it. */
  datatype AddressRow = AddressRow(
    id: string,
    calle: string,
    numeroExterior: string,
    numeroInterior: Option<string>,
    colonia: string,
    referencias: Option<string>)

  /** What the address form submits. */
  datatype SaveAddressData = SaveAddressData(
    calle: string,
    colonia: string,
    latitud: real,
    longitud: real,
    numeroExterior: string,
    referencias: Option<string>)

  /** The body posted to `/direcciones` when a new address is saved. */
  datatype AddressPayload = AddressPayload(
    usuarioId: string,
    nombre: string,
    calle: string,
    numeroExterior: string,
    colonia: string,
    codigoPostal: string,
    latitud: real,
    longitud: real,
    referencias: string,
    esPredeterminada: bool)

  /** A JSON reply that should be an array of rows: `NotArray` stands for
      `null` or any other non-array value. */
  datatype Rows<+T> = Array(rows: seq<T>) | NotArray
}

=== FILE: map_location.dfy ===
/** The delivery-point picker: a draggable marker, the user's position when
    the browser gives one, and the rule that centres the map. The
    geolocation answer is a parameter. */
module MapLocation {

  datatype Position = Position(lat: real, lng: real)

  /** Mexico City, where the map opens when nothing better is known. */
  const DefaultLocation: Position := Position(19.4326, -99.1332)

  /** What asking the browser for the position gave. */
  datatype Geolocation = Unsupported | Located(position: Position) | Failed

  /** A position is usable as a centre when both coordinates are truthy,
      that is non-zero. */
  predicate Set(p: Position)
  {
    p.lat != 0.0 && p.lng != 0.0
  }

  class MapLocation {
    var isDragging: bool
    var userLocation: Position
    var markerPosition: Position
    var zoom: int
    var isLocationLoaded: bool

    constructor ()
      ensures !isDragging && userLocation == Position(0.0, 0.0) && markerPosition == Position(0.0, 0.0)
      ensures zoom == 13 && !isLocationLoaded
    {
      isDragging := false;
      userLocation, markerPosition := Position(0.0, 0.0), Position(0.0, 0.0);
      zoom, isLocationLoaded := 13, false;
    }

    /** `mapCenter`: the user's position once loaded and set, otherwise the
        marker when set, otherwise the default. */
    function MapCenter(): (c: Position)
      reads this
      ensures Set(userLocation) && isLocationLoaded ==> c == userLocation
      ensures !(Set(userLocation) && isLocationLoaded) && Set(markerPosition) ==> c == markerPosition
      ensures !(Set(userLocation) && isLocationLoaded) && !Set(markerPosition) ==> c == DefaultLocation
      ensures Set(c)
    {
      if Set(userLocation) && isLocationLoaded then userLocation
      else if Set(markerPosition) then markerPosition
      else DefaultLocation
    }

    /** `tooltipContent`: '...' while dragging, otherwise the marker's
        coordinates rendered by `fixed6` (the six-decimal `toFixed`). */
    function TooltipContent(fixed6: real -> string): (s: string)
      reads this
      ensures isDragging ==> s == "..."
      ensures !isDragging ==> s == "Lat: " + fixed6(markerPosition.lat) + ", Lng: " + fixed6(markerPosition.lng)
    {
      if isDragging then "..." else "Lat: " + fixed6(markerPosition.lat) + ", Lng: " + fixed6(markerPosition.lng)
    }

    /** `getUserPosition`: a located position becomes the user's location and
        seeds the marker only when the marker is still at (0, 0); success and
        failure both mark the location loaded; without geolocation nothing
        changes. */
    method GetUserPosition(answer: Geolocation)
      modifies this`userLocation, this`markerPosition, this`isLocationLoaded
      ensures answer.Unsupported? ==>
                userLocation == old(userLocation) && markerPosition == old(markerPosition)
                && isLocationLoaded == old(isLocationLoaded)
      ensures !answer.Unsupported? ==> isLocationLoaded
      ensures answer.Failed? ==> userLocation == old(userLocation) && markerPosition == old(markerPosition)
      ensures answer.Located? ==> userLocation == answer.position
      ensures answer.Located? && old(markerPosition) == Position(0.0, 0.0) ==> markerPosition == answer.position
      ensures answer.Located? && old(markerPosition) != Position(0.0, 0.0) ==> markerPosition == old(markerPosition)
      ensures answer.Located? && Set(answer.position) ==> MapCenter() == answer.position
    {
      match answer {
        case Unsupported =>
        case Located(p) =>
          userLocation := p;
          if markerPosition.lat == 0.0 && markerPosition.lng == 0.0 {
            markerPosition := p;
          }
          isLocationLoaded := true;
        case Failed =>
          isLocationLoaded := true;
      }
    }

    /** `onMapClick`: the marker moves to the clicked point. */
    method OnMapClick(p: Position)
      modifies this`markerPosition
      ensures markerPosition == p
      ensures !(Set(userLocation) && isLocationLoaded) && Set(p) ==> MapCenter() == p
    {
      markerPosition := p;
    }

    /** `onMarkerDragEnd`: dragging stops and the marker moves to where it
        was dropped. */
    method OnMarkerDragEnd(p: Position)
      modifies this`isDragging, this`markerPosition
      ensures !isDragging && markerPosition == p
    {
      isDragging := false;
      markerPosition := p;
    }
  }
}

=== FILE: order_api.dfy ===
/** Placing an order: validate the checkout, make sure the delivery address
    exists in the database, post the order and its lines, then empty the
    cart. The three database writes, the clock and the random text of the
    order number are parameters. */
module OrderApi {
  import opened Wrappers
  import opened Text
  import opened Interfaces
  import opened Cart
  import opened OrderStore

  const EmptyCartMessage: string := "El carrito está vacío"
  const MissingDataMessage: string := "Faltan datos para crear el pedido"
  const NoSessionMessage: string := "No hay sesión de usuario activa. Por favor verifica tu teléfono."
  const NoAddressMessage: string := "No hay dirección seleccionada"
  const AddressNotCreatedMessage: string := "No se pudo crear la dirección"
  const NoOrderIdMessage: string := "No se pudo obtener el ID del pedido creado"
  const OrderFailedMessage: string := "Error al crear el pedido"

  /** A thrown error: the server's `data.message` (empty when absent) and the
      error's own `message`. */
  datatype Failure = Failure(dataMessage: string, message: string)

  /** A database write: its reply, or what it threw. */
  datatype Attempt<+T> = Ok(value: T) | Err(failure: Failure)

  /** The reply to an insert: an array of rows, a single object, or nothing. */
  datatype IdReply = IdArray(ids: seq<Option<string>>) | IdObject(id: Option<string>) | NoReply

  /** One line of an order. */
  datatype OrderDetail = OrderDetail(
    pedidoId: string,
    productoId: string,
    cantidad: real,
    precioUnitario: real,
    descuentoAplicado: real,
    subtotal: real)

  /** The body posted to `/pedidos`. */
  datatype OrderPayload = OrderPayload(
    usuarioId: string,
    direccionId: string,
    numeroPedido: string,
    estado: string,
    medioPago: string,
    subtotal: real,
    descuento: real,
    total: real,
    costoEnvio: real,
    instruccionesEntrega: string)

  /** The writes `createOrder` performs, in order. */
  datatype Post = AddressPost(address: AddressPayload) | OrderPost(order: OrderPayload) | DetailsPost(details: seq<OrderDetail>)

  datatype CreateResult = Created(pedidoId: string, numeroPedido: string) | NotCreated(error: string)

  /** `error?.data?.message || error?.message || 'Error al crear el pedido'`. */
  function ErrorMessage(f: Failure): (m: string)
    ensures m != ""
    ensures f.dataMessage != "" ==> m == f.dataMessage
    ensures f.dataMessage == "" && f.message != "" ==> m == f.message
    ensures f.dataMessage == "" && f.message == "" ==> m == OrderFailedMessage
  {
    MessageOr(f.dataMessage, MessageOr(f.message, OrderFailedMessage))
  }

  /** `Array.isArray(r) ? r[0]?.id : r?.id`. */
  function ReplyId(reply: IdReply): (r: Option<string>)
    ensures reply.IdArray? && reply.ids != [] ==> r == reply.ids[0]
    ensures reply.IdArray? && reply.ids == [] ==> r == None
    ensures reply.IdObject? ==> r == reply.id
    ensures reply.NoReply? ==> r == None
  {
    match reply
    case IdArray(ids) => if |ids| > 0 then ids[0] else None
    case IdObject(id) => id
    case NoReply => None
  }

  /** `mapPaymentMethod`. */
  function MapPaymentMethod(kind: string): (m: string)
    ensures m in {"tarjeta", "efectivo", "mixto"}
    ensures m == "tarjeta" <==> kind == "card"
    ensures m == "mixto" <==> kind == "mixed"
    ensures m == "efectivo" <==> kind != "card" && kind != "mixed"
  {
    if kind == "card" then "tarjeta"
    else if kind == "cash" then "efectivo"
    else if kind == "mixed" then "mixto"
    else "efectivo"
  }

  /** The payment medium recorded for a selection: its kind, mapped, with
      no selection (or an empty kind) counting as cash. */
  function PaymentMedium(selected: Option<PaymentMethod>): (m: string)
    ensures selected.None? ==> m == "efectivo"
    ensures selected.Some? && selected.value.kind == "" ==> m == "efectivo"
    ensures selected.Some? && selected.value.kind != "" ==> m == MapPaymentMethod(selected.value.kind)
    ensures m == "tarjeta" <==> selected.Some? && selected.value.kind == "card"
    ensures m == "mixto" <==> selected.Some? && selected.value.kind == "mixed"
  {
    MapPaymentMethod(if selected.Some? && selected.value.kind != "" then selected.value.kind else "cash")
  }

  /** A selected address id that already names a saved row: non-empty, not
      a 'temp-' placeholder and not the built-in default '1'. */
  predicate Reusable(id: string)
  {
    id != "" && !StartsWith(id, "temp-") && id != "1"
  }

  /** The body posted when the selected address must be created. The order
      store keeps no delivery location, so latitude and longitude are 0. */
  function NewAddressBody(userId: string, selected: Address): (p: AddressPayload)
    ensures p.nombre == "Dirección principal" && p.numeroExterior == "S/N" && p.codigoPostal == "00000"
    ensures p.calle == selected.street && p.colonia == selected.colony && p.referencias == selected.colony
    ensures p.esPredeterminada && p.latitud == 0.0 && p.longitud == 0.0 && p.usuarioId == userId
  {
    AddressPayload(userId, "Dirección principal", selected.street, "S/N", selected.colony, "00000",
                   0.0, 0.0, selected.colony, true)
  }

  /** `createOrGetAddress`: the id to order against, and the address posted
      to get it, if any. A reusable id is returned as is and nothing is
      posted; otherwise a new address is posted and its returned id used. */
  function CreateOrGetAddress(userId: string, selected: Option<Address>, insert: Attempt<IdReply>)
    : (r: (Attempt<string>, Option<AddressPayload>))
    ensures selected.None? ==> r == (Err(Failure("", NoAddressMessage)), None)
    ensures selected.Some? && Reusable(selected.value.id) ==> r == (Ok(selected.value.id), None)
    ensures selected.Some? && !Reusable(selected.value.id) ==> r.1 == Some(NewAddressBody(userId, selected.value))
    ensures r.0.Ok? ==> r.0.value != ""
    ensures r.0.Ok? && r.1.Some? ==> insert.Ok? && ReplyId(insert.value) == Some(r.0.value)
  {
    if selected.None? then (Err(Failure("", NoAddressMessage)), None)
    else if Reusable(selected.value.id) then (Ok(selected.value.id), None)
    else
      var body := NewAddressBody(userId, selected.value);
      match insert
      case Err(f) => (Err(f), Some(body))
      case Ok(reply) =>
        var id := ReplyId(reply);
        if Truthy(id) then (Ok(id.value), Some(body))
        else (Err(Failure("", AddressNotCreatedMessage)), Some(body))
  }

  /** `s.slice(-8)`. */
  function LastEight(s: string): (r: string)
    ensures |r| == if |s| <= 8 then |s| else 8
    ensures r == s[|s| - |r|..]
  {
    if |s| <= 8 then s else s[|s| - 8..]
  }

  /** `s.substr(start, length)` for non-negative arguments. */
  function Substr(s: string, start: nat, length: nat): (r: string)
    ensures |r| <= length
  {
    var a := if start < |s| then start else |s|;
    var b := if start + length < |s| then start + length else |s|;
    s[a..b]
  }

  /** A suffix of a digit string is a digit string. */
  lemma LastEightDigits(s: string)
    requires AllDigits(s)
    ensures AllDigits(LastEight(s))
  {
    var t := LastEight(s);
    forall i | 0 <= i < |t| ensures IsDigit(t[i]) {
      assert t[i] == s[|s| - |t| + i];
    }
  }

  /** The layout of "ORD-" + timestamp + "-" + random. */
  lemma NumberLayout(timestamp: string, random: string)
    requires 1 <= |timestamp| <= 8 && AllDigits(timestamp) && |random| <= 4
    requires forall i :: 0 <= i < |random| ==> !('a' <= random[i] <= 'z')
    ensures var r := "ORD-" + timestamp + "-" + random;
      && 6 <= |r| <= 17 && r[..4] == "ORD-"
      && r[4..4 + |timestamp|] == timestamp && r[4 + |timestamp|] == '-'
      && forall i :: 0 <= i < |r| ==> !('a' <= r[i] <= 'z')
  {
    var r := "ORD-" + timestamp + "-" + random;
    forall i | 0 <= i < |r| ensures !('a' <= r[i] <= 'z') {
      if i < 4 {
        assert r[i] == "ORD-"[i];
      } else if i < 4 + |timestamp| {
        assert r[i] == timestamp[i - 4];
        assert IsDigit(timestamp[i - 4]);
      } else if i > 4 + |timestamp| {
        assert r[i] == random[i - 5 - |timestamp|];
      }
    }
  }

  /** The order number: 'ORD-', the last eight digits of the clock reading,
      '-', and characters 2 to 5 of the random base-36 text, upper-cased. */
  function OrderNumber(now: nat, randomText: string): (r: string)
    ensures 6 <= |r| <= 17
    ensures r[..4] == "ORD-"
    ensures var k := |LastEight(NatToString(now))|;
      1 <= k <= 8 && 5 + k <= |r| && AllDigits(r[4..4 + k]) && r[4 + k] == '-'
    ensures forall i :: 0 <= i < |r| ==> !('a' <= r[i] <= 'z')
  {
    var digits := NatToString(now);
    var timestamp := LastEight(digits);
    LastEightDigits(digits);
    var random := Upper(Substr(randomText, 2, 4));
    assert |random| <= 4;
    assert forall i :: 0 <= i < |random| ==> !('a' <= random[i] <= 'z');
    NumberLayout(timestamp, random);
    "ORD-" + timestamp + "-" + random
  }

  /** One order line per cart line, in cart order, undiscounted. */
  function Details(pedidoId: string, lines: seq<CartProduct>): (r: seq<OrderDetail>)
    ensures |r| == |lines|
    ensures forall i :: 0 <= i < |lines| ==>
              r[i] == OrderDetail(pedidoId, lines[i].id, lines[i].cantidad, lines[i].precioUnitario, 0.0,
                                  lines[i].precioUnitario * lines[i].cantidad)
  {
    if lines == [] then []
    else
      var l := lines[|lines| - 1];
      Details(pedidoId, lines[..|lines| - 1])
        + [OrderDetail(pedidoId, l.id, l.cantidad, l.precioUnitario, 0.0, l.precioUnitario * l.cantidad)]
  }

  function DetailsTotal(details: seq<OrderDetail>): real
  {
    if details == [] then 0.0 else DetailsTotal(details[..|details| - 1]) + details[|details| - 1].subtotal
  }

  /** The order lines add up to the cart's subtotal. */
  lemma {:induction false} DetailsAddUpToSubtotal(pedidoId: string, lines: seq<CartProduct>)
    ensures DetailsTotal(Details(pedidoId, lines)) == Subtotal(lines)
  {
    if lines != [] {
      var d := Details(pedidoId, lines);
      assert d[..|d| - 1] == Details(pedidoId, lines[..|lines| - 1]);
      DetailsAddUpToSubtotal(pedidoId, lines[..|lines| - 1]);
    }
  }

  /** The order body: the cart's totals, a 'nuevo' status, no discount, the
      payment medium and the delivery method's title as instructions. */
  function OrderPayloadFor(userId: string, direccionId: string, numeroPedido: string,
                           payment: Option<PaymentMethod>, delivery: Option<DeliveryMethod>, totals: Totals): (p: OrderPayload)
    ensures p.estado == "nuevo" && p.descuento == 0.0 && p.medioPago == PaymentMedium(payment)
    ensures p.subtotal == totals.subtotal && p.total == totals.total && p.costoEnvio == totals.costoEnvio
    ensures p.instruccionesEntrega == if delivery.Some? then delivery.value.title else ""
  {
    OrderPayload(userId, direccionId, numeroPedido, "nuevo", PaymentMedium(payment), totals.subtotal, 0.0,
                 totals.total, totals.costoEnvio, if delivery.Some? then delivery.value.title else "")
  }

  /** The address write, when one was made. */
  function AddressPosts(ap: Option<AddressPayload>): (r: seq<Post>)
    ensures |r| <= 1
    ensures r == [] <==> ap.None?
    ensures ap.Some? ==> r[0] == AddressPost(ap.value)
  {
    if ap.Some? then [AddressPost(ap.value)] else []
  }

  class OrderApi {
    const cart: CartStore
    const orders: OrderStore
    var isCreatingOrder: bool
    var orderError: Option<string>

    constructor (cart: CartStore, orders: OrderStore)
      ensures this.cart == cart && this.orders == orders && !isCreatingOrder && orderError == None
    {
      this.cart, this.orders := cart, orders;
      isCreatingOrder, orderError := false, None;
    }

    /** `createOrder`. The checks run in order (empty cart, incomplete
        checkout, no user) and each fails before anything is posted. The cart
        is emptied only when the order and its lines were both written; any
        failure leaves it as it was and records the message. */
    method CreateOrder(userId: string, now: nat, randomText: string,
                       addressInsert: Attempt<IdReply>, orderInsert: Attempt<IdReply>, detailsInsert: Attempt<()>)
      returns (result: CreateResult, posts: seq<Post>)
      modifies this`isCreatingOrder, this`orderError, cart
      ensures !isCreatingOrder
      ensures old(cart.productos) == [] ==> result == NotCreated(EmptyCartMessage) && posts == []
      ensures old(cart.productos) != [] && !orders.CanPlaceOrder() ==> result == NotCreated(MissingDataMessage) && posts == []
      ensures old(cart.productos) != [] && orders.CanPlaceOrder() && userId == "" ==>
                result == NotCreated(NoSessionMessage) && posts == []
      ensures result.NotCreated? ==>
                orderError == Some(result.error) && result.error != ""
                && cart.productos == old(cart.productos) && cart.TotalsNow() == old(cart.TotalsNow())
      ensures result.Created? ==>
                (&& orderError == None && orderInsert.Ok? && detailsInsert.Ok?
                 && cart.productos == [] && cart.TotalsNow() == Totals(0.0, 0.0, 0.0)
                 && |result.numeroPedido| <= 17 && result.pedidoId != ""
                 && |posts| >= 2
                 && posts[|posts| - 1] == DetailsPost(Details(result.pedidoId, old(cart.productos)))
                 && posts[|posts| - 2].OrderPost?
                 && posts[|posts| - 2].order.total == old(cart.total)
                 && posts[|posts| - 2].order.numeroPedido == result.numeroPedido)
      ensures old(cart.productos) != [] && orders.CanPlaceOrder() && userId != "" ==>
                var (d, ap) := CreateOrGetAddress(userId, orders.selectedAddress, addressInsert);
                && (result.Created? <==> d.Ok? && orderInsert.Ok? && Truthy(ReplyId(orderInsert.value)) && detailsInsert.Ok?)
                && (d.Err? ==> result == NotCreated(ErrorMessage(d.failure)) && posts == AddressPosts(ap))
                && (d.Ok? ==>
                      var numeroPedido := OrderNumber(now, randomText);
                      var sent := AddressPosts(ap) + [OrderPost(OrderPayloadFor(userId, d.value, numeroPedido,
                                    orders.selectedPaymentMethod, orders.selectedDeliveryMethod, old(cart.TotalsNow())))];
                      && (orderInsert.Err? ==> result == NotCreated(ErrorMessage(orderInsert.failure)) && posts == sent)
                      && (orderInsert.Ok? && !Truthy(ReplyId(orderInsert.value)) ==>
                            result == NotCreated(NoOrderIdMessage) && posts == sent)
                      && (orderInsert.Ok? && Truthy(ReplyId(orderInsert.value)) ==>
                            var pedidoId := ReplyId(orderInsert.value).value;
                            && posts == sent + [DetailsPost(Details(pedidoId, old(cart.productos)))]
                            && (detailsInsert.Err? ==> result == NotCreated(ErrorMessage(detailsInsert.failure)))
                            && (detailsInsert.Ok? ==> result == Created(pedidoId, numeroPedido))))
    {
      isCreatingOrder := true;
      orderError := None;
      posts := [];
      if |cart.productos| == 0 {
        result := NotCreated(EmptyCartMessage);
      } else if !orders.CanPlaceOrder() {
        result := NotCreated(MissingDataMessage);
      } else if userId == "" {
        result := NotCreated(NoSessionMessage);
      } else {
        var (direccion, addressPost) := CreateOrGetAddress(userId, orders.selectedAddress, addressInsert);
        if addressPost.Some? {
          posts := [AddressPost(addressPost.value)];
        }
        if direccion.Err? {
          result := NotCreated(ErrorMessage(direccion.failure));
        } else {
          var numeroPedido := OrderNumber(now, randomText);
          var payload := OrderPayloadFor(userId, direccion.value, numeroPedido, orders.selectedPaymentMethod,
                                         orders.selectedDeliveryMethod, cart.TotalsNow());
          posts := posts + [OrderPost(payload)];
          var pedidoId := if orderInsert.Ok? then ReplyId(orderInsert.value) else None;
          if orderInsert.Err? {
            result := NotCreated(ErrorMessage(orderInsert.failure));
          } else if !Truthy(pedidoId) {
            result := NotCreated(NoOrderIdMessage);
          } else {
            posts := posts + [DetailsPost(Details(pedidoId.value, cart.productos))];
            if detailsInsert.Err? {
              result := NotCreated(ErrorMessage(detailsInsert.failure));
            } else {
              cart.ClearCart();
              result := Created(pedidoId.value, numeroPedido);
            }
          }
        }
      }
      if result.NotCreated? {
        orderError := Some(result.error);
      }
      isCreatingOrder := false;
    }
  }
}

=== FILE: order_store.dfy ===
/** The checkout selections: the customer's phone, the address list and
    the chosen address, payment method and delivery method. */
module OrderStore {
  import opened Wrappers
  import opened Text
  import opened Interfaces

  datatype PaymentMethod = PaymentMethod(kind: string, title: string, description: string)
  datatype DeliveryMethod = DeliveryMethod(kind: string, title: string)

  /** The address every session starts with. */
  const DefaultAddress: Address := Address("1", "Av universidad #1050", "Villa universidad", None)

  const DefaultPaymentMethods: seq<PaymentMethod> := [
    PaymentMethod("card", "Tarjeta", "Solicita la terminal"),
    PaymentMethod("cash", "Efectivo", "Paga con efectivo"),
    PaymentMethod("mixed", "Mixto", "Pago mixto (tarjeta y efectivo)")
  ]

  const DefaultDeliveryMethods: seq<DeliveryMethod> := [
    DeliveryMethod("outside", "Encontrarse afuera"),
    DeliveryMethod("inside", "Entregar en la puerta")
  ]

  /** The selection `initializeDefaults` leaves: the list's first entry when
      the list is non-empty and nothing is selected yet, the old selection
      otherwise. */
  function DefaultedSelection<T>(list: seq<T>, selected: Option<T>): (r: Option<T>)
    ensures selected.Some? ==> r == selected
    ensures selected.None? && |list| > 0 ==> r == Some(list[0])
    ensures selected.None? && |list| == 0 ==> r == None
  {
    if |list| > 0 && selected.None? then Some(list[0]) else selected
  }

  /** Defaulting twice is defaulting once. */
  lemma DefaultedSelectionIdempotent<T>(list: seq<T>, selected: Option<T>)
    ensures DefaultedSelection(list, DefaultedSelection(list, selected)) == DefaultedSelection(list, selected)
  {
  }

  class OrderStore {
    var phone: string
    var addressList: seq<Address>
    var selectedAddress: Option<Address>
    var paymentMethods: seq<PaymentMethod>
    var selectedPaymentMethod: Option<PaymentMethod>
    var deliveryMethods: seq<DeliveryMethod>
    var selectedDeliveryMethod: Option<DeliveryMethod>

    /** The initial state: one address with id '1', three payment methods,
        two delivery methods, no phone and nothing selected. */
    constructor ()
      ensures phone == "" && addressList == [DefaultAddress] && selectedAddress == None
      ensures paymentMethods == DefaultPaymentMethods && selectedPaymentMethod == None
      ensures deliveryMethods == DefaultDeliveryMethods && selectedDeliveryMethod == None
      ensures |addressList| == 1 && addressList[0].id == "1"
      ensures |paymentMethods| == 3 && |deliveryMethods| == 2
    {
      phone := "";
      addressList, selectedAddress := [DefaultAddress], None;
      paymentMethods, selectedPaymentMethod := DefaultPaymentMethods, None;
      deliveryMethods, selectedDeliveryMethod := DefaultDeliveryMethods, None;
    }

    /** `canPlaceOrder`: a phone and all three selections. */
    function CanPlaceOrder(): (b: bool)
      reads this
      ensures b ==> |phone| > 0
      ensures b <==> phone != "" && selectedAddress != None && selectedPaymentMethod != None && selectedDeliveryMethod != None
    {
      phone != "" && selectedAddress.Some? && selectedPaymentMethod.Some? && selectedDeliveryMethod.Some?
    }

    method SetPhone(p: string)
      modifies this`phone
      ensures phone == p
    {
      phone := p;
    }

    method SetAddressList(addresses: seq<Address>)
      modifies this`addressList
      ensures addressList == addresses
    {
      addressList := addresses;
    }

    method SetSelectedAddress(address: Address)
      modifies this`selectedAddress
      ensures selectedAddress == Some(address)
    {
      selectedAddress := Some(address);
    }

    method SetPaymentMethods(methods: seq<PaymentMethod>)
      modifies this`paymentMethods
      ensures paymentMethods == methods
    {
      paymentMethods := methods;
    }

    method SetSelectedPaymentMethod(m: PaymentMethod)
      modifies this`selectedPaymentMethod
      ensures selectedPaymentMethod == Some(m)
    {
      selectedPaymentMethod := Some(m);
    }

    method SetDeliveryMethods(methods: seq<DeliveryMethod>)
      modifies this`deliveryMethods
      ensures deliveryMethods == methods
    {
      deliveryMethods := methods;
    }

    method SetSelectedDeliveryMethod(m: DeliveryMethod)
      modifies this`selectedDeliveryMethod
      ensures selectedDeliveryMethod == Some(m)
    {
      selectedDeliveryMethod := Some(m);
    }

    /** `initializeDefaults`: each empty selection takes its list's first
        entry; existing selections and the lists stay. Afterwards an order can
        be placed as soon as there is a phone, when all three lists are
        non-empty. */
    method InitializeDefaults()
      modifies this`selectedAddress, this`selectedPaymentMethod, this`selectedDeliveryMethod
      ensures selectedAddress == DefaultedSelection(addressList, old(selectedAddress))
      ensures selectedPaymentMethod == DefaultedSelection(paymentMethods, old(selectedPaymentMethod))
      ensures selectedDeliveryMethod == DefaultedSelection(deliveryMethods, old(selectedDeliveryMethod))
      ensures |addressList| > 0 && |paymentMethods| > 0 && |deliveryMethods| > 0 ==> (CanPlaceOrder() <==> phone != "")
    {
      if |addressList| > 0 && selectedAddress.None? {
        selectedAddress := Some(addressList[0]);
      }
      if |paymentMethods| > 0 && selectedPaymentMethod.None? {
        selectedPaymentMethod := Some(paymentMethods[0]);
      }
      if |deliveryMethods| > 0 && selectedDeliveryMethod.None? {
        selectedDeliveryMethod := Some(deliveryMethods[0]);
      }
    }

    /** `addNewAddress`: a new address, identified by the clock reading `now`,
        goes first in the list and becomes the selection. */
    method AddNewAddress(address: string, reference: string, now: nat)
      modifies this`addressList, this`selectedAddress
      ensures var added := Address(NatToString(now), address, reference, None);
        addressList == [added] + old(addressList) && selectedAddress == Some(added)
      ensures |addressList| == |old(addressList)| + 1 && addressList[1..] == old(addressList)
    {
      var newAddress := Address(NatToString(now), address, reference, None);
      addressList := [newAddress] + addressList;
      selectedAddress := Some(newAddress);
    }
  }
}

=== FILE: product_cart.dfy ===
/** The per-product view of the cart store used by product cards: reads
    delegate to the store, writes forward to its mutating operations. */
module ProductCartComposable {
  import opened Wrappers
  import opened Interfaces
  import opened Cart

  class ProductCart {
    const product: Product
    const store: CartStore

    constructor (product: Product, store: CartStore)
      ensures this.product == product && this.store == store
    {
      this.product := product;
      this.store := store;
    }

    /** `quantity`: how many units of this product the store holds. */
    function Quantity(): (q: real)
      reads store
      ensures q == GetQuantity(store.productos, product.id)
      ensures store.Valid() ==> (q > 0.0 <==> HasProductInCart(store.productos, product.id))
    {
      assert store.Valid() ==> (GetQuantity(store.productos, product.id) > 0.0 <==> HasProductInCart(store.productos, product.id)) by {
        if store.Valid() { HasIffPositive(store.productos, product.id); }
      }
      GetQuantity(store.productos, product.id)
    }

    /** `hasProductInCart`: the store has a line for this product. */
    function InCart(): (b: bool)
      reads store
      ensures b <==> exists j :: 0 <= j < |store.productos| && store.productos[j].id == product.id
    {
      HasProductInCart(store.productos, product.id)
    }

    /** `canAddMore`: the store's answer for this product, which promises that
        `increment` adds exactly one unit; for a product already in the cart a
        "no" means `increment` changes nothing. */
    function MayAddMore(): (b: bool)
      reads store
      ensures b == CanAddMore(store.productos, product)
      ensures store.Valid() && b ==>
        GetQuantity(Incremented(store.productos, product), product.id) == Quantity() + 1.0
      ensures store.Valid() && InCart() && !b ==> Incremented(store.productos, product) == store.productos
    {
      assert store.Valid() && CanAddMore(store.productos, product) ==>
        GetQuantity(Incremented(store.productos, product), product.id) == Quantity() + 1.0 by {
        if store.Valid() { CanAddMoreIncrements(store.productos, product); }
      }
      CanAddMore(store.productos, product)
    }

    /** `increment`: exactly the store's `incrementQuantity` of this product. */
    method Increment(deliveryCost: Option<real>)
      requires store.Valid()
      modifies store
      ensures store.Valid()
      ensures store.productos == Incremented(old(store.productos), product)
      ensures store.productos == old(store.productos) ==> unchanged(store)
      ensures store.productos != old(store.productos) ==> store.TotalsNow() == CalculateCartTotals(store.productos, deliveryCost)
    {
      store.IncrementQuantity(product, deliveryCost);
    }

    /** `decrement`: exactly the store's `decrementQuantity` of this product's id. */
    method Decrement(deliveryCost: Option<real>)
      requires store.Valid()
      modifies store
      ensures store.Valid()
      ensures store.productos == Decremented(old(store.productos), product.id)
      ensures !old(HasProductInCart(store.productos, product.id)) ==> unchanged(store)
      ensures old(HasProductInCart(store.productos, product.id)) ==> store.TotalsNow() == CalculateCartTotals(store.productos, deliveryCost)
    {
      store.DecrementQuantity(product.id, deliveryCost);
    }

    /** `setQuantity`: forwarded to the store only for 0 <= n <= stock; any other
        request leaves the cart untouched. */
    method SetQuantity(n: real, deliveryCost: Option<real>)
      requires store.Valid()
      modifies store
      ensures store.Valid()
      ensures 0.0 <= n <= product.stock ==> store.productos == WithQuantity(old(store.productos), product, n)
      ensures 0.0 <= n <= product.stock && product.id != "" ==> store.TotalsNow() == CalculateCartTotals(store.productos, deliveryCost)
      ensures !(0.0 <= n <= product.stock) || product.id == "" ==> unchanged(store)
      ensures WithinStock(store.productos, product) <== old(WithinStock(store.productos, product))
    {
      if 0.0 <= n <= product.stock {
        if WithinStock(store.productos, product) {
          WithQuantityWithinStock(store.productos, product, n);
        }
        store.SetQuantity(product, n, deliveryCost);
      }
    }
  }
}

=== FILE: product_expansion.dfy ===
/** Which product card is expanded: at most one, by id. */
module ProductExpansion {
  import opened Wrappers

  /** The expanded id after `toggle(id)`. */
  function Toggled(expanded: Option<string>, id: string): (r: Option<string>)
    ensures expanded == Some(id) ==> r == None
    ensures expanded != Some(id) ==> r == Some(id)
  {
    if expanded == Some(id) then None else Some(id)
  }

  /** Toggling twice restores the state when nothing, or that same product,
      was expanded; from another product it ends with nothing expanded. */
  lemma ToggleTwice(expanded: Option<string>, id: string)
    ensures expanded == None || expanded == Some(id) ==> Toggled(Toggled(expanded, id), id) == expanded
    ensures expanded.Some? && expanded.value != id ==> Toggled(Toggled(expanded, id), id) == None
  {
  }

  class ProductExpansion {
    var expandedProductId: Option<string>

    constructor ()
      ensures expandedProductId == None
    {
      expandedProductId := None;
    }

    /** `isExpanded`. */
    function IsExpanded(id: string): (b: bool)
      reads this
      ensures b <==> expandedProductId != None && expandedProductId.value == id
      ensures expandedProductId == None ==> !b
    {
      expandedProductId == Some(id)
    }

    /** At most one product is expanded. */
    lemma AtMostOne(p: string, q: string)
      requires IsExpanded(p) && IsExpanded(q)
      ensures p == q
    {
    }

    /** `expand`: afterwards exactly that product is expanded. */
    method Expand(id: string)
      modifies this
      ensures expandedProductId == Some(id)
      ensures forall q :: IsExpanded(q) <==> q == id
    {
      expandedProductId := Some(id);
    }

    /** `collapse`: afterwards nothing is expanded. */
    method Collapse()
      modifies this
      ensures expandedProductId == None
      ensures forall q :: !IsExpanded(q)
    {
      expandedProductId := None;
    }

    /** `toggle`: collapses the product when it is the expanded one, expands
        it otherwise. */
    method Toggle(id: string)
      modifies this
      ensures expandedProductId == Toggled(old(expandedProductId), id)
      ensures IsExpanded(id) <==> !old(IsExpanded(id))
    {
      expandedProductId := if expandedProductId == Some(id) then None else Some(id);
    }
  }
}

=== FILE: product_filtering.dfy ===
/** The stand-alone filtering composable: the same search, category and
    grouping pipeline as the products store, driven by its options, where
    grouping is switched on by an option instead of by the 'all'
    selection. */
module ProductFiltering {
  import opened Wrappers
  import opened Text
  import opened Interfaces
  import opened Catalogue

  /** The composable's options; an absent `groupByCategory` is off. */
  datatype FilteringOptions = FilteringOptions(
    products: seq<Product>,
    categories: Option<seq<Category>>,
    selectedCategory: Option<Category>,
    searchQuery: Option<string>,
    groupByCategory: bool)

  /** `sortedCategories`: none without categories, otherwise the categories
      ordered by name. */
  function SortedCategories(o: FilteringOptions): (r: seq<Category>)
    ensures o.categories.None? ==> r == []
    ensures o.categories.Some? ==> SortedByName(r) && multiset(r) == multiset(o.categories.value)
  {
    if o.categories.None? then [] else SortByName(o.categories.value)
  }

  /** `searchFilteredProducts`: every product for a missing or blank query,
      otherwise exactly the name matches in their order. */
  function SearchFilteredProducts(o: FilteringOptions): (r: seq<Product>)
    ensures o.searchQuery.None? || Blank(o.searchQuery.value) ==> r == o.products
    ensures o.searchQuery.Some? && !Blank(o.searchQuery.value) ==> r == SearchResults(o.products, o.searchQuery.value)
    ensures o.searchQuery.Some? && !Blank(o.searchQuery.value) ==>
              forall p :: p in r <==> p in o.products && MatchesQuery(p, o.searchQuery.value)
  {
    SearchFiltered(o.products, o.searchQuery)
  }

  /** The value of `groupedByCategory`: nothing with grouping off or no
      categories; otherwise the search result grouped under the sorted
      categories. */
  function Groups(o: FilteringOptions): (r: seq<Group>)
    ensures !o.groupByCategory || SortedCategories(o) == [] ==> r == []
    ensures forall g :: g in r ==> g.products != [] && g.products == InCategory(SearchFilteredProducts(o), g.category.id)
  {
    if !o.groupByCategory || |SortedCategories(o)| == 0 then []
    else GroupedUnder(SortedCategories(o), SearchFilteredProducts(o))
  }

  /** `groupedByCategory`, computed with the grouping loop. */
  method GroupedByCategory(o: FilteringOptions) returns (groups: seq<Group>)
    ensures groups == Groups(o)
  {
    var sorted := SortedCategories(o);
    if !o.groupByCategory || |sorted| == 0 {
      return [];
    }
    groups := GroupProducts(sorted, SearchFilteredProducts(o));
  }

  /** `filteredProducts`: the search result, narrowed to the selected
      category when one other than '' or 'all' is given. */
  function FilteredProducts(o: FilteringOptions): (r: seq<Product>)
    ensures var id := if o.selectedCategory.Some? then o.selectedCategory.value.id else "";
      (id == "" || id == "all" ==> r == SearchFilteredProducts(o))
      && (id != "" && id != "all" ==> r == InCategory(SearchFilteredProducts(o), id))
      && (id != "" && id != "all" ==> forall p :: p in r <==> p in SearchFilteredProducts(o) && p.categoriaId == id)
  {
    var selectedId := if o.selectedCategory.Some? then Some(o.selectedCategory.value.id) else None;
    CategoryFiltered(SearchFilteredProducts(o), selectedId)
  }

  /** `processedData`: the option alone picks the grouped or the flat view. */
  function ProcessedData(o: FilteringOptions): (d: ProcessedData)
    ensures d.Grouped? <==> o.groupByCategory
    ensures d.Grouped? ==> d.groups == Groups(o)
    ensures d.Filtered? ==> d.products == FilteredProducts(o)
  {
    if o.groupByCategory then Grouped(Groups(o)) else Filtered(FilteredProducts(o))
  }
}

=== FILE: product_quantity.dfy ===
/** The quantity stepper of a product card: a quantity clamped to
    0..maxStock, with an inline editor holding a temporary value. */
module ProductQuantity {
  import opened Wrappers

  /** `Math.max(0, Math.min(v, maxStock))`. */
  function Clamp(v: real, maxStock: real): (r: real)
    ensures r >= 0.0
    ensures maxStock >= 0.0 ==> r <= maxStock
    ensures 0.0 <= v <= maxStock ==> r == v
    ensures v < 0.0 ==> r == 0.0
    ensures v > maxStock ==> r == if maxStock < 0.0 then 0.0 else maxStock
  {
    var m := if v < maxStock then v else maxStock;
    if 0.0 < m then m else 0.0
  }

  /** `Math.floor(Math.abs(t))`. */
  function WholeMagnitude(t: real): (r: real)
    ensures r >= 0.0 && r == r.Floor as real
    ensures r <= (if t < 0.0 then -t else t) < r + 1.0
  {
    (if t < 0.0 then -t else t).Floor as real
  }

  class QuantityStepper {
    /** The stock ceiling the owner passes in; it may change between calls. */
    var maxStock: real
    var quantity: real
    var isEditing: bool
    var tempQuantity: real

    constructor (maxStock: real)
      ensures this.maxStock == maxStock && quantity == 0.0 && !isEditing && tempQuantity == 0.0
    {
      this.maxStock := maxStock;
      quantity, isEditing, tempQuantity := 0.0, false, 0.0;
    }

    /** `hasProductInCart`: the stepper shows a quantity, which is exactly when
        it can be decreased and a decrement lowers it. */
    function HasProductInCart(): (b: bool)
      reads this
      ensures b <==> CanDecrease()
      ensures b <==> Clamp(quantity - 1.0, maxStock) < quantity
    {
      quantity > 0.0
    }

    /** `canAddMore`: from a non-negative quantity, exactly when one more unit,
        clamped to the ceiling, raises the quantity. */
    function CanAddMore(): (b: bool)
      reads this
      ensures quantity >= 0.0 ==> (b <==> Clamp(quantity + 1.0, maxStock) > quantity)
    {
      quantity < maxStock
    }

    /** `canDecrease`: exactly when one unit fewer, clamped at zero, lowers the quantity. */
    function CanDecrease(): (b: bool)
      reads this
      ensures b <==> Clamp(quantity - 1.0, maxStock) < quantity
    {
      quantity > 0.0
    }

    /** `setQuantity`: the value clamped into 0..maxStock. */
    method SetQuantity(v: real)
      modifies this`quantity
      ensures quantity == Clamp(v, maxStock)
      ensures quantity >= 0.0
    {
      quantity := Clamp(v, maxStock);
    }

    /** `increment`: nothing at or above the ceiling, otherwise one more unit
        (clamped, so never past `maxStock`). */
    method Increment()
      modifies this`quantity
      ensures old(quantity) >= maxStock ==> quantity == old(quantity)
      ensures old(quantity) < maxStock ==> quantity == Clamp(old(quantity) + 1.0, maxStock)
      ensures 0.0 <= old(quantity) && old(quantity) + 1.0 <= maxStock ==> quantity == old(quantity) + 1.0
      ensures 0.0 <= maxStock && old(quantity) <= maxStock ==> quantity <= maxStock
    {
      if CanAddMore() {
        SetQuantity(quantity + 1.0);
      }
    }

    /** `decrement`: nothing at zero or below, otherwise one unit fewer (clamped,
        so never negative). */
    method Decrement()
      modifies this`quantity
      ensures old(quantity) <= 0.0 ==> quantity == old(quantity)
      ensures old(quantity) > 0.0 ==> quantity == Clamp(old(quantity) - 1.0, maxStock) && quantity >= 0.0
      ensures 1.0 <= old(quantity) <= maxStock + 1.0 ==> quantity == old(quantity) - 1.0
    {
      if CanDecrease() {
        SetQuantity(quantity - 1.0);
      }
    }

    /** `startEdit`: the editor opens on the current quantity, then the
        `onInteraction` callback, when one is given, is called (`notified`). */
    method StartEdit(withCallback: bool) returns (notified: bool)
      modifies this`tempQuantity, this`isEditing
      ensures tempQuantity == quantity && isEditing
      ensures notified == withCallback
    {
      tempQuantity := quantity;
      isEditing := true;
      notified := withCallback;
    }

    /** `saveEdit`: the clamped temporary value goes to the `onSave` callback when
        one is given (returned here as `handed`) or becomes the quantity; the
        editor always closes. */
    method SaveEdit(withCallback: bool) returns (handed: Option<real>)
      modifies this`quantity, this`isEditing
      ensures !isEditing
      ensures withCallback ==> handed == Some(Clamp(tempQuantity, maxStock)) && quantity == old(quantity)
      ensures !withCallback ==> handed == None && quantity == Clamp(tempQuantity, maxStock)
    {
      var validValue := Clamp(tempQuantity, maxStock);
      if withCallback {
        handed := Some(validValue);
      } else {
        handed := None;
        SetQuantity(validValue);
      }
      isEditing := false;
    }

    /** `cancelEdit`: the editor closes and the quantity stays. */
    method CancelEdit()
      modifies this`isEditing
      ensures !isEditing && quantity == old(quantity) && tempQuantity == old(tempQuantity)
    {
      isEditing := false;
    }

    /** `handleInput`: the temporary value becomes a non-negative whole
        number, then the `onInteraction` callback, when one is given, is
        called (`notified`). */
    method HandleInput(withCallback: bool) returns (notified: bool)
      modifies this`tempQuantity
      ensures tempQuantity == WholeMagnitude(old(tempQuantity))
      ensures tempQuantity >= 0.0 && tempQuantity == tempQuantity.Floor as real
      ensures notified == withCallback
    {
      tempQuantity := WholeMagnitude(tempQuantity);
      notified := withCallback;
    }
  }
}

=== FILE: products_store.dfy ===
/** The products store: the loaded catalogue, the selected category and the
    search query, with the derived views the shop pages render. */
module ProductsStore {
  import opened Wrappers
  import opened Text
  import opened Interfaces
  import opened Catalogue

  /** The pseudo-category selected when every category is shown. */
  const AllCategories: Category := Category("all", "Todas")

  /** One lazy fetch as the store reads it: its data, and whether its error is set. */
  datatype Fetched<T> = Fetched(data: Option<T>, failed: bool)

  /** Both fetches answered, or the combined wait rejected. */
  datatype FetchOutcome =
    | Responses(categoriesData: Fetched<seq<Category>>, productsData: Fetched<seq<Product>>)
    | Rejected

  class ProductsStore {
    var products: seq<Product>
    var categories: seq<Category>
    var selectedCategory: Category
    var searchQuery: string
    var isLoading: bool
    var error: Option<string>

    constructor ()
      ensures products == [] && categories == [] && selectedCategory == AllCategories
      ensures searchQuery == "" && !isLoading && error == None
    {
      products, categories := [], [];
      selectedCategory, searchQuery := AllCategories, "";
      isLoading, error := false, None;
    }

    /** `sortedCategories`: the categories, ordered by name. */
    function SortedCategories(): (r: seq<Category>)
      reads this
      ensures SortedByName(r) && multiset(r) == multiset(categories) && |r| == |categories|
    {
      SortByName(categories)
    }

    /** `searchFilteredProducts`: everything for a blank query, otherwise
        exactly the name matches in catalogue order. */
    function SearchFilteredProducts(): (r: seq<Product>)
      reads this
      ensures Blank(searchQuery) ==> r == products
      ensures !Blank(searchQuery) ==> r == SearchResults(products, searchQuery)
      ensures !Blank(searchQuery) ==> forall p :: p in r <==> p in products && MatchesQuery(p, searchQuery)
    {
      SearchFiltered(products, Some(searchQuery))
    }

    /** `shouldShowAllProducts`. */
    predicate ShouldShowAllProducts()
      reads this
    {
      selectedCategory.id == "all"
    }

    /** The value of `groupedByCategory`: nothing unless every category is
        shown and there are categories; otherwise the search result grouped
        under the sorted categories. */
    function Groups(): (r: seq<Group>)
      reads this
      ensures r != [] ==> ShouldShowAllProducts() && categories != []
      ensures forall g :: g in r ==> g.category in categories && g.products != []
      ensures forall g :: g in r ==> forall p :: p in g.products ==> p in products && p.categoriaId == g.category.id
      ensures forall g :: g in r ==> g.products == InCategory(SearchFilteredProducts(), g.category.id)
    {
      if !ShouldShowAllProducts() || |SortedCategories()| == 0 then []
      else
        var r := GroupedUnder(SortedCategories(), SearchFilteredProducts());
        assert forall g :: g in r ==> g.category in categories by {
          forall g | g in r ensures g.category in categories {
            assert g.category in multiset(SortedCategories());
          }
        }
        r
    }

    /** `groupedByCategory`, computed with the grouping loop. */
    method GroupedByCategory() returns (groups: seq<Group>)
      ensures groups == Groups()
    {
      if !ShouldShowAllProducts() || |SortedCategories()| == 0 {
        return [];
      }
      groups := GroupProducts(SortedCategories(), SearchFilteredProducts());
    }

    /** `filteredProducts`: the search result, narrowed to the selected
        category unless that is 'all'. */
    function FilteredProducts(): (r: seq<Product>)
      reads this
      ensures selectedCategory.id == "all" || selectedCategory.id == "" ==> r == SearchFilteredProducts()
      ensures selectedCategory.id != "all" && selectedCategory.id != "" ==>
                r == InCategory(SearchFilteredProducts(), selectedCategory.id)
      ensures selectedCategory.id != "all" && selectedCategory.id != "" ==>
                (forall p :: p in r <==> p in SearchFilteredProducts() && p.categoriaId == selectedCategory.id)
    {
      CategoryFiltered(SearchFilteredProducts(), Some(selectedCategory.id))
    }

    /** `processedData`: grouped exactly when every category is shown. */
    function ProcessedData(): (d: ProcessedData)
      reads this
      ensures d.Grouped? <==> ShouldShowAllProducts()
      ensures d.Grouped? ==> d.groups == Groups()
      ensures d.Filtered? ==> d.products == FilteredProducts()
    {
      if ShouldShowAllProducts() then Grouped(Groups()) else Filtered(FilteredProducts())
    }

    /** `hasData`: both lists are non-empty. */
    function HasData(): (b: bool)
      reads this
      ensures b <==> categories != [] && products != []
    {
      |categories| > 0 && |products| > 0
    }

    /** `shouldShowFilteredProducts`. */
    predicate ShouldShowFilteredProducts()
      reads this
    {
      HasData() && !ShouldShowAllProducts()
    }

    method SetProducts(ps: seq<Product>)
      modifies this`products
      ensures products == ps
    {
      products := ps;
    }

    method SetCategories(cs: seq<Category>)
      modifies this`categories
      ensures categories == cs
    {
      categories := cs;
    }

    method SetSelectedCategory(c: Category)
      modifies this`selectedCategory
      ensures selectedCategory == c
    {
      selectedCategory := c;
    }

    method SetSearchQuery(q: string)
      modifies this`searchQuery
      ensures searchQuery == q
    {
      searchQuery := q;
    }

    method SetLoading(loading: bool)
      modifies this`isLoading
      ensures isLoading == loading
    {
      isLoading := loading;
    }

    method SetError(e: Option<string>)
      modifies this`error
      ensures error == e
    {
      error := e;
    }

    /** `fetchData` around the two catalogue requests: a rejected wait or a
        failed request records its message and keeps the old lists; otherwise
        each list that arrived replaces the old one. Loading always ends. */
    method FetchData(outcome: FetchOutcome)
      modifies this`categories, this`products, this`isLoading, this`error
      ensures !isLoading
      ensures outcome.Rejected? ==>
                error == Some("Error al cargar los datos") && categories == old(categories) && products == old(products)
      ensures outcome.Responses? && outcome.categoriesData.failed ==>
                error == Some("Error al cargar las categorías") && categories == old(categories) && products == old(products)
      ensures outcome.Responses? && !outcome.categoriesData.failed && outcome.productsData.failed ==>
                error == Some("Error al cargar los productos") && categories == old(categories) && products == old(products)
      ensures outcome.Responses? && !outcome.categoriesData.failed && !outcome.productsData.failed ==>
                (error == None
                 && categories == outcome.categoriesData.data.GetOr(old(categories))
                 && products == outcome.productsData.data.GetOr(old(products)))
    {
      SetLoading(true);
      SetError(None);
      if outcome.Rejected? {
        SetError(Some("Error al cargar los datos"));
      } else if outcome.categoriesData.failed {
        SetError(Some("Error al cargar las categorías"));
      } else if outcome.productsData.failed {
        SetError(Some("Error al cargar los productos"));
      } else {
        if outcome.categoriesData.data.Some? {
          SetCategories(outcome.categoriesData.data.value);
        }
        if outcome.productsData.data.Some? {
          SetProducts(outcome.productsData.data.value);
        }
      }
      SetLoading(false);
    }

    /** `clearFilters`: back to every category and an empty query. */
    method ClearFilters()
      modifies this`selectedCategory, this`searchQuery
      ensures selectedCategory == AllCategories && searchQuery == ""
      ensures ShouldShowAllProducts() && SearchFilteredProducts() == products
    {
      SetSelectedCategory(AllCategories);
      SetSearchQuery("");
    }
  }
}

=== FILE: route_cache.dfy ===
/** The driving-route lookup from the store to a destination, behind a
    cache: entries are fresh for five minutes, at most twenty are kept, the
    earliest-inserted key is evicted first, and a lookup already in flight
    is never started twice. The directions service, the clock and the
    rounded-coordinate cache key are parameters. */
module RouteCache {
  import opened Wrappers
  import opened Text

  /** `CACHE_EXPIRY`, five minutes in milliseconds. */
  const CacheExpiry: int := 5 * 60 * 1000
  /** The most entries the cache keeps. */
  const MaxEntries: nat := 20
  const NoRouteMessage: string := "No se pudo calcular la ruta"
  const FallbackMessage: string := "Error al calcular la ruta"

  datatype Route = Route(distance: real, duration: real, coordinates: seq<(real, real)>)

  /** What the directions request produced: a decoded response, an `Error`
      thrown on the way (network or decoding), or some other thrown value. */
  datatype Lookup =
    | Responded(code: string, routes: Option<seq<Route>>)
    | ThrewError(message: string)
    | ThrewOther

  /** The route a response yields, or None when it counts as a failure
      (code other than 'Ok', or no routes). */
  function FirstRoute(l: Lookup): (r: Option<Route>)
    ensures r.Some? <==> l.Responded? && l.code == "Ok" && l.routes.Some? && |l.routes.value| > 0
    ensures r.Some? ==> r.value == l.routes.value[0]
  {
    if l.Responded? && l.code == "Ok" && l.routes.Some? && |l.routes.value| > 0
    then Some(l.routes.value[0]) else None
  }

  /** The `routeError` a failed lookup leaves. */
  function FailureMessage(l: Lookup): (m: string)
    requires FirstRoute(l).None?
    ensures l.Responded? ==> m == NoRouteMessage
    ensures l.ThrewError? ==> m == l.message
    ensures l.ThrewOther? ==> m == FallbackMessage
  {
    match l
    case Responded(_, _) => NoRouteMessage
    case ThrewError(message) => message
    case ThrewOther => FallbackMessage
  }

  predicate NoDuplicates<K(==)>(s: seq<K>)
  {
    forall i, j :: 0 <= i < j < |s| ==> s[i] != s[j]
  }

  /** The insertion order after `set(key)` and the size check: a new key goes
      last, an existing key keeps its place, and on overflow the first key
      is dropped. */
  function AfterStore<K(==)>(order: seq<K>, key: K): (r: seq<K>)
    ensures |order| <= MaxEntries ==> key in r && |r| <= MaxEntries
    ensures |order| <= MaxEntries && key in order ==> r == order
  {
    var o := if key in order then order else order + [key];
    if |o| > MaxEntries then
      assert key !in order ==> o[1..][|o| - 2] == key;
      o[1..]
    else o
  }

  /** The key `AfterStore` drops, if any. */
  function Evicted<K(==)>(order: seq<K>, key: K): (e: Option<K>)
  {
    if key !in order && |order| + 1 > MaxEntries then Some(order[0]) else None
  }

  lemma AfterStoreNoDuplicates<K>(order: seq<K>, key: K)
    requires NoDuplicates(order)
    ensures NoDuplicates(AfterStore(order, key))
  {
    var o := if key in order then order else order + [key];
    assert NoDuplicates(o) by {
      if key !in order {
        forall i, j | 0 <= i < j < |o| ensures o[i] != o[j] {
          if j == |order| { assert o[i] == order[i]; }
        }
      }
    }
  }

  /** Which keys survive a store: the stored key, and every earlier key
      except the evicted one. At most one key is evicted, and only when the
      cache was full and the key new; it is the first-inserted key. */
  lemma {:induction false} AfterStoreKeys<K>(order: seq<K>, key: K)
    requires NoDuplicates(order) && |order| <= MaxEntries
    ensures forall k :: k in AfterStore(order, key) <==> k == key || (k in order && Some(k) != Evicted(order, key))
    ensures Evicted(order, key).Some? <==> key !in order && |order| == MaxEntries
    ensures Evicted(order, key).Some? ==> Evicted(order, key).value == order[0] && order[0] != key
    ensures Evicted(order, key).None? ==> |AfterStore(order, key)| == |order| + (if key in order then 0 else 1)
    ensures Evicted(order, key).Some? ==> |AfterStore(order, key)| == MaxEntries
  {
    if key !in order && |order| + 1 > MaxEntries {
      var o := order + [key];
      forall k ensures k in o[1..] <==> k == key || (k in order && k != order[0]) {
        if k in o[1..] {
          var i :| 0 <= i < |o[1..]| && o[1..][i] == k;
          if i + 1 < |order| {
            assert k == order[i + 1];
            assert k != order[0];
          }
        }
        if k == key {
          assert o[1..][|order| - 1] == k;
        }
        if k in order && k != order[0] {
          var i :| 0 <= i < |order| && order[i] == k;
          assert o[1..][i - 1] == k;
        }
      }
    }
  }

  class RouteCache<K(==,!new)> {
    /** The insertion order of both maps: they are always written and deleted
        together, so one sequence records the order of each. */
    var order: seq<K>
    var routes: map<K, Route>
    var stamps: map<K, int>
    var route: Option<Route>
    var isLoadingRoute: bool
    var routeError: Option<string>

    ghost predicate Valid()
      reads this
    {
      && NoDuplicates(order)
      && |order| <= MaxEntries
      && (forall k :: k in routes <==> k in order)
      && (forall k :: k in stamps <==> k in order)
    }

    constructor ()
      ensures Valid()
      ensures order == [] && routes == map[] && stamps == map[]
      ensures route == None && !isLoadingRoute && routeError == None
    {
      order, routes, stamps := [], map[], map[];
      route, isLoadingRoute, routeError := None, false, None;
    }

    /** A cache hit: both entries present, a truthy (non-zero) timestamp, and
        an age under `CacheExpiry`. */
    predicate Fresh(key: K, now: int)
      reads this
    {
      key in routes && key in stamps && stamps[key] != 0 && now - stamps[key] < CacheExpiry
    }

    /** The part of `getRoute` before the request: a fresh entry is returned
        and becomes `route`; a miss while a request is in flight returns the
        current route; otherwise the request starts (`started`) with the
        loading flag set and the error cleared. */
    method BeginRoute(key: K, now: int) returns (started: bool, result: Option<Route>)
      requires Valid()
      modifies this`route, this`isLoadingRoute, this`routeError
      ensures Valid()
      ensures Fresh(key, now) ==>
                (!started && result == Some(routes[key]) && route == result
                 && isLoadingRoute == old(isLoadingRoute) && routeError == old(routeError))
      ensures !Fresh(key, now) && old(isLoadingRoute) ==>
                (!started && result == route == old(route) && isLoadingRoute && routeError == old(routeError))
      ensures !Fresh(key, now) && !old(isLoadingRoute) ==>
                (started && result == None && route == old(route) && isLoadingRoute && routeError == None)
    {
      if Fresh(key, now) {
        route := Some(routes[key]);
        return false, route;
      }
      if isLoadingRoute {
        return false, route;
      }
      isLoadingRoute := true;
      routeError := None;
      return true, None;
    }

    /** The part of `getRoute` after the request answered at `finishedAt`: a
        route is stored under the key with that time (evicting the first key
        on overflow) and returned; a failure stores nothing, records its
        message and returns None. Either way loading ends. */
    method CompleteRoute(key: K, lookup: Lookup, finishedAt: int) returns (result: Option<Route>)
      requires Valid()
      modifies this
      ensures Valid()
      ensures !isLoadingRoute
      ensures result == FirstRoute(lookup)
      ensures result.Some? ==>
                (route == result && routeError == old(routeError)
                 && order == AfterStore(old(order), key)
                 && key in routes && routes[key] == result.value
                 && key in stamps && stamps[key] == finishedAt
                 && (forall k :: k in routes && k != key ==> k in old(routes) && routes[k] == old(routes)[k])
                 && (forall k :: k in stamps && k != key ==> k in old(stamps) && stamps[k] == old(stamps)[k]))
      ensures result.None? ==>
                (route == old(route) && routeError == Some(FailureMessage(lookup))
                 && order == old(order) && routes == old(routes) && stamps == old(stamps))
    {
      result := FirstRoute(lookup);
      if result.Some? {
        route := result;
        AfterStoreNoDuplicates(order, key);
        AfterStoreKeys(order, key);
        var e := Evicted(order, key);
        routes := routes[key := result.value];
        stamps := stamps[key := finishedAt];
        if e.Some? {
          routes := map k | k in routes && k != e.value :: routes[k];
          stamps := map k | k in stamps && k != e.value :: stamps[k];
        }
        order := AfterStore(order, key);
      } else {
        routeError := Some(FailureMessage(lookup));
      }
      isLoadingRoute := false;
    }

    /** `getRoute` when no other call interleaves with it: the request (and the
        clock reading `finishedAt` after it) is used only on a miss with
        nothing in flight. */
    method GetRoute(key: K, now: int, lookup: Lookup, finishedAt: int) returns (result: Option<Route>)
      requires Valid()
      modifies this
      ensures Valid()
      ensures old(Fresh(key, now)) ==>
                (result == Some(old(routes)[key]) && route == result
                 && order == old(order) && routes == old(routes) && stamps == old(stamps)
                 && isLoadingRoute == old(isLoadingRoute) && routeError == old(routeError))
      ensures !old(Fresh(key, now)) && old(isLoadingRoute) ==>
                (result == old(route) && route == old(route) && isLoadingRoute && routeError == old(routeError)
                 && order == old(order) && routes == old(routes) && stamps == old(stamps))
      ensures !old(Fresh(key, now)) && !old(isLoadingRoute) ==> !isLoadingRoute && result == FirstRoute(lookup)
      ensures !old(Fresh(key, now)) && !old(isLoadingRoute) && result.Some? ==>
                (route == result && routeError == None && order == AfterStore(old(order), key)
                 && key in routes && routes[key] == result.value && key in stamps && stamps[key] == finishedAt
                 && (forall k :: k in routes && k != key ==> k in old(routes) && routes[k] == old(routes)[k])
                 && (forall k :: k in stamps && k != key ==> k in old(stamps) && stamps[k] == old(stamps)[k]))
      ensures !old(Fresh(key, now)) && !old(isLoadingRoute) && result.None? ==>
                (route == old(route) && routeError == Some(FailureMessage(lookup))
                 && order == old(order) && routes == old(routes) && stamps == old(stamps))
    {
      var started;
      started, result := BeginRoute(key, now);
      if started {
        result := CompleteRoute(key, lookup, finishedAt);
      }
    }
  }

  /** `formatDuration`: the duration in whole minutes (JavaScript rounding),
      as "m min" under an hour and "h h r min" from an hour on. */
  function FormatDuration(seconds: real): (s: string)
  {
    var minutes := Round(seconds / 60.0);
    if minutes < 60 then IntToString(minutes) + " min"
    else NatToString(minutes / 60) + "h " + NatToString(minutes % 60) + "min"
  }

  /** The text of `FormatDuration` names the rounded minutes exactly: under an
      hour they are printed whole, from an hour on as hours and a remainder
      below 60 that add back up to them. */
  lemma FormatDurationDenotes(seconds: real)
    ensures var m := Round(seconds / 60.0);
      (0 <= m < 60 ==> FormatDuration(seconds) == NatToString(m) + " min")
      && (m >= 60 ==>
            exists h: nat, r: nat ::
              && r < 60 && 60 * h + r == m && h >= 1
              && FormatDuration(seconds) == NatToString(h) + "h " + NatToString(r) + "min")
  {
    var m := Round(seconds / 60.0);
    if m >= 60 {
      var h: nat, r: nat := m / 60, m % 60;
      assert r < 60 && 60 * h + r == m && h >= 1
        && FormatDuration(seconds) == NatToString(h) + "h " + NatToString(r) + "min";
    }
  }

  /** Ninety minutes read "1h 30min"; forty-five read "45 min". */
  lemma FormatDurationExamples()
    ensures FormatDuration(5400.0) == "1h 30min"
    ensures FormatDuration(2700.0) == "45 min"
  {
    assert Round(5400.0 / 60.0) == 90;
    assert NatToString(1) == "1" && NatToString(30) == "30";
    assert Round(2700.0 / 60.0) == 45;
    assert NatToString(45) == "45";
  }
}

=== FILE: save_address.dfy ===
/** The checkout's save-address flow: post the new address, then put it
    first in the order store's list and select it. The insert is a
    parameter: the rows it returned, or what it threw. */
module SaveAddress {
  import opened Wrappers
  import opened Interfaces
  import opened AddressFormat
  import opened OrderStore

  const NoUserMessage: string := "No hay usuario autenticado"
  const NothingSavedMessage: string := "No se pudo guardar la dirección"
  const SaveFailedMessage: string := "Error al guardar la dirección"

  /** `{ success: true, address }` or `{ success: false, error }`. */
  datatype SaveResult = Saved(address: Address) | NotSaved(error: string)

  class AddressSaver {
    const orderStore: OrderStore
    var isSaving: bool
    var error: Option<string>

    constructor (orderStore: OrderStore)
      ensures this.orderStore == orderStore && !isSaving && error == None
    {
      this.orderStore := orderStore;
      isSaving, error := false, None;
    }

    /** `saveAddress`. With no user it throws before any change. Otherwise
        the payload is posted; the first returned row, formatted, goes first
        in the order store's list and becomes its selection. A failed or
        empty insert yields `NotSaved` with the message, and leaves the order
        store alone. Saving always ends. */
    method Save(userId: string, data: SaveAddressData, insert: Outcome<Option<seq<AddressRow>>>)
      returns (result: Outcome<SaveResult>, posted: Option<AddressPayload>)
      modifies this`isSaving, this`error, orderStore`addressList, orderStore`selectedAddress
      ensures userId == "" ==>
                (result == Threw(NoUserMessage) && posted == None
                 && isSaving == old(isSaving) && error == old(error)
                 && orderStore.addressList == old(orderStore.addressList)
                 && orderStore.selectedAddress == old(orderStore.selectedAddress))
      ensures userId != "" ==> posted == Some(SavePayload(userId, data)) && !isSaving && result.Done?
      ensures userId != "" && insert.Done? && insert.value.Some? && |insert.value.value| > 0 ==>
                (var saved := ToAddress(insert.value.value[0]);
                 && result == Done(Saved(saved)) && error == None
                 && orderStore.addressList == [saved] + old(orderStore.addressList)
                 && orderStore.selectedAddress == Some(saved))
      ensures userId != "" && insert.Done? && (insert.value.None? || |insert.value.value| == 0) ==>
                (result == Done(NotSaved(NothingSavedMessage)) && error == Some(NothingSavedMessage)
                 && orderStore.addressList == old(orderStore.addressList)
                 && orderStore.selectedAddress == old(orderStore.selectedAddress))
      ensures userId != "" && insert.Threw? ==>
                (var m := MessageOr(insert.message, SaveFailedMessage);
                 && result == Done(NotSaved(m)) && error == Some(m)
                 && orderStore.addressList == old(orderStore.addressList)
                 && orderStore.selectedAddress == old(orderStore.selectedAddress))
    {
      if userId == "" {
        return Threw(NoUserMessage), None;
      }
      isSaving := true;
      error := None;
      posted := Some(SavePayload(userId, data));
      match insert {
        case Threw(m) =>
          error := Some(MessageOr(m, SaveFailedMessage));
          result := Done(NotSaved(error.value));
        case Done(rows) =>
          if rows.None? || |rows.value| == 0 {
            error := Some(MessageOr(NothingSavedMessage, SaveFailedMessage));
            result := Done(NotSaved(error.value));
          } else {
            var formatted := ToAddress(rows.value[0]);
            orderStore.SetAddressList([formatted] + orderStore.addressList);
            orderStore.SetSelectedAddress(formatted);
            result := Done(Saved(formatted));
          }
      }
      isSaving := false;
    }
  }
}

=== FILE: search_history.dfy ===
/** The recent-searches list: most recent first, no repeats, at most ten
    entries. Loading from and saving to browser storage are left out; the
    loaded list is a constructor argument. */
module SearchHistory {
  import opened Text

  /** `MAX_ITEMS`. */
  const MaxItems: nat := 10

  predicate NoRepeats(h: seq<string>)
  {
    forall i, j :: 0 <= i < j < |h| ==> h[i] != h[j]
  }

  /** `a` can be obtained from `b` by deleting entries: it keeps `b`'s order. */
  predicate IsSubsequence(a: seq<string>, b: seq<string>)
    decreases |b|
  {
    if a == [] then true
    else if b == [] then false
    else if a[0] == b[0] then IsSubsequence(a[1..], b[1..])
    else IsSubsequence(a, b[1..])
  }

  /** `h.filter(t => t !== term)`. */
  function Without(h: seq<string>, term: string): (r: seq<string>)
    ensures forall x :: x in r <==> x in h && x != term
    ensures |r| <= |h|
    ensures term !in h ==> r == h
  {
    if h == [] then []
    else if h[0] == term then Without(h[1..], term)
    else [h[0]] + Without(h[1..], term)
  }

  /** The history after `add(term)`: a blank term changes nothing; otherwise
      the trimmed term goes first, its older copies are dropped, and the list
      is cut to `MaxItems`. */
  function Added(h: seq<string>, term: string): (r: seq<string>)
  {
    var clean := Trim(term);
    if clean == "" then h
    else
      var w := [clean] + Without(h, clean);
      if |w| > MaxItems then w[..MaxItems] else w
  }

  /** Filtering keeps the survivors in their order. */
  lemma {:induction false} WithoutIsSubsequence(h: seq<string>, term: string)
    ensures IsSubsequence(Without(h, term), h)
    decreases |h|
  {
    if h != [] {
      WithoutIsSubsequence(h[1..], term);
      if h[0] != term {
        assert ([h[0]] + Without(h[1..], term))[1..] == Without(h[1..], term);
      }
    }
  }

  lemma {:induction false} WithoutNoRepeats(h: seq<string>, term: string)
    requires NoRepeats(h)
    ensures NoRepeats(Without(h, term))
    decreases |h|
  {
    if h != [] {
      assert NoRepeats(h[1..]) by {
        forall i, j | 0 <= i < j < |h[1..]| ensures h[1..][i] != h[1..][j] {
          assert h[1..][i] == h[i + 1] && h[1..][j] == h[j + 1];
        }
      }
      WithoutNoRepeats(h[1..], term);
      if h[0] != term {
        var w := Without(h[1..], term);
        assert h[0] !in w by {
          forall k | 1 <= k < |h| ensures h[k] != h[0] { }
          assert h[0] !in h[1..];
        }
        var r := [h[0]] + w;
        forall i, j | 0 <= i < j < |r| ensures r[i] != r[j] {
          if i == 0 { assert r[j] == w[j - 1]; }
          else { assert r[i] == w[i - 1] && r[j] == w[j - 1]; }
        }
      }
    }
  }

  /** `add` of a non-blank term: the trimmed term is the first entry and
      occurs nowhere else, the list holds at most `MaxItems` entries, and
      the rest are the older entries other than the term, in their order. */
  lemma AddedPuts(h: seq<string>, term: string)
    requires !Blank(term)
    ensures var r := Added(h, term);
      && 1 <= |r| <= MaxItems
      && r[0] == Trim(term)
      && (forall i :: 1 <= i < |r| ==> r[i] != Trim(term))
      && r[1..] <= Without(h, Trim(term))
      && |r| == if 1 + |Without(h, Trim(term))| < MaxItems then 1 + |Without(h, Trim(term))| else MaxItems
  {
    var clean := Trim(term);
    var v := Without(h, clean);
    var w := [clean] + v;
    assert w[1..] == v;
    var r := if |w| > MaxItems then w[..MaxItems] else w;
    assert r == Added(h, term);
    assert r[1..] <= v;
    forall i | 1 <= i < |r| ensures r[i] != clean {
      assert r[i] == w[i] == v[i - 1];
      assert v[i - 1] in v;
    }
  }

  /** A blank term leaves the history as it was. */
  lemma AddedBlank(h: seq<string>, term: string)
    requires Blank(term)
    ensures Added(h, term) == h
  {
  }

  /** `add` keeps a repeat-free history repeat-free. */
  lemma AddedNoRepeats(h: seq<string>, term: string)
    requires NoRepeats(h)
    ensures NoRepeats(Added(h, term))
  {
    var clean := Trim(term);
    if clean != "" {
      WithoutNoRepeats(h, clean);
      var w := [clean] + Without(h, clean);
      assert NoRepeats(w) by {
        forall i, j | 0 <= i < j < |w| ensures w[i] != w[j] {
          assert w[j] == Without(h, clean)[j - 1];
          if i > 0 { assert w[i] == Without(h, clean)[i - 1]; }
        }
      }
    }
  }

  class SearchHistory {
    var history: seq<string>

    /** The history as loaded from storage. */
    constructor (stored: seq<string>)
      ensures history == stored
    {
      history := stored;
    }

    /** `add`. */
    method Add(term: string)
      modifies this
      ensures history == Added(old(history), term)
      ensures Blank(term) ==> history == old(history)
      ensures !Blank(term) ==> |history| <= MaxItems && history[0] == Trim(term)
      ensures NoRepeats(old(history)) ==> NoRepeats(history)
    {
      var clean := Trim(term);
      if clean == "" {
        return;
      }
      AddedPuts(history, term);
      if NoRepeats(history) {
        AddedNoRepeats(history, term);
      }
      var w := [clean] + Without(history, clean);
      history := if |w| > MaxItems then w[..MaxItems] else w;
    }

    /** `remove`: every copy of the term goes, the rest keep their order. */
    method Remove(term: string)
      modifies this
      ensures history == Without(old(history), term)
      ensures term !in history && IsSubsequence(history, old(history))
      ensures forall x :: x in history <==> x in old(history) && x != term
    {
      WithoutIsSubsequence(history, term);
      history := Without(history, term);
    }

    /** `clear`. */
    method Clear()
      modifies this
      ensures history == []
    {
      history := [];
    }
  }
}

=== FILE: store_status.dfy ===
/** Whether the store takes orders: the hours service's answer, unless the
    configuration bypasses it. The service call is a parameter. */
module StoreStatus {
  import opened Wrappers

  datatype StoreStatus = StoreStatus(abierto: Option<bool>, ultimaActualizacion: string)
  datatype StatusReply = StatusReply(success: bool, data: Option<StoreStatus>)

  /** The reply assumed before the service answers. */
  const DefaultReply: StatusReply := StatusReply(true, Some(StoreStatus(Some(true), "")))

  /** `isStoreOpen`: always open with the bypass flag or on a fetch error;
      otherwise the reply's `abierto` flag, open when any part of it is
      missing. */
  function IsStoreOpen(bypass: bool, fetchFailed: bool, reply: Option<StatusReply>): (open: bool)
    ensures bypass ==> open
    ensures !bypass && fetchFailed ==> open
    ensures !bypass && !fetchFailed && reply.Some? && reply.value.data.Some? && reply.value.data.value.abierto.Some? ==>
              open == reply.value.data.value.abierto.value
  {
    if bypass then true
    else if fetchFailed then true
    else if reply.Some? && reply.value.data.Some? then reply.value.data.value.abierto.GetOr(true)
    else true
  }

  /** The store reads as closed exactly when, without bypass or error, the
      service explicitly reported it closed. */
  lemma ClosedOnlyWhenReported(bypass: bool, fetchFailed: bool, reply: Option<StatusReply>)
    ensures !IsStoreOpen(bypass, fetchFailed, reply) <==>
              !bypass && !fetchFailed && reply.Some? && reply.value.data.Some?
              && reply.value.data.value.abierto == Some(false)
  {
  }

  /** Before any answer the store reads as open. */
  lemma DefaultIsOpen(bypass: bool)
    ensures IsStoreOpen(bypass, false, Some(DefaultReply))
  {
  }
}

=== FILE: supabase_api.dfy ===
/** The Supabase fetch helpers: default headers merged with the caller's,
    the default cache key, and the defaults of the lazy and imperative
    variants. The fetch itself is left out; each helper yields the request
    it would make. */
module SupabaseApi {
  import opened Wrappers
  import opened Interceptors

  const BaseUrl: string := "https://db.el24.cc/rest/v1"

  /** The runtime configuration's Supabase keys. */
  datatype RuntimeKeys = RuntimeKeys(supabaseApiKey: string, supabaseAuthToken: Option<string>)

  /** The defaults before the caller's headers are spread over them. */
  function DefaultHeaders(keys: RuntimeKeys): (h: Headers)
    ensures h.Keys == {"apikey", "Authorization", "Content-Type"}
    ensures h["apikey"] == keys.supabaseApiKey && h["Content-Type"] == Json
    ensures Truthy(keys.supabaseAuthToken) ==> h["Authorization"] == Bearer(keys.supabaseAuthToken.value)
    ensures !Truthy(keys.supabaseAuthToken) ==> h["Authorization"] == Bearer(keys.supabaseApiKey)
  {
    map["apikey" := keys.supabaseApiKey,
        "Authorization" := Bearer(if Truthy(keys.supabaseAuthToken) then keys.supabaseAuthToken.value
                                  else keys.supabaseApiKey),
        "Content-Type" := Json]
  }

  /** `getHeaders`: the caller's headers win over the defaults, and every
      default they do not name is kept. */
  function GetHeaders(keys: RuntimeKeys, additional: Option<Headers>): (h: Headers)
    ensures var extra := additional.GetOr(map[]);
      h.Keys == DefaultHeaders(keys).Keys + extra.Keys
      && (forall k :: k in extra ==> h[k] == extra[k])
      && (forall k :: k in DefaultHeaders(keys) && k !in extra ==> h[k] == DefaultHeaders(keys)[k])
  {
    DefaultHeaders(keys) + additional.GetOr(map[])
  }

  datatype Options = Options(key: Option<string>, lazy: Option<bool>, additionalHeaders: Option<Headers>)

  /** The request `useFetch` is given. */
  datatype FetchRequest = FetchRequest(url: string, baseURL: string, headers: Headers, key: string, lazy: Option<bool>)

  /** `fetch`: the key defaults to 'supabase-' + url. The caller's options
      are spread after the default, so a key the caller passes, even an
      empty one, is the key used. */
  function Fetch(keys: RuntimeKeys, url: string, options: Options): (r: FetchRequest)
    ensures r.url == url && r.baseURL == BaseUrl && r.lazy == options.lazy
    ensures r.headers == GetHeaders(keys, options.additionalHeaders)
    ensures options.key.None? ==> r.key == "supabase-" + url
    ensures options.key.Some? ==> r.key == options.key.value
  {
    var defaultKey := if Truthy(options.key) then options.key.value else "supabase-" + url;
    FetchRequest(url, BaseUrl, GetHeaders(keys, options.additionalHeaders),
                 if options.key.Some? then options.key.value else defaultKey,
                 options.lazy)
  }

  /** `fetchLazy`: the same request as `fetch`, but lazy. */
  function FetchLazy(keys: RuntimeKeys, url: string, options: Options): (r: FetchRequest)
    ensures r.lazy == Some(true)
  {
    Fetch(keys, url, options.(lazy := Some(true)))
  }

  /** The lazy variant differs from the plain one only in being lazy. */
  lemma LazyOnlyDiffersInLaziness(keys: RuntimeKeys, url: string, options: Options)
    ensures FetchLazy(keys, url, options) == Fetch(keys, url, options).(lazy := Some(true))
  {
  }

  /** The request `$fetch` is given; body and query are passed through and
      not modelled. */
  datatype ApiRequest = ApiRequest(url: string, baseURL: string, httpMethod: string, headers: Headers)

  /** `$api`: the method defaults to GET when not given. */
  function Api(keys: RuntimeKeys, url: string, httpMethod: Option<string>, additionalHeaders: Option<Headers>): (r: ApiRequest)
    ensures r.url == url && r.baseURL == BaseUrl
    ensures r.httpMethod == httpMethod.GetOr("GET")
    ensures r.headers == GetHeaders(keys, additionalHeaders)
  {
    ApiRequest(url, BaseUrl, if httpMethod.Some? then httpMethod.value else "GET", GetHeaders(keys, additionalHeaders))
  }

  /** Without extra headers both helpers authenticate with the same bearer
      value as the client's Supabase interceptor would for the same keys. */
  lemma HeadersMatchInterceptor(keys: RuntimeKeys, q: Request)
    requires Truthy(keys.supabaseAuthToken)
    ensures GetHeaders(keys, None)["Authorization"]
            == OnRequest(Supabase(keys.supabaseApiKey, keys.supabaseAuthToken.value), q).headers["Authorization"]
    ensures GetHeaders(keys, None)["apikey"]
            == OnRequest(Supabase(keys.supabaseApiKey, keys.supabaseAuthToken.value), q).headers["apikey"]
  {
  }
}

=== FILE: text.dfy ===
/** String helpers standing for the JavaScript built-ins the storefront calls:
    `trim`, `toLowerCase`, `toUpperCase`, `includes`, `startsWith`, the digit
    test `\d`, and the decimal rendering of a whole number. */
module Text {

  /** The characters `String.prototype.trim` removes: the ECMAScript white
      space (tab, vertical tab, form feed, the byte-order mark and every
      Unicode space separator) and the four line terminators. */
  predicate IsSpace(c: char) {
    c == ' ' || c == '\t' || c == '\n' || c == '\r' || c == '\U{000B}' || c == '\U{000C}'
    || c == '\U{00A0}' || c == '\U{FEFF}' || c == '\U{2028}' || c == '\U{2029}' || c == '\U{3000}'
    || c == '\U{1680}' || ('\U{2000}' <= c <= '\U{200A}') || c == '\U{202F}' || c == '\U{205F}'
  }

  /** True when every character of `s` is white space (so `s.trim()` is empty). */
  predicate Blank(s: string) {
    forall i :: 0 <= i < |s| ==> IsSpace(s[i])
  }

  function TrimStart(s: string): (r: string)
    ensures |r| <= |s| && r == s[|s| - |r|..]
    ensures r != [] ==> !IsSpace(r[0])
    ensures r == [] <==> Blank(s)
  {
    if s != [] && IsSpace(s[0]) then TrimStart(s[1..]) else s
  }

  function TrimEnd(s: string): (r: string)
    ensures |r| <= |s| && r == s[..|r|]
    ensures r != [] ==> !IsSpace(r[|r| - 1])
    ensures r == [] <==> Blank(s)
  {
    if s != [] && IsSpace(s[|s| - 1]) then TrimEnd(s[..|s| - 1]) else s
  }

  /** `s.trim()`: a slice of `s` that neither starts nor ends with white space,
      empty exactly when `s` is blank. */
  function Trim(s: string): (r: string)
    ensures |r| <= |s|
    ensures r != [] ==> !IsSpace(r[0]) && !IsSpace(r[|r| - 1])
    ensures r == [] <==> Blank(s)
    ensures exists i {:trigger s[i..]} :: 0 <= i <= |s| - |r| && r == s[i..i + |r|]
  {
    var t := TrimStart(s);
    var r := TrimEnd(t);
    var i := |s| - |t|;
    assert r == s[i..i + |r|] by {
      assert r == s[i..][..|r|];
    }
    assert r == [] ==> t == [] by {
      if t != [] {
        assert !IsSpace(t[0]);
        assert !Blank(t);
      }
    }
    r
  }

  function LowerChar(c: char): char {
    if 'A' <= c <= 'Z' then (c as int - 'A' as int + 'a' as int) as char else c
  }

  function UpperChar(c: char): char {
    if 'a' <= c <= 'z' then (c as int - 'a' as int + 'A' as int) as char else c
  }

  /** `s.toLowerCase()` on ASCII letters; every other character is kept. */
  function Lower(s: string): (r: string)
    ensures |r| == |s| && forall i :: 0 <= i < |s| ==> r[i] == LowerChar(s[i])
  {
    seq(|s|, i requires 0 <= i < |s| => LowerChar(s[i]))
  }

  /** `s.toUpperCase()` on ASCII letters; every other character is kept. */
  function Upper(s: string): (r: string)
    ensures |r| == |s| && forall i :: 0 <= i < |s| ==> r[i] == UpperChar(s[i])
  {
    seq(|s|, i requires 0 <= i < |s| => UpperChar(s[i]))
  }

  predicate OccursAt(hay: string, needle: string, i: int) {
    0 <= i && i + |needle| <= |hay| && hay[i..i + |needle|] == needle
  }

  /** `hay.includes(needle)`: `needle` occurs somewhere in `hay`. */
  function Contains(hay: string, needle: string): (r: bool)
    ensures r <==> exists i :: OccursAt(hay, needle, i)
  {
    if needle <= hay then
      assert OccursAt(hay, needle, 0);
      true
    else if hay == [] then
      false
    else
      var r := Contains(hay[1..], needle);
      assert forall i :: OccursAt(hay[1..], needle, i) ==> OccursAt(hay, needle, i + 1);
      assert forall i :: OccursAt(hay, needle, i) && i > 0 ==> OccursAt(hay[1..], needle, i - 1);
      r
  }

  /** `s.startsWith(prefix)`. */
  predicate StartsWith(s: string, prefix: string) {
    prefix <= s
  }

  /** The regular-expression class `\d`: an ASCII digit. */
  predicate IsDigit(c: char) {
    '0' <= c <= '9'
  }

  /** `/^\d{n}$/.test(s)`, decided character by character. */
  function AllDigits(s: string): (r: bool)
    ensures r <==> forall i :: 0 <= i < |s| ==> IsDigit(s[i])
  {
    if s == [] then true else IsDigit(s[0]) && AllDigits(s[1..])
  }

  function DigitChar(d: nat): (c: char)
    requires d < 10
    ensures IsDigit(c) && DigitValue(c) == d
  {
    ('0' as int + d) as char
  }

  function DigitValue(c: char): (d: nat)
    requires IsDigit(c)
    ensures d < 10
  {
    c as int - '0' as int
  }

  /** The decimal rendering of a whole number, as `String(n)` gives it:
      digits only, and no leading zero except for "0" itself. */
  function NatToString(n: nat): (s: string)
    ensures s != [] && AllDigits(s)
    ensures s[0] == '0' ==> n == 0 && s == "0"
  {
    if n < 10 then [DigitChar(n)] else NatToString(n / 10) + [DigitChar(n % 10)]
  }

  /** The whole number a string of digits denotes. */
  function ParseDigits(s: string): (n: nat)
    requires AllDigits(s)
  {
    if s == [] then 0 else 10 * ParseDigits(s[..|s| - 1]) + DigitValue(s[|s| - 1])
  }

  /** Reading back the rendering of `n` gives `n`: the rendering loses nothing. */
  lemma {:induction false} ParseNatToString(n: nat)
    ensures ParseDigits(NatToString(n)) == n
  {
    if n >= 10 {
      var s := NatToString(n / 10);
      ParseNatToString(n / 10);
      assert (s + [DigitChar(n % 10)])[..|s|] == s;
    }
  }

  /** Two numbers with the same rendering are equal. */
  lemma NatToStringInjective(m: nat, n: nat)
    requires NatToString(m) == NatToString(n)
    ensures m == n
  {
    ParseNatToString(m);
    ParseNatToString(n);
  }

  /** `String(i)` for a whole number, with a leading '-' when negative. */
  function IntToString(i: int): (s: string)
    ensures s != []
    ensures i >= 0 ==> s == NatToString(i)
    ensures i < 0 ==> s == "-" + NatToString(-i)
  {
    if i < 0 then "-" + NatToString(-i) else NatToString(i)
  }

  /** JavaScript's `Math.round(x)`: the nearest whole number, halves rounded up. */
  function Round(x: real): (n: int)
    ensures x - 0.5 < n as real <= x + 0.5
  {
    (x + 0.5).Floor
  }
}

=== FILE: user_addresses.dfy ===
/** The composable that loads the signed-in user's addresses with the
    spaced street spelling. The database select is a parameter. */
module UserAddresses {
  import opened Wrappers
  import opened Interfaces
  import opened AddressFormat

  const LoadFailedMessage: string := "Error al cargar direcciones"

  class UserAddresses {
    var addresses: seq<Address>
    var isLoading: bool
    var error: Option<string>

    constructor ()
      ensures addresses == [] && !isLoading && error == None
    {
      addresses, isLoading, error := [], false, None;
    }

    /** `loadAddresses`: without a user nothing changes. Any array result,
        even an empty one, replaces the list with its rows mapped in order;
        a non-array result keeps the old list. A thrown error empties the
        list and records its message. Loading always ends. */
    method LoadAddresses(userId: string, result: Outcome<Rows<AddressRow>>)
      modifies this
      ensures userId == "" ==> addresses == old(addresses) && isLoading == old(isLoading) && error == old(error)
      ensures userId != "" ==> !isLoading
      ensures userId != "" && result.Done? && result.value.Array? ==>
                addresses == ToAddresses(result.value.rows) && error == None
      ensures userId != "" && result.Done? && result.value.NotArray? ==>
                addresses == old(addresses) && error == None
      ensures userId != "" && result.Threw? ==>
                addresses == [] && error == Some(MessageOr(result.message, LoadFailedMessage))
    {
      if userId == "" {
        return;
      }
      isLoading := true;
      error := None;
      match result {
        case Done(rows) =>
          if rows.Array? {
            addresses := ToAddresses(rows.rows);
          }
        case Threw(m) =>
          error := Some(MessageOr(m, LoadFailedMessage));
          addresses := [];
      }
      isLoading := false;
    }
  }
}

=== FILE: verification.dfy ===
/** Phone verification at checkout: a 10-digit phone number, then a 4-digit
    PIN checked by the verification service, which on success records the
    phone in the order store. The service calls are parameters; browser
    storage is left out. */
module Verification {
  import opened Wrappers
  import opened Text
  import opened OrderStore

  const PhoneFormatMessage: string := "El teléfono debe tener exactamente 10 dígitos"
  const PinFormatMessage: string := "El PIN debe tener exactamente 4 dígitos"

  /** `/^\d{n}$/.test(s)`. */
  predicate ExactDigits(s: string, n: nat)
  {
    |s| == n && AllDigits(s)
  }

  /** What a call to the verification service answered. */
  datatype ServiceResult = ServiceResult(success: bool, error: Option<string>)

  lemma PhoneExamples()
    ensures ExactDigits("5512345678", 10)
    ensures !ExactDigits("55-1234567", 10) && !ExactDigits("551234567", 10)
  {
    assert !IsDigit("55-1234567"[2]);
  }

  class Verification {
    const orderStore: OrderStore
    var phoneNumber: string
    var pinCode: string
    /** `validationErrors.phone` and `validationErrors.pin`; None when the key is absent. */
    var phoneError: Option<string>
    var pinError: Option<string>
    var isPhoneNumberValid: bool
    var isPinCodeValid: bool

    constructor (orderStore: OrderStore)
      ensures this.orderStore == orderStore
      ensures phoneNumber == "" && pinCode == "" && phoneError == None && pinError == None
      ensures !isPhoneNumberValid && !isPinCodeValid
    {
      this.orderStore := orderStore;
      phoneNumber, pinCode := "", "";
      phoneError, pinError := None, None;
      isPhoneNumberValid, isPinCodeValid := false, false;
    }

    /** `validatePhoneNumber`: accepts exactly ten ASCII digits. A rejected
        number leaves the phone as it was and sets the phone error; an
        accepted one becomes the phone and marks it valid. */
    method ValidatePhoneNumber(input: string) returns (ok: bool)
      modifies this`phoneError, this`phoneNumber, this`isPhoneNumberValid
      ensures ok <==> |input| == 10 && forall i :: 0 <= i < |input| ==> '0' <= input[i] <= '9'
      ensures !ok ==> phoneNumber == old(phoneNumber) && isPhoneNumberValid == old(isPhoneNumberValid)
                      && phoneError == Some(PhoneFormatMessage)
      ensures ok ==> phoneNumber == input && isPhoneNumberValid && phoneError == Some("")
    {
      phoneError := Some("");
      if !ExactDigits(input, 10) {
        phoneError := Some(PhoneFormatMessage);
        return false;
      }
      phoneNumber := input;
      isPhoneNumberValid := true;
      return true;
    }

    /** `sendVerificationCode`: the service's answer, with its error shown
        under the phone field when it failed with one. */
    method SendVerificationCode(sent: ServiceResult) returns (ok: bool)
      modifies this`phoneError
      ensures ok == sent.success
      ensures !sent.success && Truthy(sent.error) ==> phoneError == sent.error
      ensures sent.success || !Truthy(sent.error) ==> phoneError == old(phoneError)
    {
      if !sent.success && Truthy(sent.error) {
        phoneError := sent.error;
      }
      return sent.success;
    }

    /** `validatePinCode`. A PIN that is not exactly four digits is rejected
        without asking the service (`asked` is false). A PIN the service
        rejects keeps the PIN, its validity and the order store's phone, and
        shows the service's error (or an empty one). An accepted PIN is stored,
        marked valid and the phone goes to the order store; the answer is
        true whatever creating the user then gives. */
    method ValidatePinCode(input: string, verified: ServiceResult) returns (ok: bool, asked: bool)
      modifies this`pinError, this`pinCode, this`isPinCodeValid, orderStore`phone
      ensures asked <==> ExactDigits(input, 4)
      ensures ok <==> ExactDigits(input, 4) && verified.success
      ensures !asked ==> pinError == Some(PinFormatMessage)
      ensures !ok ==> pinCode == old(pinCode) && isPinCodeValid == old(isPinCodeValid)
                      && orderStore.phone == old(orderStore.phone)
      ensures asked && !ok ==> pinError == if Truthy(verified.error) then verified.error else Some("")
      ensures ok ==> pinCode == input && isPinCodeValid && orderStore.phone == phoneNumber && pinError == Some("")
    {
      pinError := Some("");
      if !ExactDigits(input, 4) {
        pinError := Some(PinFormatMessage);
        return false, false;
      }
      if !verified.success {
        if Truthy(verified.error) {
          pinError := verified.error;
        }
        return false, true;
      }
      pinCode := input;
      isPinCodeValid := true;
      orderStore.SetPhone(phoneNumber);
      return true, true;
    }

    /** `clearVerificationState`: everything back to its initial value. */
    method ClearVerificationState()
      modifies this`phoneNumber, this`pinCode, this`isPhoneNumberValid, this`isPinCodeValid,
               this`phoneError, this`pinError
      ensures phoneNumber == "" && pinCode == "" && !isPhoneNumberValid && !isPinCodeValid
      ensures phoneError == None && pinError == None
    {
      phoneNumber, pinCode := "", "";
      isPhoneNumberValid, isPinCodeValid := false, false;
      phoneError, pinError := None, None;
    }
  }
}

=== FILE: wrappers.dfy ===
/** Optional values and the outcome of a call that may throw, shared by every module. */
module Wrappers {

  /** A value that may be absent: JavaScript's `undefined`/`null`. */
  datatype Option<+T> = None | Some(value: T) {

    /** The value, or `default` when absent: the `??` operator. */
    function GetOr(default: T): T {
      match this
      case Some(v) => v
      case None => default
    }
  }

  /** What an awaited call produced: a value, or an exception carrying its `message`. */
  datatype Outcome<+T> = Done(value: T) | Threw(message: string)

  /** `err?.message || fallback`: an empty message counts as missing. */
  function MessageOr(message: string, fallback: string): (r: string)
    ensures r != "" <== fallback != ""
    ensures message != "" ==> r == message
  {
    if message != "" then message else fallback
  }

  /** `findIndex(x => key(x) === k)`: the first index whose key is `k`, or -1. */
  function IndexOfKey<T>(s: seq<T>, key: T -> string, k: string): (i: int)
    ensures -1 <= i < |s|
    ensures i == -1 <==> forall j :: 0 <= j < |s| ==> key(s[j]) != k
    ensures i >= 0 ==> key(s[i]) == k && forall j :: 0 <= j < i ==> key(s[j]) != k
  {
    if s == [] then -1
    else if key(s[0]) == k then 0
    else var n := IndexOfKey(s[1..], key, k); if n == -1 then -1 else n + 1
  }

  /** JavaScript truthiness of an optional string: present and non-empty. */
  predicate Truthy(s: Option<string>) {
    s.Some? && s.value != ""
  }
}
